=== FILE: README.md ===
# Block A* on an octile grid, in Dafny

`blockastar.py` is a two-level grid path finder. A map of walkable and blocked cells is cut into
K×K blocks. Every walkable cell gets up to eight moves, four orthogonal and four diagonal. A diagonal
move may not cut a corner. Each move is weighted by the octile distance and filed as
`neighboursin` when it stays in the cell's block, or `neighboursout` when it crosses into another
block. A block's `egress` cells are its walkable perimeter cells with at least one crossing move.

A local distance database (LDDB) runs a Dijkstra search from every cell that follows only
`neighboursin` moves. A query then runs A* over blocks:

- A popped block first pulls the `g` of its `ingress` cells into its `egress` cells through the LDDB.
- It then pushes across block borders and announces new keys for the blocks it reached.
- The search stops once the least key is no smaller than the best `length` found so far.

This project models that core as immutable Dafny values and methods over them:

- `Geometry`: cell coordinates and the octile metric.
- `Costs`: costs extended with infinity.
- `Grids`: parsing the walkable matrix, and the construction of the adjacency and egress lists.
- `Walks`: walks over the move relation and their lengths.
- `Queues`: the heaps as bags with least-entry removal.
- `Lddb`: the block-restricted Dijkstra search and the LDDB.
- `SearchState`: the per-query `g`, `ingress` and `heapval` fields, their resets, and `initBlock`.
- `BlockSearch`: `blockAStar`.

Objects become coordinates:

- A cell is `Pos(row, col)`.
- A block is `Pos(row / K, col / K)`.
- The mutable fields of cells and blocks are maps in a `State` value that the search threads through.

The main results are as follows.

Construction:

- A cell's edge lists hold exactly its moves, each with its octile weight.
- They are split by whether the move stays in the cell's block.
- The egress lists hold exactly the walkable cells that have a move out of their block.

LDDB:

- Every LDDB entry is the length of an in-block walk.
- A drained Dijkstra run is a fixpoint of relaxation, and therefore holds the shortest in-block
  distances.
- Those distances are symmetric.

Search:

- No `g` ever goes up.
- A popped block's `ingress` set is empty after it is expanded.
- `length` never goes up.
- A bounded stop leaves only keys no smaller than `length`.
- Every finite `g`, and every finite result, is the length of an actual walk from the start.
- So the result is never below the octile distance from start to goal.

When start and goal share a block, the result is at most `dist[start][goal]` (lines 155-156, then
the `min` of line 168). It is not necessarily equal to it: a walk that leaves the block can be
shorter than any walk that stays inside it. The model proves the bound the code gives.

## Model

| member | source | states |
|---|---|---|
| Costs.AddLaws | blockastar.py:127-128 | cost addition behaves like Python's `inf` arithmetic: it is commutative and associative, zero is neutral, infinity absorbs, and adding the same cost keeps `<=` (and `<` when that cost is finite) |
| Costs.Min | blockastar.py:172 | `min` returns one of its arguments and is below both; it returns the second only when that is strictly smaller or the two are equal |
| Costs.GetUpdate | blockastar.py:119-120 | after `dist[k] = v` the table reads `v` at `k`, and every other key reads as before, a key never written still as infinity |
| Geometry.Octile | blockastar.py:10-13 | the octile distance lies between the Chebyshev and Manhattan distances; it is zero exactly on the same cell, 1 for an orthogonal neighbour and `sqrt(2)` for a diagonal one |
| Geometry.OctileSymmetric | blockastar.py:10-13 | the octile distance does not depend on the order of its arguments |
| Geometry.OctileTriangle | blockastar.py:10-13 | the octile distance obeys the triangle inequality, which makes it a consistent heuristic |
| Grids.ParseLayout | blockastar.py:61-71 | a zero K raises in `ceil(H/K)`, whatever H and W are; otherwise a zero or negative H or W (as `int` parses them) builds a grid with no cells and raises nothing; a negative K with cells raises in `block[i//K]` once the first cell's character is read; a positive K is accepted exactly when each of the H lines has at least W characters, else the first missing or short line is named; an accepted layout marks a cell walkable exactly when its character is `.` or `S` |
| Grids.LineBreakIsBlocked | blockastar.py:61 | for any lines, H, W, positive K and cell `(i, j)`: when `lines[i][j]` is a line break, which `readlines` keeps, an accepted layout marks that cell blocked, so a line one character short of W gets a blocked last cell |
| Grids.BlockInRange | blockastar.py:66-69 | the block `(i//K, j//K)` of an in-bounds cell is one of the `ceil(H/K)` × `ceil(W/K)` blocks created |
| Grids.EdgesAreMoves | blockastar.py:75-103 | every edge the construction gives a cell is a move (both ends walkable, adjacent, and a diagonal has both side cells walkable) weighted by the octile distance |
| Grids.MovesAreEdges | blockastar.py:75-103 | conversely, every move out of a cell appears among that cell's constructed edges with its octile weight |
| Grids.MoveSymmetric | blockastar.py:75-103 | the move relation is symmetric |
| Grids.File | blockastar.py:85-88 | filing splits the edge list as a bag: the two lists together hold every edge as often as the input does; same-block targets go to `neighboursin`, the rest to `neighboursout` |
| Grids.EgressExact | blockastar.py:105 | the perimeter-and-crossing-edge test of line 105 holds exactly for walkable cells having some move into another block |
| Grids.Build | blockastar.py:72-106 | the double loop yields, for every in-bounds cell, its filed edge lists; a cell is in a block's egress list exactly when it lies in that block and passes the egress test; all lists are wired to the move relation |
| Walks.Admissible | blockastar.py:159 | the octile distance between the ends of any walk is at most the walk's length, so the initial key never overestimates |
| Walks.ReverseWalk | blockastar.py:75-103 | a walk read backwards is a walk of the same length between the swapped ends |
| Walks.ReachesAdmissible | blockastar.py:159 | any length of a walk from `a` to `b` is at least their octile distance |
| Queues.PopMin | blockastar.py:123 | `heappop` returns an entry of the queue that precedes every entry in Python's tuple order, and the rest of the queue is the queue without that one entry |
| Queues.LeastUnique | blockastar.py:33-34 | the tie break by coordinate makes the least entry of a queue unique |
| Lddb.RelaxEdge | blockastar.py:127-129 | when `dist[u] + weight` is strictly below the target's entry, that entry becomes exactly this sum and the pair is pushed; otherwise table and queue are unchanged; so no entry rises and every changed entry is on the queue |
| Lddb.RelaxFrom | blockastar.py:126-129 | after relaxing all of `neighboursin` of `u`, every edge out of `u` is relaxed, no entry went up, and an entry that no edge of `u` leads to is unchanged; a new or changed entry is exactly `dist[u]` plus the weight of an edge of `u` into it; the old queue is still the front of the queue, every entry pushed behind it names a changed entry and carries `dist[u]` plus the weight of an edge into it, and every changed entry is among them with its final value |
| Lddb.Dijkstra | blockastar.py:118-130 | `dist[s] = 0`, every entry is the length of a walk from `s` that stays in the block of `s`, so every entry lies in that block; a drained run leaves every edge relaxed |
| Lddb.SettledIsShortest | blockastar.py:118-130 | a table that is a relaxation fixpoint with `dist[s] = 0` is no larger than the length of any in-block walk from `s` |
| Lddb.ShortestSymmetric | blockastar.py:133-139 | shortest in-block tables from `a` and `b` agree: `dist[a][b] == dist[b][a]`, both infinite when neither reaches the other |
| Lddb.BuildLddb | blockastar.py:133-139 | the LDDB has one table per cell, each a sound in-block table from its cell, and shortest when every run drained |
| SearchState.Fresh | blockastar.py:24-44 | the constructors leave every `g` and `heapval` infinite and every `ingress` empty, for exactly the cells and blocks of the grid |
| SearchState.QuiescentUnique | blockastar.py:109-115 | there is only one reset state per layout |
| SearchState.ResetCell | blockastar.py:27-28 | `Cell.reset` makes that cell's `g` infinite and changes nothing else |
| SearchState.ResetBlock | blockastar.py:47-49 | `Block.reset` empties that block's `ingress`, makes its `heapval` infinite and changes nothing else |
| SearchState.ResetGrid | blockastar.py:109-115 | `Grid.reset` leaves every `g` infinite, every `ingress` empty and every `heapval` infinite, whatever the earlier state |
| SearchState.SeedIngress | blockastar.py:145-148 | each egress cell gets `g = dist[cell][c]`, the finite ones join the block's `ingress`, and nothing else changes |
| SearchState.InitBlock | blockastar.py:142-149 | returns the cell's block; with `start` it seeds the egress cells and ingress set of that block only; with `goal` it changes nothing |
| BlockSearch.ReachGoal | blockastar.py:166-168 | `length` drops to the least `y.g + dist[goal][y]` over the ingress cells and never rises; a finite result is the length of a walk from start to goal |
| BlockSearch.PullToExit | blockastar.py:171-172 | an egress cell's `g` ends at most `y.g + dist[xin][y]` for each ingress cell `y`, and equal to its old value or to one of these candidates, so it is their minimum with the old value; no other `g` changes, and every finite `g` is still a walk length |
| BlockSearch.PushEdge | blockastar.py:173-178 | after one crossing edge the target's `g` is the smaller of itself and `xin.g + weight`; when that improves it, the target joins its block's `ingress` and that block's candidate key becomes the smaller of itself and `g + octile(xout, goal)`, every other candidate key unchanged; without an improvement `g`, `ingress` and the candidate keys are unchanged |
| BlockSearch.PushAcross | blockastar.py:173-178 | after all crossing edges of `xin` every target satisfies `g ≤ xin.g + weight`; a changed `g` is exactly `xin.g + weight` for a crossing edge of `xin` into that cell, so a cell no such edge leads to keeps its `g`; every changed cell outside the popped block is in its block's `ingress`, and that block's candidate key is at most `g + octile(cell, goal)`; a cell joins an `ingress` set only if its `g` dropped, and a new or changed candidate key is exactly `g + octile(c, goal)` for some cell `c` of that block whose `g` dropped; the popped block's cells and ingress set are untouched; candidate keys only go down |
| BlockSearch.ExitStep | blockastar.py:170-178 | one egress cell's pull and push extend the sweep invariant by one cell: `g` only goes down and stays a walk length, the popped block changes only at the egress cells done so far, and a cell of another block changes only as the target of a crossing edge of one of them, and is then in its block's `ingress` with a candidate key; a cell joins an `ingress` set only if its `g` dropped, and every candidate key is exactly `g + octile(c, goal)` for some cell `c` of its block whose `g` dropped |
| BlockSearch.Sweep | blockastar.py:170-178 | the sweep over all egress cells keeps every finite `g` a walk length, raises no `g`, only grows ingress sets, leaves the popped block's `ingress` and its non-egress cells untouched, changes a cell of another block only when it is the target of a crossing edge of an egress cell, and gives every such changed cell a place in its block's `ingress` and a candidate key no larger than `g + octile(cell, goal)`; a cell joins an `ingress` set only if its `g` dropped, and every candidate key is exactly `g + octile(c, goal)` for some cell `c` of its block whose `g` dropped, so it is the least such value |
| BlockSearch.Announce | blockastar.py:179-181 | every block with a candidate key gets that key as its `heapval` and is pushed with it; no other `heapval` changes; nothing else is pushed |
| BlockSearch.Expand | blockastar.py:166-182 | expanding a block keeps the query consistent, raises no `g`, changes cells of other blocks only at targets of the popped block's egress crossing edges, empties the popped block's `ingress` and only grows the others, by cells whose `g` dropped; every push names another block with its new `heapval` and carries exactly `g + octile(c, goal)` for some cell `c` of that block whose `g` dropped; `length` changes only for the goal block, and there it becomes the least of its old value and the ingress candidates `y.g + dist[goal][y]` |
| BlockSearch.SearchStep | blockastar.py:160-182 | one turn pops the least entry; it stops exactly when the key is at least `length`, skips exactly when the key is above the block's `heapval`, and otherwise expands; a stop or skip leaves the queue less the popped entry; an expansion leaves it less the popped entry plus the pushes, each naming another block with its new `heapval` and carrying exactly `g + octile(c, goal)` for a cell `c` of that block whose `g` dropped, empties the popped block's `ingress`, grows the others only by cells whose `g` dropped, changes cells of other blocks only at targets of its egress crossing edges, and changes `length` only for the goal block, to the least of its old value and the ingress candidates; a bounded stop leaves only keys no smaller than `length` |
| BlockSearch.Search | blockastar.py:160-183 | the loop keeps the query consistent, raises no `g` and never raises `length`; it ends with an empty queue or with every key at least `length` |
| BlockSearch.SeedStart | blockastar.py:142-150 | `initBlock(start)` on a reset state: each egress cell `c` of the start block holds `dist[start][c]`, every other `g` is infinite, the start block's `ingress` is exactly its egress cells with a finite distance, every other `ingress` is empty, `heapval` is untouched, and the state is consistent |
| BlockSearch.Prepare | blockastar.py:153-158 | after seeding, the start block's egress cells hold `dist[start][c]`, its `ingress` is exactly those with a finite distance, every other `g` is infinite, every other `ingress` is empty, `heapval` is untouched and the state is consistent; the first `length` is `dist[start][goal]` for a shared block and infinite otherwise |
| BlockSearch.BlockAStar | blockastar.py:152-183 | the result is at most `dist[start][goal]` when start and goal share a block; a finite result is the length of an actual walk from start to goal and so at least their octile distance |

## Left out

- Reading the map file and its header (lines 60-64 and the `i+4` offset of line 69): the model takes the map lines after the header, as `readlines` returns them with their line breaks, and H, W and K directly.
- Grids.ParseLayout: when H or W is zero or negative the source keeps the parsed sizes and builds no cells; with a negative K and negative H and W it even builds blocks that no cell belongs to. The model records such a grid as a `max(H, 0)` by `max(W, 0)` layout, with block size 1 for a negative K, which has no cells either; nothing in the search can name a block without cells. The source's two `IndexError`s of line 69 are told apart (`NoBlocks` and the missing or short line) where Python raises the same exception.
- The unused `direction` field (line 62), `coord`, `cell_at`, `__str__` and `__repr__`.
- The drivers `test_single` and `test_all` (lines 186-234): argument handling, scenario files, timing, printing and the 1e-6 tolerance check.
- Floating-point arithmetic: costs are exact reals, and `sqrt(2)` is the real `1.4142135623730951` (`Geometry.D`), close to the double `sqrt(2)` returns but not its exact value. Rounding in sums is not modelled.
- The order of Python set iteration over `ingress` (lines 167 and 171) and dict iteration over `newheapval` (line 179): the model iterates in an order it chooses nondeterministically, and every contract holds for any order.
- The heap's internal layout: a queue is a sequence, and `heappop` is any least entry under the tuple order.
- `defaultdict` inserting a default on read: reads go through `Costs.Get`, which treats a missing key as infinity, and no entry is created.
- Lddb.RelaxFrom: does not state that each changed entry is pushed only once. That needs `neighboursin` to name each target once. The eight distinct directions of lines 77 and 90 give this, but `Grids.Wired` does not record it.
- Lddb.Dijkstra: the pop loop takes a `fuel` bound because real weights give Dafny no termination measure. `settled` reports whether the queue drained, and relaxation is promised only then.
- Lddb.BuildLddb: shortest tables are promised only when every Dijkstra run drained within its fuel.
- BlockSearch.Search: the block loop takes `fuel` for the same reason and may stop with `OutOfFuel`. Then only the invariants hold, not the bound on the remaining keys.
- BlockSearch.BlockAStar: requires a reset state, as both drivers provide (a fresh grid at line 187, `grid.reset()` at line 213). On a dirty state the source starts from stale `g` values, and no walk property holds.
- BlockSearch.BlockAStar: optimality is not proved. The source means the result to be the shortest walk length over the whole grid; only soundness (a real walk, at least the octile distance) and the same-block bound are stated.
- BlockSearch.Expand: does not restate, for the whole sweep, that every crossing edge of every egress cell ends relaxed. It holds: a later pull writes only the pulled egress cell, which is a different cell because the egress list has no repeats, and a later push writes only cells of other blocks. It is left out for proof cost only, not because it fails: carrying it through the sweep invariant makes every sweep step's proof much larger. The fact is proved per egress cell by `BlockSearch.PushAcross`.
- BlockSearch.Sweep: does not state the final `g` of each egress cell. Line 172 pulls from the current `g` of the ingress cells, and an ingress cell can itself be an egress cell that is pulled earlier or later in the sweep, so the value is defined only against the intermediate states. `BlockSearch.PullToExit` states it exactly for one egress cell against the state it starts from.
- BlockSearch.ExitStep: for the same reason, does not restate the pulled value of its egress cell in the sweep invariant; `BlockSearch.PullToExit` states it.
- BlockSearch.Expand: does not state the egress cells' final `g` either, for the reason given for `BlockSearch.Sweep`.
- BlockSearch.Expand, BlockSearch.Search: they ask of the grid only the facts the search uses. Every egress list names cells of its block, and every cell's `neighboursout` holds weighted crossing moves. `BlockSearch.WiredSearchGrid` derives these from the output of `Grids.Build`.
- `Grid.reset` leaving the adjacency and egress lists unchanged holds by construction: the grid and the query state are separate values.

=== FILE: blocksearch.dfy ===
/** Block-level A* (blockastar.py lines 152-183): the search pops blocks, relaxes each popped block's
    ingress cells into its egress cells through the LDDB, pushes across block borders, and stops once
    the least key reaches the best length found. */
module BlockSearch {
  import opened Geometry
  import opened Costs
  import opened Grids
  import opened Walks
  import opened Queues
  import opened Lddb
  import opened SearchState

  /** What the search needs of a cell's `neighboursout` list: each entry is a weighted move into
      another block (a consequence of `Wired`). */
  ghost predicate CrossEdges(g: Grid, x: Pos) {
    x in g.nout && forall e :: e in g.nout[x] ==>
      IsMove(g.layout, x, e.to) && !SameBlock(g.layout, x, e.to) && e.weight == Octile(x, e.to)
  }

  /** The grid facts the search relies on. */
  ghost predicate SearchGrid(g: Grid) {
    && EgressIndexed(g)
    && (forall x {:trigger CrossEdges(g, x)} :: InBounds(g.layout, x) ==> CrossEdges(g, x))
    && (forall b :: b in g.egress ==> Ascending(g.egress[b]))
  }

  lemma WiredSearchGrid(g: Grid)
    requires Wired(g)
    ensures SearchGrid(g)
  {
    WiredIndexed(g);
  }

  /** Every finite `g` is the length of some walk from `start` to its cell. */
  ghost predicate Witnessed(l: Layout, gs: map<Pos, Cost>, start: Pos) {
    forall c :: c in gs && gs[c].Fin? ==> Reaches(l, start, c, gs[c].v)
  }

  /** Every ingress cell is a cell of its block with a finite `g`. */
  ghost predicate IngressSound(l: Layout, gs: map<Pos, Cost>, ingress: map<Pos, set<Pos>>) {
    forall b, y {:trigger y in ingress[b]} :: b in ingress && y in ingress[b] ==> y in gs && gs[y].Fin? && BlockOf(l, y) == b
  }

  /** The invariant of a query: the state is shaped like the grid, every finite `g` is the length of
      an actual walk from `start`, and ingress cells are reached cells of their block. */
  ghost predicate Consistent(l: Layout, st: State, start: Pos) {
    Shaped(l, st) && Witnessed(l, st.g, start) && IngressSound(l, st.g, st.ingress)
  }

  /** No `g` went up, and no cell was added or removed. */
  ghost predicate GDown(gs0: map<Pos, Cost>, gs: map<Pos, Cost>) {
    && gs.Keys == gs0.Keys
    && forall c :: c in gs0 ==> Le(gs[c], gs0[c])
  }

  /** No ingress set lost a cell, and no block was added or removed. */
  ghost predicate IngressGrows(ing0: map<Pos, set<Pos>>, ing: map<Pos, set<Pos>>) {
    && ing.Keys == ing0.Keys
    && forall b :: b in ing0 ==> ing0[b] <= ing[b]
  }

  /** The candidate keys (`newheapval`) name blocks other than `blk` and never went up. */
  ghost predicate KeysDown(l: Layout, nhv0: map<Pos, real>, nhv: map<Pos, real>, blk: Pos) {
    && (forall b :: b in nhv0 ==> b in nhv && nhv[b] <= nhv0[b])
    && (forall b :: b in nhv ==> InBlockRange(l, b) && b != blk)
  }

  /** Every cell outside block `blk` whose `g` improved since `gs0` is in its block's ingress set,
      and its block's candidate key is at most its `g` plus its octile distance to `goal`. */
  ghost predicate Tracked(l: Layout, gs0: map<Pos, Cost>, gs: map<Pos, Cost>, ing: map<Pos, set<Pos>>,
                          nhv: map<Pos, real>, goal: Pos, blk: Pos) {
    forall c {:trigger gs[c], gs0[c]} :: c in gs0 && c in gs && gs[c] != gs0[c] && BlockOf(l, c) != blk ==>
      && gs[c].Fin?
      && BlockOf(l, c) in ing && c in ing[BlockOf(l, c)]
      && BlockOf(l, c) in nhv && nhv[BlockOf(l, c)] <= gs[c].v + Octile(c, goal)
  }

  /** Every cell that joined an ingress set since `ing0` has a `g` below its `gs0` value: a cell
      joins only when its `g` improves (lines 175-177). */
  ghost predicate IngressOrigin(gs0: map<Pos, Cost>, gs: map<Pos, Cost>, ing0: map<Pos, set<Pos>>,
                                ing: map<Pos, set<Pos>>) {
    forall b, c {:trigger c in ing[b]} :: b in ing0 && b in ing && c in ing[b] && c !in ing0[b] ==>
      c in gs0 && c in gs && Lt(gs[c], gs0[c])
  }

  /** `key` is `g + octileDist(c, goal)` for a cell `c` of block `b` whose `g` dropped below its `gs0`
      value. */
  ghost predicate KeyFrom(l: Layout, gs0: map<Pos, Cost>, gs: map<Pos, Cost>, goal: Pos, b: Pos, c: Pos, key: real) {
    c in gs0 && c in gs && BlockOf(l, c) == b && Lt(gs[c], gs0[c]) && gs[c].Fin? && key == gs[c].v + Octile(c, goal)
  }

  /** Every candidate key that is new or changed since `nhv0` comes from an improved cell of its block
      (line 178). */
  ghost predicate KeyOrigin(l: Layout, gs0: map<Pos, Cost>, gs: map<Pos, Cost>, nhv0: map<Pos, real>,
                            nhv: map<Pos, real>, goal: Pos) {
    forall b :: b in nhv && (b !in nhv0 || nhv[b] != nhv0[b]) ==> exists c :: KeyFrom(l, gs0, gs, goal, b, c, nhv[b])
  }

  /** Where new ingress cells and new candidate keys come from. */
  ghost predicate Originated(l: Layout, gs0: map<Pos, Cost>, gs: map<Pos, Cost>, ing0: map<Pos, set<Pos>>,
                             ing: map<Pos, set<Pos>>, nhv0: map<Pos, real>, nhv: map<Pos, real>, goal: Pos) {
    IngressOrigin(gs0, gs, ing0, ing) && KeyOrigin(l, gs0, gs, nhv0, nhv, goal)
  }

  /** Ingress origins compose across a pull (from `gs1` to `gs2`) and a push (from `gs2` to `gs`):
      `g` only goes down, so a cell that improved stays improved. */
  lemma IngressOriginStep(gs0: map<Pos, Cost>, gs1: map<Pos, Cost>, gs2: map<Pos, Cost>, gs: map<Pos, Cost>,
                          ing0: map<Pos, set<Pos>>, ing1: map<Pos, set<Pos>>, ing: map<Pos, set<Pos>>)
    requires IngressOrigin(gs0, gs1, ing0, ing1) && IngressOrigin(gs2, gs, ing1, ing)
    requires GDown(gs0, gs1) && GDown(gs1, gs2) && GDown(gs2, gs) && IngressGrows(ing0, ing1)
    ensures IngressOrigin(gs0, gs, ing0, ing)
  {
    forall b, c | b in ing0 && b in ing && c in ing[b] && c !in ing0[b]
      ensures c in gs0 && c in gs && Lt(gs[c], gs0[c])
    {
      if c in ing1[b] {
        assert Lt(gs1[c], gs0[c]);
      } else {
        assert Lt(gs[c], gs2[c]);
      }
    }
  }

  /** Key origins compose across a pull inside `blk` and a tracked push. A key kept from before still
      has its cell's `g`: had that `g` dropped again, tracking would have lowered the key. */
  lemma KeyOriginStep(l: Layout, blk: Pos, goal: Pos, gs0: map<Pos, Cost>, gs1: map<Pos, Cost>,
                      gs2: map<Pos, Cost>, gs: map<Pos, Cost>, ing: map<Pos, set<Pos>>,
                      nhv0: map<Pos, real>, nhv1: map<Pos, real>, nhv: map<Pos, real>)
    requires KeyOrigin(l, gs0, gs1, nhv0, nhv1, goal) && KeyOrigin(l, gs2, gs, nhv1, nhv, goal)
    requires GDown(gs0, gs1) && GDown(gs1, gs2) && GDown(gs2, gs)
    requires forall c :: c in gs1 && BlockOf(l, c) != blk ==> gs2[c] == gs1[c]
    requires KeysDown(l, nhv1, nhv, blk) && Tracked(l, gs2, gs, ing, nhv, goal, blk)
    ensures KeyOrigin(l, gs0, gs, nhv0, nhv, goal)
  {
    forall b | b in nhv && (b !in nhv0 || nhv[b] != nhv0[b])
      ensures exists c :: KeyFrom(l, gs0, gs, goal, b, c, nhv[b])
    {
      if b in nhv1 && nhv[b] == nhv1[b] {
        var c :| KeyFrom(l, gs0, gs1, goal, b, c, nhv1[b]);
        assert gs2[c] == gs1[c];
        KeyKept(l, goal, gs0, gs1, gs, b, c, nhv[b]);
      } else {
        var c :| KeyFrom(l, gs2, gs, goal, b, c, nhv[b]);
        assert KeyFrom(l, gs0, gs, goal, b, c, nhv[b]);
      }
    }
  }

  /** A key that came from cell `c` and was not lowered since still comes from `c`: `c`'s `g` cannot
      have dropped further, as the key is at most the new `g` plus the octile distance. */
  lemma KeyKept(l: Layout, goal: Pos, gs0: map<Pos, Cost>, gs1: map<Pos, Cost>, gs: map<Pos, Cost>,
                b: Pos, c: Pos, key: real)
    requires KeyFrom(l, gs0, gs1, goal, b, c, key) && c in gs && Le(gs[c], gs1[c])
    requires gs[c] != gs1[c] ==> gs[c].Fin? && key <= gs[c].v + Octile(c, goal)
    ensures KeyFrom(l, gs0, gs, goal, b, c, key)
  {
  }

  /** A walk to `y` followed by the LDDB walk between `y` and `x`, read from `x`'s table. */
  lemma ReachesVia(l: Layout, dist: map<Pos, real>, x: Pos, start: Pos, y: Pos, d: real)
    requires LocalTable(l, dist, x) && y in dist && Reaches(l, start, y, d)
    ensures Reaches(l, start, x, d + dist[y])
  {
    var v := LocalWitness(l, dist, x, y);
    ReachesBack(l, start, y, d, v, x);
  }

  /** Lowering one cell's `g` to the length of a walk keeps every finite `g` witnessed. */
  lemma WitnessedSet(l: Layout, gs: map<Pos, Cost>, start: Pos, c: Pos, d: real)
    requires Witnessed(l, gs, start) && Reaches(l, start, c, d)
    ensures Witnessed(l, gs[c := Fin(d)], start)
  {
  }

  /** Adding a reached cell of block `b` to `b`'s ingress set keeps ingress sound. */
  lemma IngressAdd(l: Layout, gs: map<Pos, Cost>, ing: map<Pos, set<Pos>>, c: Pos, d: real)
    requires IngressSound(l, gs, ing) && c in gs && BlockOf(l, c) in ing
    ensures IngressSound(l, gs[c := Fin(d)], ing[BlockOf(l, c) := ing[BlockOf(l, c)] + {c}])
  {
  }

  /** Every edge relaxed against `gs1` stays relaxed in `gs` when no `g` went up and `x.g` held. */
  lemma RelaxedKept(edges: seq<Edge>, i: nat, x: Pos, gs1: map<Pos, Cost>, gs: map<Pos, Cost>)
    requires i <= |edges| && x in gs1 && x in gs && gs[x] == gs1[x] && GDown(gs1, gs)
    requires forall k :: 0 <= k < i ==> edges[k].to in gs1 && Le(gs1[edges[k].to], Add(gs1[x], Fin(edges[k].weight)))
    ensures forall k :: 0 <= k < i ==> edges[k].to in gs && Le(gs[edges[k].to], Add(gs[x], Fin(edges[k].weight)))
  {
  }

  /** The state of the loop of lines 167-168 once the cells of `ys` outside `rest` have been seen:
      `length` is at most every candidate seen, is the old length or one of the candidates, and is the
      length of a walk when finite. */
  ghost predicate GoalScanned(l: Layout, db: map<Pos, map<Pos, real>>, gs: map<Pos, Cost>, goal: Pos,
                              ys: set<Pos>, rest: set<Pos>, length0: Cost, length: Cost, start: Pos) {
    && goal in db && (forall y :: y in ys ==> y in gs) && rest <= ys
    && Le(length, length0)
    && (forall y :: y in ys - rest ==> Le(length, Add(gs[y], Get(db[goal], y))))
    && (length == length0 || exists y :: y in ys && length == Add(gs[y], Get(db[goal], y)))
    && (length.Fin? ==> Reaches(l, start, goal, length.v))
  }

  /** One pass of line 168 keeps `GoalScanned` with one more cell seen. */
  lemma GoalStep(l: Layout, db: map<Pos, map<Pos, real>>, gs: map<Pos, Cost>, goal: Pos, ys: set<Pos>,
                 rest: set<Pos>, y: Pos, length0: Cost, length: Cost, start: Pos)
    requires GoalScanned(l, db, gs, goal, ys, rest, length0, length, start) && y in rest
    requires LocalTable(l, db[goal], goal) && Witnessed(l, gs, start)
    ensures GoalScanned(l, db, gs, goal, ys, rest - {y}, length0, Min(length, Add(gs[y], Get(db[goal], y))), start)
  {
    var cand := Add(gs[y], Get(db[goal], y));
    if Lt(cand, length) {
      assert Min(length, cand) == cand;
      ReachesVia(l, db[goal], goal, start, y, gs[y].v);
      GoalTake(l, db, gs, goal, ys, rest, y, length0, length, start);
    } else {
      assert Min(length, cand) == length;
      GoalKeep(l, db, gs, goal, ys, rest, y, length0, length, start);
    }
  }

  /** A candidate below the current length replaces it. */
  lemma GoalTake(l: Layout, db: map<Pos, map<Pos, real>>, gs: map<Pos, Cost>, goal: Pos, ys: set<Pos>,
                 rest: set<Pos>, y: Pos, length0: Cost, length: Cost, start: Pos)
    requires GoalScanned(l, db, gs, goal, ys, rest, length0, length, start) && y in rest
    requires Lt(Add(gs[y], Get(db[goal], y)), length)
    requires Reaches(l, start, goal, Add(gs[y], Get(db[goal], y)).v)
    ensures GoalScanned(l, db, gs, goal, ys, rest - {y}, length0, Add(gs[y], Get(db[goal], y)), start)
  {
  }

  /** A candidate no smaller than the current length leaves it. */
  lemma GoalKeep(l: Layout, db: map<Pos, map<Pos, real>>, gs: map<Pos, Cost>, goal: Pos, ys: set<Pos>,
                 rest: set<Pos>, y: Pos, length0: Cost, length: Cost, start: Pos)
    requires GoalScanned(l, db, gs, goal, ys, rest, length0, length, start) && y in rest
    requires !Lt(Add(gs[y], Get(db[goal], y)), length)
    ensures GoalScanned(l, db, gs, goal, ys, rest - {y}, length0, length, start)
  {
  }

  /** Lines 166-168: for the goal block, the best length drops to `y.g + dist[goal][y]` for each
      ingress cell `y`. The result is the least of the old length and those sums. */
  method ReachGoal(l: Layout, db: map<Pos, map<Pos, real>>, gs: map<Pos, Cost>, goal: Pos, ys: set<Pos>,
                   length0: Cost, ghost start: Pos)
    returns (length: Cost)
    requires goal in db && LocalTable(l, db[goal], goal)
    requires forall y :: y in ys ==> y in gs
    requires Witnessed(l, gs, start)
    requires length0.Fin? ==> Reaches(l, start, goal, length0.v)
    ensures Le(length, length0)
    ensures forall y :: y in ys ==> Le(length, Add(gs[y], Get(db[goal], y)))
    ensures length == length0 || exists y :: y in ys && length == Add(gs[y], Get(db[goal], y))
    ensures length.Fin? ==> Reaches(l, start, goal, length.v)
  {
    length := length0;
    var rest := ys;
    while rest != {}
      invariant GoalScanned(l, db, gs, goal, ys, rest, length0, length, start)
      decreases |rest|
    {
      var y :| y in rest;
      GoalStep(l, db, gs, goal, ys, rest, y, length0, length, start);
      length := Min(length, Add(gs[y], Get(db[goal], y)));
      rest := rest - {y};
    }
  }

  /** The effect of pulling from the ingress cells `ys - rest` into `x`: only `x.g` changed, it is at
      most every pulled candidate, it is its old value or one of those candidates, and every finite
      `g` is still a walk length. */
  ghost predicate Pulled(l: Layout, db: map<Pos, map<Pos, real>>, gs0: map<Pos, Cost>, x: Pos, ys: set<Pos>,
                         rest: set<Pos>, gs: map<Pos, Cost>, start: Pos) {
    && rest <= ys && x in gs0 && x in db
    && gs.Keys == gs0.Keys && Le(gs[x], gs0[x])
    && (forall c :: c in gs0 && c != x ==> gs[c] == gs0[c])
    && (forall y :: y in ys - rest ==> y in gs0 && Le(gs[x], Add(gs0[y], Get(db[x], y))))
    && (gs[x] == gs0[x] || exists y :: y in ys - rest && y in gs0 && gs[x] == Add(gs0[y], Get(db[x], y)))
    && Witnessed(l, gs, start)
  }

  /** A pull from `y` that does not beat `x.g` leaves the pull invariant extended by `y`. */
  lemma PullKeep(l: Layout, db: map<Pos, map<Pos, real>>, gs0: map<Pos, Cost>, x: Pos, ys: set<Pos>,
                 rest: set<Pos>, gs: map<Pos, Cost>, y: Pos, start: Pos)
    requires y in rest && y in gs0 && x in db && x in db[x] && db[x][x] == 0.0
    requires Pulled(l, db, gs0, x, ys, rest, gs, start)
    requires !Lt(Add(gs[y], Get(db[x], y)), gs[x])
    ensures Pulled(l, db, gs0, x, ys, rest - {y}, gs, start)
  {
    assert ys - (rest - {y}) == (ys - rest) + {y};
  }

  /** A pull from `y` that beats `x.g` sets `x.g` to the candidate and extends the pull invariant. */
  lemma PullTake(l: Layout, db: map<Pos, map<Pos, real>>, gs0: map<Pos, Cost>, x: Pos, ys: set<Pos>,
                 rest: set<Pos>, gs1: map<Pos, Cost>, gs: map<Pos, Cost>, y: Pos, start: Pos)
    requires y in rest && y in gs0 && x in db && x in db[x] && db[x][x] == 0.0
    requires Pulled(l, db, gs0, x, ys, rest, gs1, start)
    requires Lt(Add(gs1[y], Get(db[x], y)), gs1[x])
    requires gs == gs1[x := Add(gs1[y], Get(db[x], y))] && Witnessed(l, gs, start)
    ensures Pulled(l, db, gs0, x, ys, rest - {y}, gs, start)
  {
    assert y != x;
    assert ys - (rest - {y}) == (ys - rest) + {y};
  }

  /** One iteration of lines 171-172: pull from the ingress cell `y`. */
  method PullStep(l: Layout, db: map<Pos, map<Pos, real>>, ghost gs0: map<Pos, Cost>, x: Pos,
                  ghost ys: set<Pos>, ghost rest: set<Pos>, gs1: map<Pos, Cost>, y: Pos, ghost start: Pos)
    returns (gs: map<Pos, Cost>)
    requires y in rest && y in gs0 && x in db && LocalTable(l, db[x], x)
    requires Pulled(l, db, gs0, x, ys, rest, gs1, start)
    ensures Pulled(l, db, gs0, x, ys, rest - {y}, gs, start)
  {
    gs := gs1;
    var cand := Add(gs[y], Get(db[x], y));
    if Lt(cand, gs[x]) {
      ReachesVia(l, db[x], x, start, y, gs[y].v);
      WitnessedSet(l, gs, start, x, cand.v);
      gs := gs[x := cand];
      PullTake(l, db, gs0, x, ys, rest, gs1, gs, y, start);
    } else {
      PullKeep(l, db, gs0, x, ys, rest, gs, y, start);
    }
  }

  /** Lines 171-172 for the egress cell `x`: `x.g` drops to `y.g + dist[x][y]` for each ingress cell
      `y` of its block. Only `x.g` changes. */
  method PullToExit(l: Layout, db: map<Pos, map<Pos, real>>, gs0: map<Pos, Cost>, x: Pos, ys: set<Pos>,
                    ghost start: Pos)
    returns (gs: map<Pos, Cost>)
    requires x in gs0 && x in db && LocalTable(l, db[x], x)
    requires forall y :: y in ys ==> y in gs0
    requires Witnessed(l, gs0, start)
    ensures gs.Keys == gs0.Keys && Le(gs[x], gs0[x])
    ensures forall c :: c in gs0 && c != x ==> gs[c] == gs0[c]
    ensures forall y :: y in ys ==> Le(gs[x], Add(gs0[y], Get(db[x], y)))
    ensures gs[x] == gs0[x] || exists y :: y in ys && gs[x] == Add(gs0[y], Get(db[x], y))
    ensures Witnessed(l, gs, start)
  {
    gs := gs0;
    var rest := ys;
    while rest != {}
      invariant Pulled(l, db, gs0, x, ys, rest, gs, start)
      decreases |rest|
    {
      var y :| y in rest;
      gs := PullStep(l, db, gs0, x, ys, rest, gs, y, start);
      rest := rest - {y};
    }
    assert ys - rest == ys;
  }

  /** Lines 174-178 for one cross-block edge `e` out of `x`: when `x.g + weight` beats `xout.g`,
      `xout.g` drops to it, `xout` joins its block's ingress set, and the block's candidate key drops
      to `xout.g + octileDist(xout, goal)` if that is smaller. */
  method PushEdge(l: Layout, x: Pos, e: Edge, goal: Pos, gs0: map<Pos, Cost>, ing0: map<Pos, set<Pos>>,
                  nhv0: map<Pos, real>, ghost start: Pos)
    returns (gs: map<Pos, Cost>, ing: map<Pos, set<Pos>>, nhv: map<Pos, real>)
    requires IsMove(l, x, e.to) && !SameBlock(l, x, e.to) && e.weight == Octile(x, e.to)
    requires x in gs0 && e.to in gs0 && BlockOf(l, e.to) in ing0
    requires Witnessed(l, gs0, start) && IngressSound(l, gs0, ing0)
    requires forall b :: b in nhv0 ==> InBlockRange(l, b) && b != BlockOf(l, x)
    ensures Witnessed(l, gs, start) && IngressSound(l, gs, ing)
    ensures GDown(gs0, gs) && IngressGrows(ing0, ing)
    ensures forall c :: c in gs0 && c != e.to ==> gs[c] == gs0[c]
    ensures forall b :: b in ing0 && b != BlockOf(l, e.to) ==> ing[b] == ing0[b]
    ensures Le(gs[e.to], Add(gs[x], Fin(e.weight)))
    ensures gs[e.to] == Min(gs0[e.to], Add(gs0[x], Fin(e.weight)))
    ensures !Lt(Add(gs0[x], Fin(e.weight)), gs0[e.to]) ==> gs == gs0 && ing == ing0 && nhv == nhv0
    ensures Lt(Add(gs0[x], Fin(e.weight)), gs0[e.to]) ==>
      && ing[BlockOf(l, e.to)] == ing0[BlockOf(l, e.to)] + {e.to}
      && Get(nhv, BlockOf(l, e.to)) == Min(Get(nhv0, BlockOf(l, e.to)), Fin(gs[e.to].v + Octile(e.to, goal)))
      && forall b :: b != BlockOf(l, e.to) ==> Get(nhv, b) == Get(nhv0, b)
    ensures KeysDown(l, nhv0, nhv, BlockOf(l, x))
    ensures Tracked(l, gs0, gs, ing, nhv, goal, BlockOf(l, x))
    ensures Originated(l, gs0, gs, ing0, ing, nhv0, nhv, goal)
  {
    gs, ing, nhv := gs0, ing0, nhv0;
    var xo := e.to;
    BlockInRange(l, xo);
    var cand := Add(gs[x], Fin(e.weight));
    if Lt(cand, gs[xo]) {
      ReachesExtend(l, start, x, xo, gs[x].v);
      WitnessedSet(l, gs, start, xo, cand.v);
      IngressAdd(l, gs, ing, xo, cand.v);
      var bo := BlockOf(l, xo);
      gs := gs[xo := cand];
      ing := ing[bo := ing[bo] + {xo}];
      var h := cand.v + Octile(xo, goal);
      if Lt(Fin(h), Get(nhv, bo)) {
        nhv := nhv[bo := h];
        assert KeyFrom(l, gs0, gs, goal, bo, xo, h);
      }
    }
  }

  /** The effect of pushing across the first `i` edges out of `x`: `gs`, `ing` and `nhv` evolved from
      `gs0`, `ing0` and `nhv0` without touching `x`'s block, a `g` that changed holds `x.g` plus the
      weight of one of those edges into its cell, every pushed edge is relaxed, and every improvement
      outside the block is tracked. */
  ghost predicate Pushed(l: Layout, x: Pos, edges: seq<Edge>, i: nat, goal: Pos,
                         gs0: map<Pos, Cost>, ing0: map<Pos, set<Pos>>, nhv0: map<Pos, real>,
                         gs: map<Pos, Cost>, ing: map<Pos, set<Pos>>, nhv: map<Pos, real>, start: Pos) {
    && i <= |edges| && x in gs
    && Witnessed(l, gs, start) && IngressSound(l, gs, ing)
    && GDown(gs0, gs) && IngressGrows(ing0, ing)
    && (forall c :: c in gs0 && BlockOf(l, c) == BlockOf(l, x) ==> gs[c] == gs0[c])
    && (forall b :: b in ing0 && b == BlockOf(l, x) ==> ing[b] == ing0[b])
    && (forall c :: c in gs0 && c in gs && gs[c] != gs0[c] ==> SetByEdge(edges, i, gs[x], c, gs[c]))
    && (forall k :: 0 <= k < i ==> edges[k].to in gs && Le(gs[edges[k].to], Add(gs[x], Fin(edges[k].weight))))
    && KeysDown(l, nhv0, nhv, BlockOf(l, x))
    && Tracked(l, gs0, gs, ing, nhv, goal, BlockOf(l, x))
  }

  /** One iteration of lines 173-178: push across edge `i`. */
  method PushStep(l: Layout, x: Pos, edges: seq<Edge>, i: nat, goal: Pos,
                  ghost gs0: map<Pos, Cost>, ghost ing0: map<Pos, set<Pos>>, ghost nhv0: map<Pos, real>,
                  gs1: map<Pos, Cost>, ing1: map<Pos, set<Pos>>, nhv1: map<Pos, real>, ghost start: Pos)
    returns (gs: map<Pos, Cost>, ing: map<Pos, set<Pos>>, nhv: map<Pos, real>)
    requires i < |edges|
    requires IsMove(l, x, edges[i].to) && !SameBlock(l, x, edges[i].to) && edges[i].weight == Octile(x, edges[i].to)
    requires edges[i].to in gs0 && BlockOf(l, edges[i].to) in ing0
    requires Pushed(l, x, edges, i, goal, gs0, ing0, nhv0, gs1, ing1, nhv1, start)
    requires Originated(l, gs0, gs1, ing0, ing1, nhv0, nhv1, goal)
    ensures Pushed(l, x, edges, i + 1, goal, gs0, ing0, nhv0, gs, ing, nhv, start)
    ensures Originated(l, gs0, gs, ing0, ing, nhv0, nhv, goal)
  {
    gs, ing, nhv := PushEdge(l, x, edges[i], goal, gs1, ing1, nhv1, start);
    PushedStep(l, x, edges, i, goal, gs0, ing0, nhv0, gs1, ing1, nhv1, gs, ing, nhv, start);
    assert GDown(gs1, gs1);
    IngressOriginStep(gs0, gs1, gs1, gs, ing0, ing1, ing);
    KeyOriginStep(l, BlockOf(l, x), goal, gs0, gs1, gs1, gs, ing, nhv0, nhv1, nhv);
  }

  /** What one push across edge `i` guarantees extends the push invariant to edge `i + 1`. */
  lemma PushedStep(l: Layout, x: Pos, edges: seq<Edge>, i: nat, goal: Pos,
                   gs0: map<Pos, Cost>, ing0: map<Pos, set<Pos>>, nhv0: map<Pos, real>,
                   gs1: map<Pos, Cost>, ing1: map<Pos, set<Pos>>, nhv1: map<Pos, real>,
                   gs: map<Pos, Cost>, ing: map<Pos, set<Pos>>, nhv: map<Pos, real>, start: Pos)
    requires i < |edges| && !SameBlock(l, x, edges[i].to)
    requires Pushed(l, x, edges, i, goal, gs0, ing0, nhv0, gs1, ing1, nhv1, start)
    requires Witnessed(l, gs, start) && IngressSound(l, gs, ing)
    requires GDown(gs1, gs) && IngressGrows(ing1, ing)
    requires forall c :: c in gs1 && c != edges[i].to ==> gs[c] == gs1[c]
    requires forall b :: b in ing1 && b != BlockOf(l, edges[i].to) ==> ing[b] == ing1[b]
    requires edges[i].to in gs && Le(gs[edges[i].to], Add(gs[x], Fin(edges[i].weight)))
    requires gs[edges[i].to] == Min(gs1[edges[i].to], Add(gs1[x], Fin(edges[i].weight)))
    requires KeysDown(l, nhv1, nhv, BlockOf(l, x))
    requires Tracked(l, gs1, gs, ing, nhv, goal, BlockOf(l, x))
    ensures Pushed(l, x, edges, i + 1, goal, gs0, ing0, nhv0, gs, ing, nhv, start)
  {
    TrackedStep(l, gs0, gs1, gs, ing1, ing, nhv1, nhv, goal, BlockOf(l, x));
    StepCompose(l, BlockOf(l, x), gs0, gs1, gs, ing0, ing1, ing, nhv0, nhv1, nhv);
    assert gs[x] == gs1[x];
    RelaxedKept(edges, i, x, gs1, gs);
    PushFrame(edges, i, x, gs0, gs1, gs);
  }

  /** A push across edge `i` writes at most the `g` of its target, and only `x.g` plus the edge's
      weight, so every `g` that differs from `gs0` still holds what one of the edges pushed so far
      wrote. */
  lemma PushFrame(edges: seq<Edge>, i: nat, x: Pos, gs0: map<Pos, Cost>, gs1: map<Pos, Cost>, gs: map<Pos, Cost>)
    requires i < |edges| && gs.Keys == gs1.Keys && x in gs1 && x in gs && gs[x] == gs1[x]
    requires forall c :: c in gs0 && c in gs1 && gs1[c] != gs0[c] ==> SetByEdge(edges, i, gs1[x], c, gs1[c])
    requires forall c :: c in gs1 && c != edges[i].to ==> gs[c] == gs1[c]
    requires edges[i].to in gs1 && gs[edges[i].to] == Min(gs1[edges[i].to], Add(gs1[x], Fin(edges[i].weight)))
    ensures forall c :: c in gs0 && c in gs && gs[c] != gs0[c] ==> SetByEdge(edges, i + 1, gs[x], c, gs[c])
  {
    forall c | c in gs0 && c in gs && gs[c] != gs0[c]
      ensures SetByEdge(edges, i + 1, gs[x], c, gs[c])
    {
      if c == edges[i].to && gs[c] != gs1[c] {
        assert gs[c] == Add(gs[x], Fin(edges[i].weight));
      } else {
        var k :| 0 <= k < i && k < |edges| && edges[k].to == c && gs1[c] == Add(gs1[x], Fin(edges[k].weight));
      }
    }
  }

  /** Lines 173-178 for the egress cell `x`: every cross-block edge out of `x` in turn. */
  method PushAcross(g: Grid, x: Pos, goal: Pos, gs0: map<Pos, Cost>, ing0: map<Pos, set<Pos>>,
                    nhv0: map<Pos, real>, ghost start: Pos)
    returns (gs: map<Pos, Cost>, ing: map<Pos, set<Pos>>, nhv: map<Pos, real>)
    requires InBounds(g.layout, x) && CrossEdges(g, x)
    requires forall p {:trigger p in gs0} :: p in gs0 <==> InBounds(g.layout, p)
    requires forall b {:trigger b in ing0} :: b in ing0 <==> InBlockRange(g.layout, b)
    requires Witnessed(g.layout, gs0, start) && IngressSound(g.layout, gs0, ing0)
    requires forall b :: b in nhv0 ==> InBlockRange(g.layout, b) && b != BlockOf(g.layout, x)
    ensures Witnessed(g.layout, gs, start) && IngressSound(g.layout, gs, ing)
    ensures GDown(gs0, gs) && IngressGrows(ing0, ing)
    ensures forall c :: c in gs0 && BlockOf(g.layout, c) == BlockOf(g.layout, x) ==> gs[c] == gs0[c]
    ensures forall b :: b in ing0 && b == BlockOf(g.layout, x) ==> ing[b] == ing0[b]
    ensures forall c :: c in gs0 && (forall e :: e in g.nout[x] ==> e.to != c) ==> gs[c] == gs0[c]
    ensures forall c :: c in gs0 && gs[c] != gs0[c] ==>
      exists e :: e in g.nout[x] && e.to == c && gs[c] == Add(gs0[x], Fin(e.weight))
    ensures forall e :: e in g.nout[x] ==> e.to in gs && Le(gs[e.to], Add(gs[x], Fin(e.weight)))
    ensures KeysDown(g.layout, nhv0, nhv, BlockOf(g.layout, x))
    ensures Tracked(g.layout, gs0, gs, ing, nhv, goal, BlockOf(g.layout, x))
    ensures Originated(g.layout, gs0, gs, ing0, ing, nhv0, nhv, goal)
  {
    var l := g.layout;
    gs, ing, nhv := gs0, ing0, nhv0;
    var edges := g.nout[x];
    var i := 0;
    while i < |edges|
      invariant i <= |edges|
      invariant Pushed(l, x, edges, i, goal, gs0, ing0, nhv0, gs, ing, nhv, start)
      invariant Originated(l, gs0, gs, ing0, ing, nhv0, nhv, goal)
    {
      assert edges[i] in g.nout[x];
      BlockInRange(l, edges[i].to);
      gs, ing, nhv := PushStep(l, x, edges, i, goal, gs0, ing0, nhv0, gs, ing, nhv, start);
      i := i + 1;
    }
    PushedAll(l, x, edges, goal, gs0, ing0, nhv0, gs, ing, nhv, start);
  }

  /** Once every edge is pushed, each edge is relaxed, a cell no edge leads to kept its `g`, and a
      changed `g` is `x.g` plus the weight of an edge into its cell. */
  lemma PushedAll(l: Layout, x: Pos, edges: seq<Edge>, goal: Pos,
                  gs0: map<Pos, Cost>, ing0: map<Pos, set<Pos>>, nhv0: map<Pos, real>,
                  gs: map<Pos, Cost>, ing: map<Pos, set<Pos>>, nhv: map<Pos, real>, start: Pos)
    requires Pushed(l, x, edges, |edges|, goal, gs0, ing0, nhv0, gs, ing, nhv, start)
    ensures forall c :: c in gs0 && (forall e :: e in edges ==> e.to != c) ==> gs[c] == gs0[c]
    ensures forall c :: c in gs0 && gs[c] != gs0[c] ==>
      exists e :: e in edges && e.to == c && gs[c] == Add(gs0[x], Fin(e.weight))
    ensures forall e :: e in edges ==> e.to in gs && Le(gs[e.to], Add(gs[x], Fin(e.weight)))
  {
    forall e | e in edges
      ensures e.to in gs && Le(gs[e.to], Add(gs[x], Fin(e.weight)))
    {
      var k :| 0 <= k < |edges| && edges[k] == e;
    }
    assert gs[x] == gs0[x];
    TargetsFramed(edges, gs0[x], gs0, gs);
  }

  /** When every changed `g` holds `base` plus the weight of one of `edges` into its cell, a cell no
      edge leads to kept its `g`. */
  lemma TargetsFramed(edges: seq<Edge>, base: Cost, gs0: map<Pos, Cost>, gs: map<Pos, Cost>)
    requires gs.Keys == gs0.Keys
    requires forall c :: c in gs0 && c in gs && gs[c] != gs0[c] ==> SetByEdge(edges, |edges|, base, c, gs[c])
    ensures forall c :: c in gs0 && gs[c] != gs0[c] ==>
      exists e :: e in edges && e.to == c && gs[c] == Add(base, Fin(e.weight))
    ensures forall c :: c in gs0 && (forall e :: e in edges ==> e.to != c) ==> gs[c] == gs0[c]
  {
    forall c | c in gs0 && gs[c] != gs0[c]
      ensures exists e :: e in edges && e.to == c && gs[c] == Add(base, Fin(e.weight))
    {
      var k :| 0 <= k < |edges| && edges[k].to == c && gs[c] == Add(base, Fin(edges[k].weight));
      assert edges[k] in edges;
    }
  }

  /** Two successive pushes compose: `g` only went down, ingress only grew, keys only went down, and
      block `blk` was left alone. */
  lemma StepCompose(l: Layout, blk: Pos, gs0: map<Pos, Cost>, gs1: map<Pos, Cost>, gs2: map<Pos, Cost>,
                    ing0: map<Pos, set<Pos>>, ing1: map<Pos, set<Pos>>, ing2: map<Pos, set<Pos>>,
                    nhv0: map<Pos, real>, nhv1: map<Pos, real>, nhv2: map<Pos, real>)
    requires GDown(gs0, gs1) && GDown(gs1, gs2) && IngressGrows(ing0, ing1) && IngressGrows(ing1, ing2)
    requires KeysDown(l, nhv0, nhv1, blk) && KeysDown(l, nhv1, nhv2, blk)
    requires forall c :: c in gs0 && BlockOf(l, c) == blk ==> gs1[c] == gs0[c]
    requires forall c :: c in gs1 && BlockOf(l, c) == blk ==> gs2[c] == gs1[c]
    requires forall b :: b in ing0 && b == blk ==> ing1[b] == ing0[b]
    requires forall b :: b in ing1 && b == blk ==> ing2[b] == ing1[b]
    ensures GDown(gs0, gs2) && IngressGrows(ing0, ing2) && KeysDown(l, nhv0, nhv2, blk)
    ensures forall c :: c in gs0 && BlockOf(l, c) == blk ==> gs2[c] == gs0[c]
    ensures forall b :: b in ing0 && b == blk ==> ing2[b] == ing0[b]
  {
  }

  /** Tracking composes: a cell improved in either of two steps is tracked at the end. */
  lemma TrackedStep(l: Layout, gs0: map<Pos, Cost>, gs1: map<Pos, Cost>, gs2: map<Pos, Cost>,
                    ing1: map<Pos, set<Pos>>, ing2: map<Pos, set<Pos>>,
                    nhv1: map<Pos, real>, nhv2: map<Pos, real>, goal: Pos, blk: Pos)
    requires Tracked(l, gs0, gs1, ing1, nhv1, goal, blk) && Tracked(l, gs1, gs2, ing2, nhv2, goal, blk)
    requires GDown(gs0, gs1) && GDown(gs1, gs2) && IngressGrows(ing1, ing2)
    requires forall b :: b in nhv1 ==> b in nhv2 && nhv2[b] <= nhv1[b]
    ensures Tracked(l, gs0, gs2, ing2, nhv2, goal, blk)
  {
    forall c | c in gs0 && c in gs2 && gs2[c] != gs0[c] && BlockOf(l, c) != blk
      ensures && gs2[c].Fin?
              && BlockOf(l, c) in ing2 && c in ing2[BlockOf(l, c)]
              && BlockOf(l, c) in nhv2 && nhv2[BlockOf(l, c)] <= gs2[c].v + Octile(c, goal)
    {
      if gs2[c] == gs1[c] {
        assert c in ing1[BlockOf(l, c)];
      }
    }
  }

  /** Lowering `g` values keeps ingress cells reached. */
  lemma IngressLower(l: Layout, gs1: map<Pos, Cost>, gs2: map<Pos, Cost>, ing: map<Pos, set<Pos>>)
    requires IngressSound(l, gs1, ing) && GDown(gs1, gs2)
    ensures IngressSound(l, gs2, ing)
  {
  }

  /** Whether `c` is the target of a cross-block edge out of one of the first `i` cells of `xs`. */
  ghost predicate CrossTarget(nout: map<Pos, seq<Edge>>, xs: seq<Pos>, i: nat, c: Pos) {
    exists j :: 0 <= j < i && j < |xs| && xs[j] in nout && exists e :: e in nout[xs[j]] && e.to == c
  }

  /** Cells of blocks other than `blk` changed their `g` only as targets of a cross-block edge out of
      one of the first `i` cells of `xs`. */
  ghost predicate SweepFramed(l: Layout, nout: map<Pos, seq<Edge>>, blk: Pos, xs: seq<Pos>, i: nat,
                              gs0: map<Pos, Cost>, gs: map<Pos, Cost>) {
    forall c :: c in gs0 && c in gs && gs[c] != gs0[c] && BlockOf(l, c) != blk ==> CrossTarget(nout, xs, i, c)
  }

  /** The effect of the first `i` egress cells `xs` of block `blk` (lines 170-178) apart from its frame
      on other blocks: every finite `g` is still witnessed, every `g` went down, cells of `blk` other
      than those `i` kept theirs, the ingress set of `blk` is untouched, and every improvement outside
      `blk` is tracked. */
  ghost predicate SweptCore(l: Layout, nout: map<Pos, seq<Edge>>, db: map<Pos, map<Pos, real>>, blk: Pos,
                            xs: seq<Pos>, i: nat, goal: Pos, gs0: map<Pos, Cost>, ing0: map<Pos, set<Pos>>,
                            gs: map<Pos, Cost>, ing: map<Pos, set<Pos>>, nhv: map<Pos, real>, start: Pos) {
    && i <= |xs| && blk in ing0
    && (forall c :: c in xs ==> c in gs0 && c in db && c in nout && BlockOf(l, c) == blk)
    && (forall y :: y in ing0[blk] ==> y in gs0)
    && Witnessed(l, gs, start) && IngressSound(l, gs, ing)
    && GDown(gs0, gs) && IngressGrows(ing0, ing)
    && ing[blk] == ing0[blk]
    && (forall c :: c in gs0 && BlockOf(l, c) == blk && c !in xs[..i] ==> gs[c] == gs0[c])
    && (forall b :: b in nhv ==> InBlockRange(l, b) && b != blk)
    && Tracked(l, gs0, gs, ing, nhv, goal, blk)
  }

  /** The effect of the first `i` egress cells `xs` of block `blk`: `SweptCore`, and a cell of another
      block changed only as the target of a cross-block edge of those `i`. */
  ghost predicate Swept(l: Layout, nout: map<Pos, seq<Edge>>, db: map<Pos, map<Pos, real>>, blk: Pos,
                        xs: seq<Pos>, i: nat, goal: Pos, gs0: map<Pos, Cost>, ing0: map<Pos, set<Pos>>,
                        gs: map<Pos, Cost>, ing: map<Pos, set<Pos>>, nhv: map<Pos, real>, start: Pos) {
    && SweptCore(l, nout, db, blk, xs, i, goal, gs0, ing0, gs, ing, nhv, start)
    && SweepFramed(l, nout, blk, xs, i, gs0, gs)
    && Originated(l, gs0, gs, ing0, ing, map[], nhv, goal)
  }

  /** Origins for one egress cell more: a pull that changed only `x`, a cell of `blk`, followed by a
      push across its edges. */
  lemma SweptOriginStep(l: Layout, blk: Pos, x: Pos, goal: Pos, gs0: map<Pos, Cost>, gs1: map<Pos, Cost>,
                        gs2: map<Pos, Cost>, gs: map<Pos, Cost>, ing0: map<Pos, set<Pos>>,
                        ing1: map<Pos, set<Pos>>, ing: map<Pos, set<Pos>>, nhv1: map<Pos, real>, nhv: map<Pos, real>)
    requires Originated(l, gs0, gs1, ing0, ing1, map[], nhv1, goal)
    requires Originated(l, gs2, gs, ing1, ing, nhv1, nhv, goal)
    requires GDown(gs0, gs1) && IngressGrows(ing0, ing1) && GDown(gs2, gs)
    requires gs2.Keys == gs1.Keys && x in gs1 && Le(gs2[x], gs1[x]) && BlockOf(l, x) == blk
    requires forall c :: c in gs1 && c != x ==> gs2[c] == gs1[c]
    requires KeysDown(l, nhv1, nhv, blk) && Tracked(l, gs2, gs, ing, nhv, goal, blk)
    ensures Originated(l, gs0, gs, ing0, ing, map[], nhv, goal)
  {
    assert GDown(gs1, gs2);
    IngressOriginStep(gs0, gs1, gs2, gs, ing0, ing1, ing);
    KeyOriginStep(l, blk, goal, gs0, gs1, gs2, gs, ing, map[], nhv1, nhv);
  }

  lemma GDownTrans(gs0: map<Pos, Cost>, gs1: map<Pos, Cost>, gs2: map<Pos, Cost>)
    requires GDown(gs0, gs1) && GDown(gs1, gs2)
    ensures GDown(gs0, gs2)
  {
  }

  /** Cells of `blk` outside the first `i + 1` egress cells keep their `g` through a pull of `xs[i]`
      and a push that stays out of `blk`. */
  lemma UntouchedStep(l: Layout, blk: Pos, xs: seq<Pos>, i: nat,
                      gs0: map<Pos, Cost>, gs1: map<Pos, Cost>, gs2: map<Pos, Cost>, gs: map<Pos, Cost>)
    requires i < |xs| && GDown(gs0, gs1) && GDown(gs1, gs2) && GDown(gs2, gs)
    requires forall c :: c in gs0 && BlockOf(l, c) == blk && c !in xs[..i] ==> gs1[c] == gs0[c]
    requires forall c :: c in gs1 && c != xs[i] ==> gs2[c] == gs1[c]
    requires forall c :: c in gs2 && BlockOf(l, c) == blk ==> gs[c] == gs2[c]
    ensures forall c :: c in gs0 && BlockOf(l, c) == blk && c !in xs[..i + 1] ==> gs[c] == gs0[c]
  {
    assert xs[..i + 1] == xs[..i] + [xs[i]];
  }

  /** `SweptCore` for one egress cell more: a pull that changed only `xs[i]` (from `gs1` to `gs2`)
      followed by a push across its edges that stayed out of `blk` (from `gs2` to `gs`). */
  lemma SweptCoreStep(l: Layout, nout: map<Pos, seq<Edge>>, db: map<Pos, map<Pos, real>>, blk: Pos,
                      xs: seq<Pos>, i: nat, goal: Pos, gs0: map<Pos, Cost>, ing0: map<Pos, set<Pos>>,
                      gs1: map<Pos, Cost>, ing1: map<Pos, set<Pos>>, nhv1: map<Pos, real>, gs2: map<Pos, Cost>,
                      gs: map<Pos, Cost>, ing: map<Pos, set<Pos>>, nhv: map<Pos, real>, start: Pos)
    requires SweptCore(l, nout, db, blk, xs, i, goal, gs0, ing0, gs1, ing1, nhv1, start)
    requires i < |xs|
    requires gs2.Keys == gs1.Keys && Le(gs2[xs[i]], gs1[xs[i]])
    requires forall c :: c in gs1 && c != xs[i] ==> gs2[c] == gs1[c]
    requires BlockOf(l, xs[i]) == blk
    requires Witnessed(l, gs, start) && IngressSound(l, gs, ing)
    requires GDown(gs2, gs) && IngressGrows(ing1, ing)
    requires forall c :: c in gs2 && BlockOf(l, c) == blk ==> gs[c] == gs2[c]
    requires forall b :: b in ing1 && b == blk ==> ing[b] == ing1[b]
    requires KeysDown(l, nhv1, nhv, blk)
    requires Tracked(l, gs2, gs, ing, nhv, goal, blk)
    ensures SweptCore(l, nout, db, blk, xs, i + 1, goal, gs0, ing0, gs, ing, nhv, start)
  {
    assert GDown(gs1, gs2);
    GDownTrans(gs1, gs2, gs);
    GDownTrans(gs0, gs1, gs);
    UntouchedStep(l, blk, xs, i, gs0, gs1, gs2, gs);
    TrackedPull(l, gs0, gs1, gs2, gs, ing1, ing, nhv1, nhv, goal, blk);
  }

  /** A pull of `xs[i]` followed by a push across its cross-block edges changes cells of other
      blocks only at targets of those edges. */
  lemma SweepFrame(l: Layout, nout: map<Pos, seq<Edge>>, blk: Pos, xs: seq<Pos>, i: nat,
                   gs0: map<Pos, Cost>, gs1: map<Pos, Cost>, gs2: map<Pos, Cost>, gs: map<Pos, Cost>)
    requires i < |xs| && xs[i] in nout && BlockOf(l, xs[i]) == blk
    requires gs2.Keys == gs1.Keys && gs.Keys == gs2.Keys
    requires forall c :: c in gs1 && c != xs[i] ==> gs2[c] == gs1[c]
    requires forall c :: c in gs2 && (forall e :: e in nout[xs[i]] ==> e.to != c) ==> gs[c] == gs2[c]
    requires SweepFramed(l, nout, blk, xs, i, gs0, gs1)
    ensures SweepFramed(l, nout, blk, xs, i + 1, gs0, gs)
  {
    forall c | c in gs0 && c in gs && gs[c] != gs0[c] && BlockOf(l, c) != blk
      ensures CrossTarget(nout, xs, i + 1, c)
    {
      if c in gs1 && gs1[c] != gs0[c] {
        var j :| 0 <= j < i && j < |xs| && xs[j] in nout && exists e :: e in nout[xs[j]] && e.to == c;
      } else {
        assert gs2[c] == gs1[c];
        var e :| e in nout[xs[i]] && e.to == c;
        assert 0 <= i < i + 1 && i < |xs| && xs[i] in nout && e in nout[xs[i]] && e.to == c;
      }
    }
  }

  /** Tracking survives a pull inside `blk` (from `gs1` to `gs2`) followed by a tracked push. */
  lemma TrackedPull(l: Layout, gs0: map<Pos, Cost>, gs1: map<Pos, Cost>, gs2: map<Pos, Cost>, gs: map<Pos, Cost>,
                    ing1: map<Pos, set<Pos>>, ing: map<Pos, set<Pos>>, nhv1: map<Pos, real>, nhv: map<Pos, real>,
                    goal: Pos, blk: Pos)
    requires Tracked(l, gs0, gs1, ing1, nhv1, goal, blk) && Tracked(l, gs2, gs, ing, nhv, goal, blk)
    requires gs1.Keys == gs0.Keys && gs2.Keys == gs1.Keys && GDown(gs2, gs) && IngressGrows(ing1, ing)
    requires forall c :: c in gs1 && BlockOf(l, c) != blk ==> gs2[c] == gs1[c]
    requires forall b :: b in nhv1 ==> b in nhv && nhv[b] <= nhv1[b]
    ensures Tracked(l, gs0, gs, ing, nhv, goal, blk)
  {
    forall c | c in gs0 && c in gs && gs[c] != gs0[c] && BlockOf(l, c) != blk
      ensures && gs[c].Fin?
              && BlockOf(l, c) in ing && c in ing[BlockOf(l, c)]
              && BlockOf(l, c) in nhv && nhv[BlockOf(l, c)] <= gs[c].v + Octile(c, goal)
    {
      if gs[c] == gs2[c] {
        assert c in ing1[BlockOf(l, c)];
      }
    }
  }

  /** Lines 170-178 for the egress cell `xs[i]`: pull it from the block's ingress cells, then push
      across its cross-block edges. */
  method ExitStep(g: Grid, db: map<Pos, map<Pos, real>>, blk: Pos, xs: seq<Pos>, i: nat, goal: Pos,
                  ghost gs0: map<Pos, Cost>, ghost ing0: map<Pos, set<Pos>>,
                  gs1: map<Pos, Cost>, ing1: map<Pos, set<Pos>>, nhv1: map<Pos, real>, ghost start: Pos)
    returns (gs: map<Pos, Cost>, ing: map<Pos, set<Pos>>, nhv: map<Pos, real>)
    requires i < |xs| && InBounds(g.layout, xs[i]) && CrossEdges(g, xs[i])
    requires xs[i] in db && LocalTable(g.layout, db[xs[i]], xs[i])
    requires forall p {:trigger p in gs0} :: p in gs0 <==> InBounds(g.layout, p)
    requires forall b {:trigger b in ing0} :: b in ing0 <==> InBlockRange(g.layout, b)
    requires Swept(g.layout, g.nout, db, blk, xs, i, goal, gs0, ing0, gs1, ing1, nhv1, start)
    ensures Swept(g.layout, g.nout, db, blk, xs, i + 1, goal, gs0, ing0, gs, ing, nhv, start)
  {
    var l := g.layout;
    var x := xs[i];
    var gs2 := PullToExit(l, db, gs1, x, ing1[blk], start);
    IngressLower(l, gs1, gs2, ing1);
    gs, ing, nhv := PushAcross(g, x, goal, gs2, ing1, nhv1, start);
    SweptCoreStep(l, g.nout, db, blk, xs, i, goal, gs0, ing0, gs1, ing1, nhv1, gs2, gs, ing, nhv, start);
    SweepFrame(l, g.nout, blk, xs, i, gs0, gs1, gs2, gs);
    SweptOriginStep(l, blk, x, goal, gs0, gs1, gs2, gs, ing0, ing1, ing, nhv1, nhv);
  }

  /** Lines 170-178: every egress cell of block `blk` in list order. */
  method Sweep(g: Grid, db: map<Pos, map<Pos, real>>, blk: Pos, goal: Pos,
               gs0: map<Pos, Cost>, ing0: map<Pos, set<Pos>>, ghost start: Pos)
    returns (gs: map<Pos, Cost>, ing: map<Pos, set<Pos>>, nhv: map<Pos, real>)
    requires EgressIndexed(g) && InBlockRange(g.layout, blk) && Table(g, db)
    requires forall x {:trigger CrossEdges(g, x)} :: InBounds(g.layout, x) ==> CrossEdges(g, x)
    requires forall p {:trigger p in gs0} :: p in gs0 <==> InBounds(g.layout, p)
    requires forall b {:trigger b in ing0} :: b in ing0 <==> InBlockRange(g.layout, b)
    requires Witnessed(g.layout, gs0, start) && IngressSound(g.layout, gs0, ing0)
    ensures Swept(g.layout, g.nout, db, blk, g.egress[blk], |g.egress[blk]|, goal, gs0, ing0, gs, ing, nhv, start)
  {
    var l := g.layout;
    var xs := g.egress[blk];
    gs, ing, nhv := gs0, ing0, map[];
    forall x | InBounds(l, x)
      ensures x in g.nout
    {
      assert CrossEdges(g, x);
    }
    EgressKnown(g, db, blk, gs0);
    SweptInit(g, db, blk, goal, gs0, ing0, start);
    var i := 0;
    while i < |xs|
      invariant i <= |xs|
      invariant Swept(l, g.nout, db, blk, xs, i, goal, gs0, ing0, gs, ing, nhv, start)
    {
      ExitFacts(g, db, blk, i);
      gs, ing, nhv := ExitStep(g, db, blk, xs, i, goal, gs0, ing0, gs, ing, nhv, start);
      i := i + 1;
    }
  }

  /** Before the first egress cell nothing has changed. */
  lemma SweptInit(g: Grid, db: map<Pos, map<Pos, real>>, blk: Pos, goal: Pos,
                  gs0: map<Pos, Cost>, ing0: map<Pos, set<Pos>>, start: Pos)
    requires blk in ing0 && blk in g.egress
    requires forall c :: c in g.egress[blk] ==> c in gs0 && c in db && c in g.nout && BlockOf(g.layout, c) == blk
    requires Witnessed(g.layout, gs0, start) && IngressSound(g.layout, gs0, ing0)
    ensures Swept(g.layout, g.nout, db, blk, g.egress[blk], 0, goal, gs0, ing0, gs0, ing0, map[], start)
  {
    assert GDown(gs0, gs0);
  }

  /** The egress cells of a block are cells of it, with LDDB tables and cross-block lists. */
  lemma EgressKnown(g: Grid, db: map<Pos, map<Pos, real>>, blk: Pos, gs0: map<Pos, Cost>)
    requires EgressIndexed(g) && InBlockRange(g.layout, blk)
    requires forall c {:trigger c in db} :: c in db <==> InBounds(g.layout, c)
    requires forall x :: InBounds(g.layout, x) ==> x in g.nout
    requires forall p {:trigger p in gs0} :: p in gs0 <==> InBounds(g.layout, p)
    ensures forall c :: c in g.egress[blk] ==> c in gs0 && c in db && c in g.nout && BlockOf(g.layout, c) == blk
  {
  }

  /** What the search needs of the egress cell `g.egress[blk][i]`. */
  lemma ExitFacts(g: Grid, db: map<Pos, map<Pos, real>>, blk: Pos, i: nat)
    requires EgressIndexed(g) && InBlockRange(g.layout, blk) && Table(g, db)
    requires forall x {:trigger CrossEdges(g, x)} :: InBounds(g.layout, x) ==> CrossEdges(g, x)
    requires i < |g.egress[blk]|
    ensures InBounds(g.layout, g.egress[blk][i]) && CrossEdges(g, g.egress[blk][i])
    ensures g.egress[blk][i] in db && LocalTable(g.layout, db[g.egress[blk][i]], g.egress[blk][i])
  {
    assert g.egress[blk][i] in g.egress[blk];
  }

  /** Lines 179-181: each block with a candidate key gets that key as its `heapval` and is pushed with
      it. The pushes come in the order the keys are chosen; the queue does not depend on it. */
  method Announce(hv0: map<Pos, Cost>, nhv: map<Pos, real>) returns (hv: map<Pos, Cost>, pushes: seq<Entry>)
    requires nhv.Keys <= hv0.Keys
    ensures hv.Keys == hv0.Keys
    ensures forall b :: b in nhv ==> hv[b] == Fin(nhv[b]) && Entry(nhv[b], b) in pushes
    ensures forall b :: b in hv0 && b !in nhv ==> hv[b] == hv0[b]
    ensures forall e :: e in pushes ==> e.at in nhv && e.key == nhv[e.at]
    ensures |pushes| == |nhv.Keys|
  {
    hv, pushes := hv0, [];
    var rest := nhv.Keys;
    while rest != {}
      invariant rest <= nhv.Keys
      invariant hv.Keys == hv0.Keys
      invariant forall b :: b in nhv && b !in rest ==> hv[b] == Fin(nhv[b]) && Entry(nhv[b], b) in pushes
      invariant forall b :: b in hv0 && b !in nhv.Keys - rest ==> hv[b] == hv0[b]
      invariant forall e :: e in pushes ==> e.at in nhv && e.key == nhv[e.at] && e.at !in rest
      invariant |pushes| + |rest| == |nhv.Keys|
      decreases |rest|
    {
      var b :| b in rest;
      hv := hv[b := Fin(nhv[b])];
      pushes := pushes + [Entry(nhv[b], b)];
      rest := rest - {b};
    }
  }

  /** Every cell outside `blk` whose `g` improved since `gs0` is in its block's ingress set, and its
      block was pushed with a key, now its `heapval`, of at most `g` plus the octile distance to `goal`. */
  ghost predicate Announced(l: Layout, gs0: map<Pos, Cost>, gs: map<Pos, Cost>, ing: map<Pos, set<Pos>>,
                            hv: map<Pos, Cost>, pushes: seq<Entry>, goal: Pos, blk: Pos) {
    forall c {:trigger gs[c], gs0[c]} :: c in gs0 && c in gs && gs[c] != gs0[c] && BlockOf(l, c) != blk ==>
      && gs[c].Fin?
      && BlockOf(l, c) in ing && c in ing[BlockOf(l, c)]
      && BlockOf(l, c) in hv && hv[BlockOf(l, c)].Fin? && hv[BlockOf(l, c)].v <= gs[c].v + Octile(c, goal)
      && Entry(hv[BlockOf(l, c)].v, BlockOf(l, c)) in pushes
  }

  /** Emptying `blk`'s ingress set and installing the new `heapval`s keeps the query consistent. */
  lemma SettleShape(l: Layout, blk: Pos, st0: State, gs: map<Pos, Cost>, ing: map<Pos, set<Pos>>,
                    hv: map<Pos, Cost>, start: Pos)
    requires Shaped(l, st0) && blk in st0.ingress
    requires Witnessed(l, gs, start) && IngressSound(l, gs, ing)
    requires gs.Keys == st0.g.Keys && ing.Keys == st0.ingress.Keys && hv.Keys == st0.heapval.Keys
    ensures Consistent(l, State(gs, ing[blk := {}], hv), start)
  {
  }

  /** The candidate keys of improved cells are announced as `heapval`s and pushes. */
  lemma SettleAnnounced(l: Layout, blk: Pos, goal: Pos, gs0: map<Pos, Cost>, gs: map<Pos, Cost>,
                        ing: map<Pos, set<Pos>>, nhv: map<Pos, real>, hv: map<Pos, Cost>, pushes: seq<Entry>)
    requires Tracked(l, gs0, gs, ing, nhv, goal, blk)
    requires forall b :: b in nhv ==> b in hv && hv[b] == Fin(nhv[b]) && Entry(nhv[b], b) in pushes
    ensures Announced(l, gs0, gs, ing[blk := {}], hv, pushes, goal, blk)
  {
  }

  /** Every push names a block other than `blk` whose `heapval` is now the pushed key, and every other
      `heapval` is unchanged. */
  lemma SettlePushes(l: Layout, blk: Pos, hv0: map<Pos, Cost>, nhv: map<Pos, real>, hv: map<Pos, Cost>,
                     pushes: seq<Entry>)
    requires forall b :: b in nhv ==> InBlockRange(l, b) && b != blk
    requires hv.Keys == hv0.Keys && nhv.Keys <= hv0.Keys
    requires forall b :: b in nhv ==> hv[b] == Fin(nhv[b]) && Entry(nhv[b], b) in pushes
    requires forall b :: b in hv0 && b !in nhv ==> hv[b] == hv0[b]
    requires forall e :: e in pushes ==> e.at in nhv && e.key == nhv[e.at]
    ensures forall e :: e in pushes ==> InBlockRange(l, e.at) && e.at != blk && e.at in hv && hv[e.at] == Fin(e.key)
    ensures forall b :: b in hv0 ==> hv[b] == hv0[b] || (hv[b].Fin? && Entry(hv[b].v, b) in pushes)
  {
  }

  /** Lines 166-182, the body of the search loop for the popped block `blk`: the goal block first
      lowers `length` through its ingress cells, then every egress cell is pulled and pushed across,
      the improved blocks are announced with their keys, and `blk`'s ingress set is emptied. */
  method Expand(g: Grid, db: map<Pos, map<Pos, real>>, st0: State, blk: Pos, goal: Pos, goalBlock: Pos,
                length0: Cost, ghost start: Pos)
    returns (length: Cost, st: State, pushes: seq<Entry>)
    requires SearchGrid(g) && Table(g, db) && InBlockRange(g.layout, blk) && InBounds(g.layout, goal)
    requires Consistent(g.layout, st0, start)
    requires length0.Fin? ==> Reaches(g.layout, start, goal, length0.v)
    ensures Consistent(g.layout, st, start)
    ensures GDown(st0.g, st.g)
    ensures st.ingress.Keys == st0.ingress.Keys && blk in st.ingress && st.ingress[blk] == {}
    ensures forall b :: b in st0.ingress && b != blk ==> st0.ingress[b] <= st.ingress[b]
    ensures forall c :: c in st0.g && BlockOf(g.layout, c) == blk && c !in g.egress[blk] ==> st.g[c] == st0.g[c]
    ensures forall c :: c in st0.g && BlockOf(g.layout, c) != blk && st.g[c] != st0.g[c] ==>
      CrossTarget(g.nout, g.egress[blk], |g.egress[blk]|, c)
    ensures Announced(g.layout, st0.g, st.g, st.ingress, st.heapval, pushes, goal, blk)
    ensures forall e :: e in pushes ==>
      InBlockRange(g.layout, e.at) && e.at != blk && e.at in st.heapval && st.heapval[e.at] == Fin(e.key)
    ensures st.heapval.Keys == st0.heapval.Keys && forall b :: b in st0.heapval ==>
      st.heapval[b] == st0.heapval[b] || (st.heapval[b].Fin? && Entry(st.heapval[b].v, b) in pushes)
    ensures Le(length, length0) && (blk != goalBlock ==> length == length0)
    ensures blk == goalBlock ==> forall y :: y in st0.ingress[blk] ==> Le(length, Add(st0.g[y], Get(db[goal], y)))
    ensures blk == goalBlock ==>
      length == length0 || exists y :: y in st0.ingress[blk] && length == Add(st0.g[y], Get(db[goal], y))
    ensures length.Fin? ==> Reaches(g.layout, start, goal, length.v)
    ensures forall b, c :: b in st0.ingress && b != blk && c in st.ingress[b] && c !in st0.ingress[b] ==>
      c in st0.g && c in st.g && Lt(st.g[c], st0.g[c])
    ensures forall e :: e in pushes ==> exists c ::
      && c in st0.g && c in st.g && BlockOf(g.layout, c) == e.at && Lt(st.g[c], st0.g[c])
      && st.g[c].Fin? && e.key == st.g[c].v + Octile(c, goal)
  {
    var l := g.layout;
    length := length0;
    if blk == goalBlock {
      length := ReachGoal(l, db, st0.g, goal, st0.ingress[blk], length0, start);
    }
    var gs, ing, nhv := Sweep(g, db, blk, goal, st0.g, st0.ingress, start);
    var hv;
    hv, pushes := Announce(st0.heapval, nhv);
    st := State(gs, ing[blk := {}], hv);
    Settle(g, db, blk, goal, st0, gs, ing, nhv, hv, pushes, st, start);
    SettleOrigins(l, blk, goal, st0, st, ing, nhv, pushes);
  }

  /** What lines 170-182 leave once the sweep is done and the candidate keys are announced: the query
      is consistent, `blk`'s ingress set is empty and every other one only grew, cells of other blocks
      changed only as cross-block targets, and every improvement is announced. */
  lemma Settle(g: Grid, db: map<Pos, map<Pos, real>>, blk: Pos, goal: Pos, st0: State, gs: map<Pos, Cost>,
               ing: map<Pos, set<Pos>>, nhv: map<Pos, real>, hv: map<Pos, Cost>, pushes: seq<Entry>,
               st: State, start: Pos)
    requires InBlockRange(g.layout, blk) && blk in g.egress && Consistent(g.layout, st0, start)
    requires SweptCore(g.layout, g.nout, db, blk, g.egress[blk], |g.egress[blk]|, goal, st0.g, st0.ingress, gs, ing, nhv, start)
    requires SweepFramed(g.layout, g.nout, blk, g.egress[blk], |g.egress[blk]|, st0.g, gs)
    requires Originated(g.layout, st0.g, gs, st0.ingress, ing, map[], nhv, goal)
    requires hv.Keys == st0.heapval.Keys && nhv.Keys <= st0.heapval.Keys
    requires forall b :: b in nhv ==> hv[b] == Fin(nhv[b]) && Entry(nhv[b], b) in pushes
    requires forall b :: b in st0.heapval && b !in nhv ==> hv[b] == st0.heapval[b]
    requires forall e :: e in pushes ==> e.at in nhv && e.key == nhv[e.at]
    requires st == State(gs, ing[blk := {}], hv)
    ensures Consistent(g.layout, st, start)
    ensures GDown(st0.g, st.g)
    ensures st.ingress.Keys == st0.ingress.Keys && blk in st.ingress && st.ingress[blk] == {}
    ensures forall b :: b in st0.ingress && b != blk ==> st0.ingress[b] <= st.ingress[b]
    ensures forall c :: c in st0.g && BlockOf(g.layout, c) == blk && c !in g.egress[blk] ==> st.g[c] == st0.g[c]
    ensures forall c :: c in st0.g && BlockOf(g.layout, c) != blk && st.g[c] != st0.g[c] ==>
      CrossTarget(g.nout, g.egress[blk], |g.egress[blk]|, c)
    ensures Announced(g.layout, st0.g, st.g, st.ingress, st.heapval, pushes, goal, blk)
    ensures forall e :: e in pushes ==>
      InBlockRange(g.layout, e.at) && e.at != blk && e.at in st.heapval && st.heapval[e.at] == Fin(e.key)
    ensures st.heapval.Keys == st0.heapval.Keys && forall b :: b in st0.heapval ==>
      st.heapval[b] == st0.heapval[b] || (st.heapval[b].Fin? && Entry(st.heapval[b].v, b) in pushes)
  {
    var l := g.layout;
    assert g.egress[blk][..|g.egress[blk]|] == g.egress[blk];
    SettleShape(l, blk, st0, gs, ing, hv, start);
    SettleAnnounced(l, blk, goal, st0.g, gs, ing, nhv, hv, pushes);
    SettlePushes(l, blk, st0.heapval, nhv, hv, pushes);
    SettleIngress(blk, st0.ingress, ing);
  }

  /** Emptying `blk`'s ingress set leaves every other one grown. */
  lemma SettleIngress(blk: Pos, ing0: map<Pos, set<Pos>>, ing: map<Pos, set<Pos>>)
    requires IngressGrows(ing0, ing)
    ensures forall b :: b in ing0 && b != blk ==> ing0[b] <= ing[blk := {}][b]
  {
  }

  /** The origins of the sweep, read after `blk`'s ingress set is emptied and the keys are pushed:
      every cell that joined another block's ingress set improved, and every push carries the key
      of an improved cell of its block. */
  lemma SettleOrigins(l: Layout, blk: Pos, goal: Pos, st0: State, st: State, ing: map<Pos, set<Pos>>,
                      nhv: map<Pos, real>, pushes: seq<Entry>)
    requires Originated(l, st0.g, st.g, st0.ingress, ing, map[], nhv, goal) && ing.Keys == st0.ingress.Keys
    requires st.ingress == ing[blk := {}]
    requires forall e :: e in pushes ==> e.at in nhv && e.key == nhv[e.at]
    ensures forall b, c :: b in st0.ingress && b != blk && c in st.ingress[b] && c !in st0.ingress[b] ==>
      c in st0.g && c in st.g && Lt(st.g[c], st0.g[c])
    ensures forall e :: e in pushes ==> exists c ::
      && c in st0.g && c in st.g && BlockOf(l, c) == e.at && Lt(st.g[c], st0.g[c])
      && st.g[c].Fin? && e.key == st.g[c].v + Octile(c, goal)
  {
    forall e | e in pushes
      ensures exists c :: KeyFrom(l, st0.g, st.g, goal, e.at, c, e.key)
    {
      assert e.at in nhv;
    }
  }

  /** An LDDB entry is the length of a walk from the table's source. */
  lemma TableReaches(l: Layout, dist: map<Pos, real>, s: Pos, v: Pos)
    requires LocalTable(l, dist, s) && v in dist
    ensures Reaches(l, s, v, dist[v])
  {
    var w := LocalWitness(l, dist, s, v);
  }

  /** What one turn of the search loop did: found the queue empty (line 160), popped an entry whose key
      reached `length` (lines 161-163), popped a stale entry (lines 164-165), or expanded a block and
      pushed `pushes` (lines 166-182). */
  datatype Turn = Drained | Bounded(e: Entry) | Skipped(e: Entry) | Expanded(e: Entry, pushes: seq<Entry>)

  /** One turn of lines 160-182. */
  method SearchStep(g: Grid, db: map<Pos, map<Pos, real>>, st0: State, pq0: seq<Entry>, goal: Pos,
                    goalBlock: Pos, length0: Cost, ghost start: Pos)
    returns (length: Cost, st: State, pq: seq<Entry>, turn: Turn)
    requires SearchGrid(g) && Table(g, db) && InBounds(g.layout, goal)
    requires Consistent(g.layout, st0, start)
    requires forall e :: e in pq0 ==> InBlockRange(g.layout, e.at)
    requires length0.Fin? ==> Reaches(g.layout, start, goal, length0.v)
    ensures Consistent(g.layout, st, start) && GDown(st0.g, st.g)
    ensures forall e :: e in pq ==> InBlockRange(g.layout, e.at)
    ensures Le(length, length0)
    ensures length.Fin? ==> Reaches(g.layout, start, goal, length.v)
    ensures turn.Drained? <==> pq0 == []
    ensures turn.Drained? ==> pq == []
    ensures !turn.Drained? ==>
      && turn.e in pq0 && (forall x :: x in pq0 ==> Precedes(turn.e, x))
      && (turn.Bounded? <==> Le(length0, Fin(turn.e.key)))
      && (turn.Skipped? <==> !turn.Bounded? && Lt(st0.heapval[turn.e.at], Fin(turn.e.key)))
    ensures !turn.Expanded? ==> st == st0 && length == length0
    ensures turn.Bounded? || turn.Skipped? ==> multiset(pq) + multiset{turn.e} == multiset(pq0)
    ensures turn.Bounded? ==> forall x :: x in pq ==> Le(length, Fin(x.key))
    ensures turn.Expanded? ==>
      && multiset(pq) + multiset{turn.e} == multiset(pq0) + multiset(turn.pushes)
      && turn.e.at in st.ingress && st.ingress[turn.e.at] == {}
      && (forall b :: b in st0.ingress && b != turn.e.at ==> st0.ingress[b] <= st.ingress[b])
      && (forall x :: x in turn.pushes ==> x.at != turn.e.at && x.at in st.heapval && st.heapval[x.at] == Fin(x.key))
      && (forall b :: b in st0.heapval ==> st.heapval[b] == st0.heapval[b] || (st.heapval[b].Fin? && Entry(st.heapval[b].v, b) in turn.pushes))
      && (turn.e.at != goalBlock ==> length == length0)
      && (turn.e.at == goalBlock ==> forall y :: y in st0.ingress[turn.e.at] ==> Le(length, Add(st0.g[y], Get(db[goal], y))))
      && (turn.e.at == goalBlock ==>
            length == length0 || exists y :: y in st0.ingress[turn.e.at] && length == Add(st0.g[y], Get(db[goal], y)))
      && (forall c :: c in st0.g && BlockOf(g.layout, c) != turn.e.at && st.g[c] != st0.g[c] ==>
            CrossTarget(g.nout, g.egress[turn.e.at], |g.egress[turn.e.at]|, c))
      && (forall b, c :: b in st0.ingress && b != turn.e.at && c in st.ingress[b] && c !in st0.ingress[b] ==>
            c in st0.g && c in st.g && Lt(st.g[c], st0.g[c]))
      && (forall x :: x in turn.pushes ==> exists c ::
            && c in st0.g && c in st.g && BlockOf(g.layout, c) == x.at && Lt(st.g[c], st0.g[c])
            && st.g[c].Fin? && x.key == st.g[c].v + Octile(c, goal))
  {
    var l := g.layout;
    length, st, pq := length0, st0, pq0;
    assert GDown(st0.g, st.g);
    if pq == [] {
      turn := Drained;
      return;
    }
    var e, rest := PopMin(pq);
    pq := rest;
    if Le(length, Fin(e.key)) {
      turn := Bounded(e);
      forall x | x in pq
        ensures Le(length, Fin(x.key))
      {
        assert Precedes(e, x);
      }
      return;
    }
    if Lt(st.heapval[e.at], Fin(e.key)) {
      turn := Skipped(e);
      return;
    }
    length, st, pq, turn := ExpandTurn(g, db, st0, pq0, e, rest, goal, goalBlock, length0, start);
  }

  /** Lines 166-182 as a turn of the search loop: the popped entry `e` is current, so its block is
      expanded and the new candidates join the rest of the queue. */
  method ExpandTurn(g: Grid, db: map<Pos, map<Pos, real>>, st0: State, ghost pq0: seq<Entry>, e: Entry,
                    rest: seq<Entry>, goal: Pos, goalBlock: Pos, length0: Cost, ghost start: Pos)
    returns (length: Cost, st: State, pq: seq<Entry>, turn: Turn)
    requires SearchGrid(g) && Table(g, db) && InBounds(g.layout, goal)
    requires Consistent(g.layout, st0, start)
    requires forall x :: x in rest ==> InBlockRange(g.layout, x.at)
    requires InBlockRange(g.layout, e.at)
    requires multiset(rest) + multiset{e} == multiset(pq0)
    requires length0.Fin? ==> Reaches(g.layout, start, goal, length0.v)
    ensures Consistent(g.layout, st, start) && GDown(st0.g, st.g)
    ensures forall x :: x in pq ==> InBlockRange(g.layout, x.at)
    ensures Le(length, length0)
    ensures length.Fin? ==> Reaches(g.layout, start, goal, length.v)
    ensures turn.Expanded? && turn.e == e
    ensures multiset(pq) + multiset{turn.e} == multiset(pq0) + multiset(turn.pushes)
    ensures turn.e.at in st.ingress && st.ingress[turn.e.at] == {}
    ensures forall b :: b in st0.ingress && b != turn.e.at ==> st0.ingress[b] <= st.ingress[b]
    ensures forall x :: x in turn.pushes ==> x.at != turn.e.at && x.at in st.heapval && st.heapval[x.at] == Fin(x.key)
    ensures forall b :: b in st0.heapval ==> st.heapval[b] == st0.heapval[b] || (st.heapval[b].Fin? && Entry(st.heapval[b].v, b) in turn.pushes)
    ensures turn.e.at != goalBlock ==> length == length0
    ensures turn.e.at == goalBlock ==> forall y :: y in st0.ingress[turn.e.at] ==> Le(length, Add(st0.g[y], Get(db[goal], y)))
    ensures turn.e.at == goalBlock ==>
      length == length0 || exists y :: y in st0.ingress[turn.e.at] && length == Add(st0.g[y], Get(db[goal], y))
    ensures forall c :: c in st0.g && BlockOf(g.layout, c) != turn.e.at && st.g[c] != st0.g[c] ==>
      CrossTarget(g.nout, g.egress[turn.e.at], |g.egress[turn.e.at]|, c)
    ensures forall b, c :: b in st0.ingress && b != turn.e.at && c in st.ingress[b] && c !in st0.ingress[b] ==>
      c in st0.g && c in st.g && Lt(st.g[c], st0.g[c])
    ensures forall x :: x in turn.pushes ==> exists c ::
      && c in st0.g && c in st.g && BlockOf(g.layout, c) == x.at && Lt(st.g[c], st0.g[c])
      && st.g[c].Fin? && x.key == st.g[c].v + Octile(c, goal)
  {
    var pushes;
    length, st, pushes := Expand(g, db, st0, e.at, goal, goalBlock, length0, start);
    pq := rest + pushes;
    turn := Expanded(e, pushes);
  }

  /** Why the search loop stopped: the queue ran dry, a popped key reached `length`, or the step
      budget ran out. */
  datatype Stop = Empty | Bound | OutOfFuel

  /** Lines 160-183: turns of the search loop until the queue is empty or a popped key reaches
      `length`, for at most `fuel` turns. */
  method Search(g: Grid, db: map<Pos, map<Pos, real>>, st0: State, pq0: seq<Entry>, goal: Pos, goalBlock: Pos,
                length0: Cost, fuel: nat, ghost start: Pos)
    returns (length: Cost, st: State, pq: seq<Entry>, stop: Stop)
    requires SearchGrid(g) && Table(g, db) && InBounds(g.layout, goal)
    requires Consistent(g.layout, st0, start)
    requires forall e :: e in pq0 ==> InBlockRange(g.layout, e.at)
    requires length0.Fin? ==> Reaches(g.layout, start, goal, length0.v)
    ensures Consistent(g.layout, st, start) && GDown(st0.g, st.g)
    ensures Le(length, length0)
    ensures length.Fin? ==> Reaches(g.layout, start, goal, length.v)
    ensures stop == Empty ==> pq == []
    ensures stop == Bound ==> forall e :: e in pq ==> Le(length, Fin(e.key))
  {
    var l := g.layout;
    length, st, pq := length0, st0, pq0;
    stop := OutOfFuel;
    assert GDown(st0.g, st.g);
    var steps := fuel;
    while steps > 0
      invariant Consistent(l, st, start) && GDown(st0.g, st.g)
      invariant Le(length, length0)
      invariant length.Fin? ==> Reaches(l, start, goal, length.v)
      invariant forall e :: e in pq ==> InBlockRange(l, e.at)
      invariant stop == OutOfFuel
      decreases steps
    {
      steps := steps - 1;
      var st1 := st;
      var turn;
      length, st, pq, turn := SearchStep(g, db, st1, pq, goal, goalBlock, length, start);
      GDownTrans(st0.g, st1.g, st.g);
      if turn.Drained? {
        stop := Empty;
        break;
      } else if turn.Bounded? {
        stop := Bound;
        break;
      }
    }
  }

  /** The egress cells of a block are cells of the grid in that block. */
  lemma EgressCells(g: Grid, blk: Pos, gs: map<Pos, Cost>)
    requires EgressIndexed(g) && InBlockRange(g.layout, blk)
    requires forall p {:trigger p in gs} :: p in gs <==> InBounds(g.layout, p)
    ensures blk in g.egress && forall c :: c in g.egress[blk] ==> c in gs && BlockOf(g.layout, c) == blk
  {
  }

  /** After `initBlock(start)` on a reset state every finite `g` is an LDDB distance from `start`. */
  lemma SeededWitnessed(l: Layout, db: map<Pos, map<Pos, real>>, gs0: map<Pos, Cost>, gs1: map<Pos, Cost>,
                        start: Pos, cs: seq<Pos>)
    requires start in db && LocalTable(l, db[start], start)
    requires forall p :: p in gs0 ==> gs0[p] == Inf
    requires gs1.Keys == gs0.Keys
    requires forall c :: c in cs ==> c in gs1 && gs1[c] == Get(db[start], c)
    requires forall c :: c in gs0 && c !in cs ==> gs1[c] == gs0[c]
    ensures Witnessed(l, gs1, start)
  {
    forall c | c in gs1 && gs1[c].Fin?
      ensures Reaches(l, start, c, gs1[c].v)
    {
      if c in cs {
        TableReaches(l, db[start], start, c);
      }
    }
  }

  /** After `initBlock(start)` on a reset state the only ingress cells are the reached egress cells of
      the start block. */
  lemma SeededIngress(l: Layout, db: map<Pos, map<Pos, real>>, gs1: map<Pos, Cost>, ing0: map<Pos, set<Pos>>,
                      ing1: map<Pos, set<Pos>>, start: Pos, block: Pos, cs: seq<Pos>)
    requires forall b :: b in ing0 ==> ing0[b] == {}
    requires start in db && block in ing0
    requires forall c :: c in cs ==> c in gs1 && gs1[c] == Get(db[start], c) && BlockOf(l, c) == block
    requires ing1.Keys == ing0.Keys
    requires ing1[block] == ing0[block] + Reached(cs, db[start])
    requires forall b :: b in ing0 && b != block ==> ing1[b] == ing0[b]
    ensures IngressSound(l, gs1, ing1)
  {
  }

  /** `initBlock(start)` on a reset state (lines 153-154): the start block's egress cells hold their
      LDDB distance from `start`, the finite ones form its ingress set, everything else stays reset,
      and the query state is consistent. */
  method SeedStart(g: Grid, db: map<Pos, map<Pos, real>>, st0: State, start: Pos)
    returns (startBlock: Pos, st: State)
    requires EgressIndexed(g) && Table(g, db) && Quiescent(g.layout, st0)
    requires InBounds(g.layout, start)
    ensures InBlockRange(g.layout, startBlock) && startBlock == BlockOf(g.layout, start)
    ensures Consistent(g.layout, st, start)
    ensures forall c :: c in st.g ==> st.g[c] == if c in g.egress[startBlock] then Get(db[start], c) else Inf
    ensures forall b :: b in st.ingress ==> st.ingress[b] == if b == startBlock then Reached(g.egress[startBlock], db[start]) else {}
    ensures st.heapval == st0.heapval
  {
    var l := g.layout;
    startBlock, st := InitBlock(g, db, st0, start, Start);
    EgressCells(g, startBlock, st.g);
    SeededWitnessed(l, db, st0.g, st.g, start, g.egress[startBlock]);
    SeededIngress(l, db, st.g, st0.ingress, st.ingress, start, startBlock, g.egress[startBlock]);
  }

  /** Lines 153-158 on a reset state: seed the start block, find the goal block, and take the LDDB
      distance as the first `length` when the two blocks coincide. */
  method Prepare(g: Grid, db: map<Pos, map<Pos, real>>, st0: State, start: Pos, goal: Pos)
    returns (startBlock: Pos, goalBlock: Pos, st: State, length: Cost)
    requires EgressIndexed(g) && Table(g, db) && Quiescent(g.layout, st0)
    requires InBounds(g.layout, start) && InBounds(g.layout, goal)
    ensures InBlockRange(g.layout, startBlock) && startBlock == BlockOf(g.layout, start)
    ensures goalBlock == BlockOf(g.layout, goal)
    ensures Consistent(g.layout, st, start)
    ensures forall c :: c in st.g ==> st.g[c] == if c in g.egress[startBlock] then Get(db[start], c) else Inf
    ensures forall b :: b in st.ingress ==> st.ingress[b] == if b == startBlock then Reached(g.egress[startBlock], db[start]) else {}
    ensures st.heapval == st0.heapval
    ensures length == if startBlock == goalBlock then Get(db[start], goal) else Inf
    ensures length.Fin? ==> Reaches(g.layout, start, goal, length.v)
  {
    var st1;
    startBlock, st1 := SeedStart(g, db, st0, start);
    goalBlock, st := InitBlock(g, db, st1, goal, Goal);
    length := if startBlock == goalBlock then Get(db[start], goal) else Inf;
    if length.Fin? {
      TableReaches(g.layout, db[start], start, goal);
    }
  }

  /** `blockAStar` (lines 152-183) on a reset state: prepare, then search from the start block keyed by
      the octile distance to the goal. Besides the length it returns the final state and why the search
      stopped. */
  method BlockAStar(g: Grid, db: map<Pos, map<Pos, real>>, st0: State, start: Pos, goal: Pos, fuel: nat)
    returns (length: Cost, st: State, stop: Stop)
    requires SearchGrid(g) && Table(g, db) && Quiescent(g.layout, st0)
    requires InBounds(g.layout, start) && InBounds(g.layout, goal)
    ensures SameBlock(g.layout, start, goal) ==> Le(length, Get(db[start], goal))
    ensures length.Fin? ==> Reaches(g.layout, start, goal, length.v) && Octile(start, goal) <= length.v
    ensures Consistent(g.layout, st, start)
  {
    var startBlock, goalBlock, st1, length0 := Prepare(g, db, st0, start, goal);
    var pq;
    length, st, pq, stop := Search(g, db, st1, [Entry(Octile(start, goal), startBlock)], goal, goalBlock,
                                   length0, fuel, start);
    if length.Fin? {
      ReachesAdmissible(g.layout, start, goal, length.v);
    }
  }
}

=== FILE: costs.dfy ===
/** Path costs as the search sees them: a finite real or +infinity. */
module Costs {

  /** `Inf` stands for Python's `float('inf')`, the value every unknown distance starts at. */
  datatype Cost = Fin(v: real) | Inf

  /** `a <= b` on extended reals. */
  predicate Le(a: Cost, b: Cost) {
    b.Inf? || (a.Fin? && a.v <= b.v)
  }

  /** `a < b` on extended reals. */
  predicate Lt(a: Cost, b: Cost) {
    a.Fin? && (b.Inf? || a.v < b.v)
  }

  /** Addition where anything plus infinity is infinity. */
  function Add(a: Cost, b: Cost): (r: Cost)
    ensures r.Fin? <==> a.Fin? && b.Fin?
    ensures r.Fin? ==> r.v == a.v + b.v
  {
    if a.Fin? && b.Fin? then Fin(a.v + b.v) else Inf
  }

  /** Python's two-argument `min`: the second argument only when it is strictly smaller. */
  function Min(a: Cost, b: Cost): (r: Cost)
    ensures Le(r, a) && Le(r, b)
    ensures r == a || r == b
    ensures r == b ==> Lt(b, a) || a == b
  {
    if Lt(b, a) then b else a
  }

  /** Lookup in a table whose missing keys read as infinity (a `defaultdict` of `inf`). */
  function Get<K>(m: map<K, real>, k: K): (r: Cost)
    ensures r.Fin? <==> k in m
    ensures k in m ==> r.v == m[k]
  {
    if k in m then Fin(m[k]) else Inf
  }

  /** The laws the search relies on when it adds path pieces: addition of costs is commutative and
      associative, zero is neutral, infinity absorbs, and adding the same cost keeps the order. */
  lemma AddLaws(a: Cost, b: Cost, c: Cost)
    ensures Add(a, b) == Add(b, a)
    ensures Add(Add(a, b), c) == Add(a, Add(b, c))
    ensures Add(a, Fin(0.0)) == a && Add(a, Inf) == Inf
    ensures Le(b, c) ==> Le(Add(a, b), Add(a, c))
    ensures Lt(b, c) && a.Fin? ==> Lt(Add(a, b), Add(a, c))
  {
  }

  /** Writing `m[k] = v` into a distance table makes `k` read as `v` and leaves every other key
      reading as before, an absent one still as infinity. */
  lemma GetUpdate<K>(m: map<K, real>, k: K, v: real, j: K)
    ensures Get(m[k := v], k) == Fin(v)
    ensures j != k ==> Get(m[k := v], j) == Get(m, j)
  {
  }
}

=== FILE: geometry.dfy ===
/** Cell coordinates and the octile metric (blockastar.py lines 10-13). */
module Geometry {

  /** A cell or block coordinate: `row` is the source's `x`, `col` its `y`. */
  datatype Pos = Pos(row: int, col: int)

  /** The square root of two as the real `1.4142135623730951`: the shortest decimal that reads back
      as the double `sqrt(2)` returns, close to but not equal to that double's exact value. */
  const D: real := 1.4142135623730951

  function AbsDiff(a: int, b: int): nat {
    if a <= b then b - a else a - b
  }

  function MaxNat(a: nat, b: nat): nat {
    if a >= b then a else b
  }

  function MinNat(a: nat, b: nat): nat {
    if a <= b then a else b
  }

  /** True when `q` is one of the eight cells around `p`. */
  predicate Adjacent(p: Pos, q: Pos) {
    p != q && -1 <= q.row - p.row <= 1 && -1 <= q.col - p.col <= 1
  }

  /** An adjacent move that changes both coordinates. */
  predicate IsDiagonal(p: Pos, q: Pos) {
    p.row != q.row && p.col != q.col
  }

  /** Octile distance: `max(dx, dy) + (sqrt(2) - 1) * min(dx, dy)`. It weighs a single move and is
      the heuristic of the block search. */
  function Octile(a: Pos, b: Pos): (r: real)
    ensures MaxNat(AbsDiff(a.row, b.row), AbsDiff(a.col, b.col)) as real <= r
    ensures r <= (AbsDiff(a.row, b.row) + AbsDiff(a.col, b.col)) as real
    ensures r == 0.0 <==> a == b
    ensures Adjacent(a, b) && !IsDiagonal(a, b) ==> r == 1.0
    ensures Adjacent(a, b) && IsDiagonal(a, b) ==> r == D
  {
    var dx := AbsDiff(a.row, b.row);
    var dy := AbsDiff(a.col, b.col);
    MaxNat(dx, dy) as real + (D - 1.0) * MinNat(dx, dy) as real
  }

  lemma OctileSymmetric(a: Pos, b: Pos)
    ensures Octile(a, b) == Octile(b, a)
  {
  }

  /** The octile distance is a blend of the L-infinity and L1 norms with positive weights. */
  lemma OctileBlend(a: Pos, b: Pos)
    ensures Octile(a, b)
         == (2.0 - D) * MaxNat(AbsDiff(a.row, b.row), AbsDiff(a.col, b.col)) as real
          + (D - 1.0) * (AbsDiff(a.row, b.row) + AbsDiff(a.col, b.col)) as real
  {
  }

  lemma AbsDiffTriangle(a: int, b: int, c: int)
    ensures AbsDiff(a, c) <= AbsDiff(a, b) + AbsDiff(b, c)
  {
  }

  lemma MaxTriangle(a: Pos, b: Pos, c: Pos)
    ensures MaxNat(AbsDiff(a.row, c.row), AbsDiff(a.col, c.col))
         <= MaxNat(AbsDiff(a.row, b.row), AbsDiff(a.col, b.col)) + MaxNat(AbsDiff(b.row, c.row), AbsDiff(b.col, c.col))
  {
    AbsDiffTriangle(a.row, b.row, c.row);
    AbsDiffTriangle(a.col, b.col, c.col);
  }

  /** The triangle inequality, which makes the heuristic consistent. */
  lemma OctileTriangle(a: Pos, b: Pos, c: Pos)
    ensures Octile(a, c) <= Octile(a, b) + Octile(b, c)
  {
    OctileBlend(a, c);
    OctileBlend(a, b);
    OctileBlend(b, c);
    MaxTriangle(a, b, c);
    AbsDiffTriangle(a.row, b.row, c.row);
    AbsDiffTriangle(a.col, b.col, c.col);
    var m1 := MaxNat(AbsDiff(a.row, c.row), AbsDiff(a.col, c.col)) as real;
    var m2 := MaxNat(AbsDiff(a.row, b.row), AbsDiff(a.col, b.col)) as real;
    var m3 := MaxNat(AbsDiff(b.row, c.row), AbsDiff(b.col, c.col)) as real;
    var s1 := (AbsDiff(a.row, c.row) + AbsDiff(a.col, c.col)) as real;
    var s2 := (AbsDiff(a.row, b.row) + AbsDiff(a.col, b.col)) as real;
    var s3 := (AbsDiff(b.row, c.row) + AbsDiff(b.col, c.col)) as real;
    ScaleLe(2.0 - D, m1, m2 + m3);
    ScaleLe(D - 1.0, s1, s2 + s3);
  }

  lemma ScaleLe(k: real, x: real, y: real)
    requires 0.0 <= k && x <= y
    ensures k * x <= k * y
  {
  }
}

=== FILE: grids.dfy ===
/** Grid construction (blockastar.py lines 16-23, 37-43 and 58-106): walkability, block identities,
    the eight-neighbour adjacency split into in-block and cross-block edges, and the egress lists. */
module Grids {
  import opened Geometry

  /** A block size; the source divides by it. */
  type BlockSize = k: int | k >= 1 witness 1

  /** The walkable/blocked matrix with its declared height, width and block size `K`. */
  datatype Layout = Layout(open: seq<seq<bool>>, height: nat, width: nat, k: BlockSize)

  /** A move to a neighbouring cell with its octile weight. */
  datatype Edge = Edge(to: Pos, weight: real)

  /** The built grid: for every cell its `neighboursin` and `neighboursout`, and for every block its
      `egress` list. Cells and blocks are named by coordinates instead of object references. */
  datatype Grid = Grid(layout: Layout, nin: map<Pos, seq<Edge>>, nout: map<Pos, seq<Edge>>, egress: map<Pos, seq<Pos>>)

  /** Why building the grid raises: `ceil(H/K)` with a zero block size (line 68, the first iterable the
      comprehension of lines 66-68 evaluates), `block[i//K]` into the empty block matrix a negative
      block size builds (line 69), or `lines[i+4][j]` past the end of the file or of a line (line 69). */
  datatype LayoutError = ZeroBlockSize | NoBlocks | MissingRow(row: nat) | ShortRow(row: nat)

  datatype Result<T> = Ok(value: T) | Err(error: LayoutError)

  /** Walkability of a map character (line 20). */
  predicate IsOpenChar(c: char) {
    c == '.' || c == 'S'
  }

  predicate ValidLayout(l: Layout) {
    && |l.open| == l.height
    && forall i :: 0 <= i < |l.open| ==> |l.open[i]| == l.width
  }

  /** The number of values `range(n)` yields: `n`, or none for a negative `n`. */
  function RangeLen(n: int): (r: nat)
    ensures n >= 0 ==> r == n
    ensures n <= 0 ==> r == 0
  {
    if n < 0 then 0 else n
  }

  /** Whether the first `width` characters of row `x` can be read: with `width <= 0` none are read. */
  predicate RowOk(rows: seq<seq<char>>, x: int, width: int) {
    width <= 0 || (0 <= x < |rows| && |rows[x]| >= width)
  }

  /** Whether the first `height` rows all exist and hold at least `width` characters. */
  predicate RowsCover(rows: seq<seq<char>>, height: int, width: int) {
    forall x :: 0 <= x < height ==> RowOk(rows, x, width)
  }

  /** The first row at or after `i` that is missing or shorter than `width`, or `height` if there is none. */
  function FirstBadRow(rows: seq<seq<char>>, height: nat, width: int, i: nat): (r: nat)
    requires i <= height
    ensures i <= r <= height
    ensures forall x :: i <= x < r ==> RowOk(rows, x, width)
    ensures r < height ==> !RowOk(rows, r, width)
    decreases height - i
  {
    if i == height then height
    else if !RowOk(rows, i, width) then i
    else FirstBadRow(rows, height, width, i + 1)
  }

  /** The matrix of `Cell.empty` flags (lines 63-71 without the file reading). `rows` are the map
      lines as `readlines` returns them, each still ending in its line break, so a line one character
      short reads its line break as a blocked cell. `H` and `W` are whatever `int` parsed, negative
      ones included. A zero `K` raises in `ceil(H/K)`, the first division evaluated. Otherwise, when
      `H` or `W` is zero or negative, `range` yields no cell and nothing raises: the grid has no
      cells, which the model records as a `max(H, 0)` by `max(W, 0)` layout, with block size 1 for a
      negative `K` (no cells and no blocks either way). A negative `K` with cells builds no blocks, so
      the first cell raises in `block[i//K]` once its character has been read. For a positive `K`
      every `lines[i+4][j]` is read, so a missing or short row raises at the first such row. */
  function ParseLayout(rows: seq<seq<char>>, height: int, width: int, k: int): (r: Result<Layout>)
    ensures r == Err(ZeroBlockSize) <==> k == 0
    ensures r == Err(NoBlocks) <==> k < 0 && height > 0 && width > 0 && RowOk(rows, 0, 1)
    ensures r.Ok? <==> if k >= 1 then RowsCover(rows, height, width) else k < 0 && (height <= 0 || width <= 0)
    ensures r.Ok? ==> ValidLayout(r.value) && r.value.height == RangeLen(height) && r.value.width == RangeLen(width)
    ensures r.Ok? && k >= 1 ==> r.value.k == k
    ensures r.Ok? ==> forall i, j :: 0 <= i < height && 0 <= j < width && RowOk(rows, i, width) ==>
                        r.value.open[i][j] == IsOpenChar(rows[i][j])
    ensures r.Err? && (r.error.MissingRow? || r.error.ShortRow?) ==>
      && r.error.row < height
      && (forall x :: 0 <= x < r.error.row ==> RowOk(rows, x, width))
      && (r.error.MissingRow? <==> r.error.row >= |rows|)
      && (r.error.ShortRow? ==> !RowOk(rows, r.error.row, width))
  {
    if k == 0 then Err(ZeroBlockSize)
    else if height <= 0 || width <= 0 then
      var h, w := RangeLen(height), RangeLen(width);
      Ok(Layout(seq(h, i => seq(w, j => false)), h, w, if k >= 1 then k else 1))
    else if k < 0 then
      if |rows| == 0 then Err(MissingRow(0))
      else if |rows[0]| == 0 then Err(ShortRow(0))
      else Err(NoBlocks)
    else
      var bad := FirstBadRow(rows, height, width, 0);
      if bad < height then
        assert !RowsCover(rows, height, width);
        if bad >= |rows| then Err(MissingRow(bad)) else Err(ShortRow(bad))
      else
        assert RowOk(rows, height - 1, width);
        assert RowsCover(rows, height, width);
        Ok(Layout(seq(height, i requires 0 <= i < height && RowOk(rows, i, width) =>
                    seq(width, j requires 0 <= j < width && i < |rows| && j < |rows[i]| => IsOpenChar(rows[i][j]))),
                  height, width, k))
  }

  /** A line break among the first `W` characters of a line is read as a blocked cell, as
      `readlines` leaves it in place: a line one character short of `W` has its last cell blocked. */
  lemma LineBreakIsBlocked(rows: seq<seq<char>>, height: int, width: int, k: int, i: nat, j: nat)
    requires 1 <= k && i < height && j < width && i < |rows| && j < |rows[i]| && rows[i][j] == '\n'
    ensures var r := ParseLayout(rows, height, width, k); r.Ok? ==> !r.value.open[i][j]
  {
  }

  predicate InBounds(l: Layout, p: Pos) {
    0 <= p.row < l.height && 0 <= p.col < l.width
  }

  /** A walkable cell of the grid (`Cell.empty`). */
  predicate Open(l: Layout, p: Pos) {
    InBounds(l, p) && p.row < |l.open| && p.col < |l.open[p.row]| && l.open[p.row][p.col]
  }

  /** The block a cell belongs to (line 69: `block[i//K][j//K]`). */
  function BlockOf(l: Layout, p: Pos): Pos {
    Pos(p.row / l.k, p.col / l.k)
  }

  predicate SameBlock(l: Layout, p: Pos, q: Pos) {
    BlockOf(l, p) == BlockOf(l, q)
  }

  /** `ceil(H/K)` rows and `ceil(W/K)` columns of blocks (lines 66-68). */
  function BlockRows(l: Layout): nat {
    (l.height + l.k - 1) / l.k
  }

  function BlockCols(l: Layout): nat {
    (l.width + l.k - 1) / l.k
  }

  predicate InBlockRange(l: Layout, b: Pos) {
    0 <= b.row < BlockRows(l) && 0 <= b.col < BlockCols(l)
  }

  lemma MulMono(a: int, b: int, k: int)
    requires a <= b && 1 <= k
    ensures a * k <= b * k
  {
  }

  /** Division by a positive `k` has a unique quotient. */
  lemma DivUnique(n: int, k: int, q: int, m: int)
    requires 1 <= k && 0 <= m < k && n == q * k + m
    ensures n / k == q
  {
    var q' := n / k;
    assert n == q' * k + n % k;
    if q' < q {
      MulMono(q' + 1, q, k);
    } else if q < q' {
      MulMono(q + 1, q', k);
    }
  }

  lemma DivBelowCeil(x: int, n: nat, k: int)
    requires 1 <= k && 0 <= x < n
    ensures x / k < (n + k - 1) / k
  {
    var q := x / k;
    var c := (n + k - 1) / k;
    assert x == q * k + x % k;
    assert n + k - 1 == c * k + (n + k - 1) % k;
    if c <= q {
      MulMono(c, q, k);
    }
  }

  /** Every cell's block exists. */
  lemma BlockInRange(l: Layout, p: Pos)
    requires InBounds(l, p)
    ensures InBlockRange(l, BlockOf(l, p))
  {
    DivBelowCeil(p.row, l.height, l.k);
    DivBelowCeil(p.col, l.width, l.k);
  }

  /** The eight directions in the order the source tries them (lines 77 and 90). */
  const Orthogonal: seq<(int, int)> := [(0, 1), (0, -1), (1, 0), (-1, 0)]
  const Diagonals: seq<(int, int)> := [(1, 1), (1, -1), (-1, 1), (-1, -1)]

  function Shift(p: Pos, d: (int, int)): Pos {
    Pos(p.row + d.0, p.col + d.1)
  }

  /** Whether the move from `p` in direction `d` is made: the target is in bounds and walkable, and
      for a diagonal so are both side cells `(i, jj)` and `(ii, j)` (lines 80-82 and 93-97). */
  predicate CanStep(l: Layout, p: Pos, d: (int, int), diagonal: bool) {
    var q := Shift(p, d);
    Open(l, q) && (diagonal ==> Open(l, Pos(p.row, q.col)) && Open(l, Pos(q.row, p.col)))
  }

  /** The edges from `p` in directions `dirs`, in order, each weighted by its octile distance. */
  function StepEdges(l: Layout, p: Pos, dirs: seq<(int, int)>, diagonal: bool): seq<Edge>
    decreases |dirs|
  {
    if dirs == [] then []
    else
      var q := Shift(p, dirs[0]);
      var rest := StepEdges(l, p, dirs[1..], diagonal);
      if CanStep(l, p, dirs[0], diagonal) then [Edge(q, Octile(p, q))] + rest else rest
  }

  /** Each recorded edge comes from one of the directions tried. */
  lemma {:induction false} StepEdgesFrom(l: Layout, p: Pos, dirs: seq<(int, int)>, diagonal: bool, e: Edge)
    requires e in StepEdges(l, p, dirs, diagonal)
    ensures exists i :: 0 <= i < |dirs| && CanStep(l, p, dirs[i], diagonal)
                        && e == Edge(Shift(p, dirs[i]), Octile(p, Shift(p, dirs[i])))
    decreases |dirs|
  {
    var q := Shift(p, dirs[0]);
    if CanStep(l, p, dirs[0], diagonal) && e == Edge(q, Octile(p, q)) {
      assert 0 < |dirs|;
    } else {
      StepEdgesFrom(l, p, dirs[1..], diagonal, e);
      var i :| 0 <= i < |dirs[1..]| && CanStep(l, p, dirs[1..][i], diagonal)
               && e == Edge(Shift(p, dirs[1..][i]), Octile(p, Shift(p, dirs[1..][i])));
      assert dirs[1..][i] == dirs[i + 1];
    }
  }

  /** Each direction whose step is allowed yields a recorded edge. */
  lemma {:induction false} StepInEdges(l: Layout, p: Pos, dirs: seq<(int, int)>, diagonal: bool, i: int)
    requires 0 <= i < |dirs| && CanStep(l, p, dirs[i], diagonal)
    ensures Edge(Shift(p, dirs[i]), Octile(p, Shift(p, dirs[i]))) in StepEdges(l, p, dirs, diagonal)
    decreases |dirs|
  {
    if i > 0 {
      assert dirs[1..][i - 1] == dirs[i];
      StepInEdges(l, p, dirs[1..], diagonal, i - 1);
    }
  }

  /** All moves out of a cell: none for a blocked cell, else the orthogonal then the diagonal ones. */
  function CellEdges(l: Layout, p: Pos): seq<Edge> {
    if Open(l, p) then StepEdges(l, p, Orthogonal, false) + StepEdges(l, p, Diagonals, true) else []
  }

  /** The declarative move relation: both ends walkable and adjacent, and a diagonal move does not cut
      a corner. */
  predicate IsMove(l: Layout, p: Pos, q: Pos) {
    && Open(l, p) && Open(l, q) && Adjacent(p, q)
    && (IsDiagonal(p, q) ==> Open(l, Pos(p.row, q.col)) && Open(l, Pos(q.row, p.col)))
  }

  /** A step the construction takes from a walkable cell is a move. */
  lemma StepIsMove(l: Layout, p: Pos, d: (int, int), diagonal: bool)
    requires Open(l, p) && CanStep(l, p, d, diagonal)
    requires -1 <= d.0 <= 1 && -1 <= d.1 <= 1
    requires diagonal ==> d.0 != 0 && d.1 != 0
    requires !diagonal ==> (d.0 == 0) != (d.1 == 0)
    ensures IsMove(l, p, Shift(p, d))
  {
  }

  /** Every edge the construction records is a move weighted by its octile distance. */
  lemma EdgesAreMoves(l: Layout, p: Pos, e: Edge)
    requires e in CellEdges(l, p)
    ensures IsMove(l, p, e.to) && e.weight == Octile(p, e.to)
  {
    if e in StepEdges(l, p, Orthogonal, false) {
      StepEdgesFrom(l, p, Orthogonal, false, e);
      var i :| 0 <= i < |Orthogonal| && CanStep(l, p, Orthogonal[i], false)
               && e == Edge(Shift(p, Orthogonal[i]), Octile(p, Shift(p, Orthogonal[i])));
      assert i == 0 || i == 1 || i == 2 || i == 3;
      StepIsMove(l, p, Orthogonal[i], false);
    } else {
      StepEdgesFrom(l, p, Diagonals, true, e);
      var i :| 0 <= i < |Diagonals| && CanStep(l, p, Diagonals[i], true)
               && e == Edge(Shift(p, Diagonals[i]), Octile(p, Shift(p, Diagonals[i])));
      assert i == 0 || i == 1 || i == 2 || i == 3;
      StepIsMove(l, p, Diagonals[i], true);
    }
  }

  /** Every move is recorded by the construction. */
  lemma MovesAreEdges(l: Layout, p: Pos, q: Pos)
    requires IsMove(l, p, q)
    ensures Edge(q, Octile(p, q)) in CellEdges(l, p)
  {
    var d := (q.row - p.row, q.col - p.col);
    assert q == Shift(p, d);
    if d == (0, 1) {
      StepInEdges(l, p, Orthogonal, false, 0);
    } else if d == (0, -1) {
      StepInEdges(l, p, Orthogonal, false, 1);
    } else if d == (1, 0) {
      StepInEdges(l, p, Orthogonal, false, 2);
    } else if d == (-1, 0) {
      StepInEdges(l, p, Orthogonal, false, 3);
    } else if d == (1, 1) {
      StepInEdges(l, p, Diagonals, true, 0);
    } else if d == (1, -1) {
      StepInEdges(l, p, Diagonals, true, 1);
    } else if d == (-1, 1) {
      StepInEdges(l, p, Diagonals, true, 2);
    } else {
      assert d == (-1, -1);
      StepInEdges(l, p, Diagonals, true, 3);
    }
  }

  /** Moves are symmetric: the corner cells of a diagonal are the same seen from either end. */
  lemma MoveSymmetric(l: Layout, p: Pos, q: Pos)
    requires IsMove(l, p, q)
    ensures IsMove(l, q, p)
  {
  }

  /** The edges the source builds are exactly the moves, weighted by octile distance. */
  lemma CellEdgesExact(l: Layout, p: Pos, e: Edge)
    ensures e in CellEdges(l, p) <==> IsMove(l, p, e.to) && e.weight == Octile(p, e.to)
  {
    if e in CellEdges(l, p) {
      EdgesAreMoves(l, p, e);
    }
    if IsMove(l, p, e.to) && e.weight == Octile(p, e.to) {
      MovesAreEdges(l, p, e.to);
    }
  }

  /** Files each edge into the in-block list or the cross-block list, keeping order (lines 85-88, 100-103). */
  function File(l: Layout, p: Pos, es: seq<Edge>): (r: (seq<Edge>, seq<Edge>))
    ensures |r.0| + |r.1| == |es|
    ensures multiset(r.0) + multiset(r.1) == multiset(es)
    ensures forall e :: e in r.0 <==> e in es && SameBlock(l, p, e.to)
    ensures forall e :: e in r.1 <==> e in es && !SameBlock(l, p, e.to)
  {
    if es == [] then ([], [])
    else
      var rest := File(l, p, es[1..]);
      assert es == [es[0]] + es[1..];
      if SameBlock(l, p, es[0].to) then ([es[0]] + rest.0, rest.1) else (rest.0, [es[0]] + rest.1)
  }

  /** `Cell.neighboursin` after construction. */
  function NeighboursIn(l: Layout, p: Pos): seq<Edge> {
    File(l, p, CellEdges(l, p)).0
  }

  /** `Cell.neighboursout` after construction. */
  function NeighboursOut(l: Layout, p: Pos): seq<Edge> {
    File(l, p, CellEdges(l, p)).1
  }

  /** The perimeter test of line 105. */
  predicate OnPerimeter(l: Layout, p: Pos) {
    p.row % l.k == 0 || p.col % l.k == 0 || (p.row + 1) % l.k == 0 || (p.col + 1) % l.k == 0
  }

  /** The egress test of line 105: walkable, on a block perimeter, with a cross-block edge. */
  predicate IsEgressCell(l: Layout, p: Pos) {
    Open(l, p) && OnPerimeter(l, p) && |NeighboursOut(l, p)| > 0
  }

  /** Some move out of `p` leaves its block. */
  ghost predicate Exits(l: Layout, p: Pos) {
    exists q :: IsMove(l, p, q) && !SameBlock(l, p, q)
  }

  /** A one-step change of coordinate that changes the block index starts on a block border. */
  lemma StepAcrossBorder(x: int, y: int, k: int)
    requires 1 <= k && -1 <= y - x <= 1 && x / k != y / k
    ensures x % k == 0 || (x + 1) % k == 0
  {
    assert x == (x / k) * k + x % k;
    if y == x - 1 && x % k != 0 {
      DivUnique(y, k, x / k, x % k - 1);
    } else if y == x + 1 && (x + 1) % k != 0 {
      assert x % k + 1 < k by {
        if x % k + 1 == k {
          DivUnique(x + 1, k, x / k + 1, 0);
        }
      }
      DivUnique(y, k, x / k, x % k + 1);
    }
  }

  /** A cell with a cross-block move lies on a block perimeter, so the perimeter test of line 105 never
      rejects a cell that has a cross-block edge. */
  lemma CrossingOnPerimeter(l: Layout, p: Pos, q: Pos)
    requires Adjacent(p, q) && !SameBlock(l, p, q)
    ensures OnPerimeter(l, p)
  {
    if p.row / l.k != q.row / l.k {
      StepAcrossBorder(p.row, q.row, l.k);
    } else {
      StepAcrossBorder(p.col, q.col, l.k);
    }
  }

  /** The egress test is equivalent to: walkable, with some move that leaves the block. */
  lemma EgressExact(l: Layout, p: Pos)
    ensures IsEgressCell(l, p) <==> Open(l, p) && Exits(l, p)
  {
    var outs := NeighboursOut(l, p);
    if IsEgressCell(l, p) {
      var e := outs[0];
      assert e in outs;
      CellEdgesExact(l, p, e);
      assert IsMove(l, p, e.to) && !SameBlock(l, p, e.to);
    }
    if Open(l, p) && Exits(l, p) {
      var q :| IsMove(l, p, q) && !SameBlock(l, p, q);
      CellEdgesExact(l, p, Edge(q, Octile(p, q)));
      assert Edge(q, Octile(p, q)) in outs;
      CrossingOnPerimeter(l, p, q);
    }
  }

  predicate RowMajorLt(a: Pos, b: Pos) {
    a.row < b.row || (a.row == b.row && a.col < b.col)
  }

  /** Strictly increasing in row-major order: the order of the construction loop, without repeats. */
  predicate Ascending(cs: seq<Pos>) {
    forall i, j :: 0 <= i < j < |cs| ==> RowMajorLt(cs[i], cs[j])
  }

  /** What a built grid is, stated without the construction procedure: the in-block and cross-block
      lists hold exactly the moves of each kind with their octile weights, and each block's egress list
      holds, in row-major order, exactly its walkable cells with a move out of the block. */
  ghost predicate Wired(g: Grid) {
    ValidLayout(g.layout) && EdgesWired(g) && EgressWired(g)
  }

  /** The edge-list half of `Wired`. */
  ghost predicate EdgesWired(g: Grid) {
    var l := g.layout;
    && (forall p :: p in g.nin <==> InBounds(l, p))
    && (forall p :: p in g.nout <==> InBounds(l, p))
    && (forall p, e :: p in g.nin && e in g.nin[p] ==>
          IsMove(l, p, e.to) && SameBlock(l, p, e.to) && e.weight == Octile(p, e.to))
    && (forall p, q :: IsMove(l, p, q) && SameBlock(l, p, q) ==> p in g.nin && Edge(q, Octile(p, q)) in g.nin[p])
    && (forall p, e :: p in g.nout && e in g.nout[p] ==>
          IsMove(l, p, e.to) && !SameBlock(l, p, e.to) && e.weight == Octile(p, e.to))
    && (forall p, q :: IsMove(l, p, q) && !SameBlock(l, p, q) ==> p in g.nout && Edge(q, Octile(p, q)) in g.nout[p])
  }

  /** The egress half of `Wired`. */
  ghost predicate EgressWired(g: Grid) {
    var l := g.layout;
    && (forall b :: b in g.egress <==> InBlockRange(l, b))
    && (forall b, c :: b in g.egress && c in g.egress[b] ==>
          InBounds(l, c) && BlockOf(l, c) == b && Open(l, c) && Exits(l, c))
    && (forall c :: InBounds(l, c) && Open(l, c) && Exits(l, c) ==>
          BlockOf(l, c) in g.egress && c in g.egress[BlockOf(l, c)])
    && (forall b :: b in g.egress ==> Ascending(g.egress[b]))
  }

  /** What a search needs of the egress lists: one per block, holding cells of that block. */
  ghost predicate EgressIndexed(g: Grid) {
    && (forall b :: InBlockRange(g.layout, b) ==> b in g.egress)
    && (forall b, c :: b in g.egress && c in g.egress[b] ==> InBounds(g.layout, c) && BlockOf(g.layout, c) == b)
  }

  lemma WiredIndexed(g: Grid)
    requires Wired(g)
    ensures EgressIndexed(g)
  {
  }

  /** The edge lists once every cell before `f` in row-major order has been visited, where `inF` and
      `outF` give the lists recorded for one cell. */
  ghost predicate EdgesBefore(l: Layout, nin: map<Pos, seq<Edge>>, nout: map<Pos, seq<Edge>>, f: Pos,
                              inF: Pos -> seq<Edge>, outF: Pos -> seq<Edge>) {
    && (forall p {:trigger p in nin} :: p in nin <==> InBounds(l, p) && RowMajorLt(p, f))
    && (forall p {:trigger p in nout} :: p in nout <==> InBounds(l, p) && RowMajorLt(p, f))
    && (forall p :: p in nin ==> nin[p] == inF(p) && p in nout && nout[p] == outF(p))
  }

  /** The egress lists once every cell before `f` in row-major order has been visited, for an egress
      test `isEgress`. */
  ghost predicate EgressBefore(l: Layout, egress: map<Pos, seq<Pos>>, f: Pos, isEgress: Pos -> bool) {
    && (forall b {:trigger b in egress} :: b in egress <==> InBlockRange(l, b))
    && (forall b, c {:trigger c in egress[b]} :: b in egress ==>
          (c in egress[b] <==> InBounds(l, c) && RowMajorLt(c, f) && BlockOf(l, c) == b && isEgress(c)))
    && (forall b :: b in egress ==> Ascending(egress[b]))
  }

  /** The cell after `f` in row-major order, wrapping to the next row. */
  function NextCell(l: Layout, f: Pos): Pos {
    if f.col + 1 < l.width then Pos(f.row, f.col + 1) else Pos(f.row + 1, 0)
  }

  /** Two frontiers with the same grid cells before them describe the same construction state. */
  lemma SameFrontier(l: Layout, nin: map<Pos, seq<Edge>>, nout: map<Pos, seq<Edge>>,
                     egress: map<Pos, seq<Pos>>, f: Pos, f': Pos,
                     inF: Pos -> seq<Edge>, outF: Pos -> seq<Edge>, isEgress: Pos -> bool)
    requires forall c :: InBounds(l, c) ==> (RowMajorLt(c, f) <==> RowMajorLt(c, f'))
    requires EdgesBefore(l, nin, nout, f, inF, outF) && EgressBefore(l, egress, f, isEgress)
    ensures EdgesBefore(l, nin, nout, f', inF, outF) && EgressBefore(l, egress, f', isEgress)
  {
  }

  lemma VisitEdges(l: Layout, nin: map<Pos, seq<Edge>>, nout: map<Pos, seq<Edge>>, f: Pos,
                   inF: Pos -> seq<Edge>, outF: Pos -> seq<Edge>)
    requires InBounds(l, f) && EdgesBefore(l, nin, nout, f, inF, outF)
    ensures EdgesBefore(l, nin[f := inF(f)], nout[f := outF(f)], NextCell(l, f), inF, outF)
  {
    assert forall c :: InBounds(l, c) ==> (RowMajorLt(c, NextCell(l, f)) <==> RowMajorLt(c, f) || c == f);
  }

  /** Appending the visited cell keeps a list ascending. */
  lemma AppendAscending(cs: seq<Pos>, f: Pos)
    requires Ascending(cs) && forall c :: c in cs ==> RowMajorLt(c, f)
    ensures Ascending(cs + [f])
  {
    forall i | 0 <= i < |cs|
      ensures RowMajorLt(cs[i], f)
    {
      assert cs[i] in cs;
    }
  }

  /** Appends `p` to the egress list of block `b` when `add` holds (line 106). */
  function Record(egress: map<Pos, seq<Pos>>, b: Pos, p: Pos, add: bool): (r: map<Pos, seq<Pos>>)
    requires b in egress
    ensures r.Keys == egress.Keys
    ensures forall b' :: b' in r && b' != b ==> r[b'] == egress[b']
    ensures r[b] == if add then egress[b] + [p] else egress[b]
  {
    if add then egress[b := egress[b] + [p]] else egress
  }

  lemma VisitEgress(l: Layout, egress: map<Pos, seq<Pos>>, f: Pos, isEgress: Pos -> bool)
    requires InBounds(l, f) && EgressBefore(l, egress, f, isEgress)
    requires InBlockRange(l, BlockOf(l, f))
    ensures EgressBefore(l, Record(egress, BlockOf(l, f), f, isEgress(f)), NextCell(l, f), isEgress)
  {
    var nxt := NextCell(l, f);
    var b := BlockOf(l, f);
    assert forall c :: InBounds(l, c) ==> (RowMajorLt(c, nxt) <==> RowMajorLt(c, f) || c == f);
    if isEgress(f) {
      var es := egress[b] + [f];
      AppendAscending(egress[b], f);
      var egress' := egress[b := es];
      forall b', c | b' in egress'
        ensures c in egress'[b'] <==> InBounds(l, c) && RowMajorLt(c, nxt) && BlockOf(l, c) == b' && isEgress(c)
      {
        if b' == b {
          assert c in es <==> c in egress[b] || c == f;
        }
      }
    }
  }

  /** One empty egress list per block (lines 66-68 and 43). */
  function NoEgress(l: Layout): (m: map<Pos, seq<Pos>>)
    ensures forall b :: b in m <==> InBlockRange(l, b)
    ensures forall b :: b in m ==> m[b] == []
  {
    map r, c | 0 <= r < BlockRows(l) && 0 <= c < BlockCols(l) :: Pos(r, c) := []
  }

  /** Once every cell has been visited, the construction state is a wired grid. */
  lemma BuiltAll(g: Grid, inF: Pos -> seq<Edge>, outF: Pos -> seq<Edge>, isEgress: Pos -> bool)
    requires ValidLayout(g.layout)
    requires forall c :: inF(c) == NeighboursIn(g.layout, c) && outF(c) == NeighboursOut(g.layout, c)
    requires forall c :: isEgress(c) == IsEgressCell(g.layout, c)
    requires EdgesBefore(g.layout, g.nin, g.nout, Pos(g.layout.height, 0), inF, outF)
    requires EgressBefore(g.layout, g.egress, Pos(g.layout.height, 0), isEgress)
    ensures Wired(g)
    ensures forall p :: InBounds(g.layout, p) ==>
              g.nin[p] == NeighboursIn(g.layout, p) && g.nout[p] == NeighboursOut(g.layout, p)
    ensures forall b, c :: b in g.egress ==>
              (c in g.egress[b] <==> InBounds(g.layout, c) && BlockOf(g.layout, c) == b && IsEgressCell(g.layout, c))
  {
    var l := g.layout;
    assert forall c :: InBounds(l, c) ==> RowMajorLt(c, Pos(l.height, 0));
    WiredEdges(g);
    WiredEgress(g);
  }

  /** Visiting cell `(i, j)` (the body of the loops at lines 72-106) advances the frontier by one cell. */
  lemma VisitCell(l: Layout, nin: map<Pos, seq<Edge>>, nout: map<Pos, seq<Edge>>,
                  egress: map<Pos, seq<Pos>>, i: int, j: int,
                  inF: Pos -> seq<Edge>, outF: Pos -> seq<Edge>, isEgress: Pos -> bool)
    requires 0 <= i < l.height && 0 <= j < l.width
    requires EdgesBefore(l, nin, nout, Pos(i, j), inF, outF) && EgressBefore(l, egress, Pos(i, j), isEgress)
    ensures InBlockRange(l, BlockOf(l, Pos(i, j)))
    ensures var p := Pos(i, j);
            && EdgesBefore(l, nin[p := inF(p)], nout[p := outF(p)], Pos(i, j + 1), inF, outF)
            && EgressBefore(l, Record(egress, BlockOf(l, p), p, isEgress(p)), Pos(i, j + 1), isEgress)
  {
    var p := Pos(i, j);
    VisitEdges(l, nin, nout, p, inF, outF);
    BlockInRange(l, p);
    VisitEgress(l, egress, p, isEgress);
    var egress' := Record(egress, BlockOf(l, p), p, isEgress(p));
    SameFrontier(l, nin[p := inF(p)], nout[p := outF(p)], egress', NextCell(l, p), Pos(i, j + 1),
                 inF, outF, isEgress);
  }

  /** The two edge lists of one cell (lines 74-103). */
  method CellLists(l: Layout, p: Pos, ghost inF: Pos -> seq<Edge>, ghost outF: Pos -> seq<Edge>,
                   ghost isEgress: Pos -> bool)
    returns (ins: seq<Edge>, outs: seq<Edge>, isExit: bool)
    requires forall c :: inF(c) == NeighboursIn(l, c) && outF(c) == NeighboursOut(l, c)
    requires forall c :: isEgress(c) == (Open(l, c) && OnPerimeter(l, c) && |outF(c)| > 0)
    ensures ins == inF(p) && outs == outF(p) && isExit == isEgress(p)
  {
    var filed := File(l, p, CellEdges(l, p));
    ins, outs := filed.0, filed.1;
    isExit := Open(l, p) && OnPerimeter(l, p) && |outs| > 0;
  }

  /** The body of the loops at lines 72-106 for cell `(i, j)`: files its edges and, when it is an
      egress cell, appends it to its block's list. */
  method BuildCell(l: Layout, i: int, j: int, nin0: map<Pos, seq<Edge>>, nout0: map<Pos, seq<Edge>>,
                   egress0: map<Pos, seq<Pos>>,
                   ghost inF: Pos -> seq<Edge>, ghost outF: Pos -> seq<Edge>, ghost isEgress: Pos -> bool)
    returns (nin: map<Pos, seq<Edge>>, nout: map<Pos, seq<Edge>>, egress: map<Pos, seq<Pos>>)
    requires 0 <= i < l.height && 0 <= j < l.width
    requires forall c :: inF(c) == NeighboursIn(l, c) && outF(c) == NeighboursOut(l, c)
    requires forall c :: isEgress(c) == (Open(l, c) && OnPerimeter(l, c) && |outF(c)| > 0)
    requires EdgesBefore(l, nin0, nout0, Pos(i, j), inF, outF) && EgressBefore(l, egress0, Pos(i, j), isEgress)
    ensures EdgesBefore(l, nin, nout, Pos(i, j + 1), inF, outF) && EgressBefore(l, egress, Pos(i, j + 1), isEgress)
  {
    var p := Pos(i, j);
    VisitCell(l, nin0, nout0, egress0, i, j, inF, outF, isEgress);
    var ins, outs, isExit := CellLists(l, p, inF, outF, isEgress);
    nin := nin0[p := ins];
    nout := nout0[p := outs];
    egress := Record(egress0, BlockOf(l, p), p, isExit);
  }

  /** One row of the construction loop (lines 73-106 for a fixed `i`). */
  method BuildRow(l: Layout, i: int, nin0: map<Pos, seq<Edge>>, nout0: map<Pos, seq<Edge>>,
                  egress0: map<Pos, seq<Pos>>,
                  ghost inF: Pos -> seq<Edge>, ghost outF: Pos -> seq<Edge>, ghost isEgress: Pos -> bool)
    returns (nin: map<Pos, seq<Edge>>, nout: map<Pos, seq<Edge>>, egress: map<Pos, seq<Pos>>)
    requires 0 <= i < l.height
    requires forall c :: inF(c) == NeighboursIn(l, c) && outF(c) == NeighboursOut(l, c)
    requires forall c :: isEgress(c) == (Open(l, c) && OnPerimeter(l, c) && |outF(c)| > 0)
    requires EdgesBefore(l, nin0, nout0, Pos(i, 0), inF, outF) && EgressBefore(l, egress0, Pos(i, 0), isEgress)
    ensures EdgesBefore(l, nin, nout, Pos(i + 1, 0), inF, outF) && EgressBefore(l, egress, Pos(i + 1, 0), isEgress)
  {
    nin, nout, egress := nin0, nout0, egress0;
    var j := 0;
    while j < l.width
      invariant 0 <= j <= l.width
      invariant EdgesBefore(l, nin, nout, Pos(i, j), inF, outF) && EgressBefore(l, egress, Pos(i, j), isEgress)
    {
      nin, nout, egress := BuildCell(l, i, j, nin, nout, egress, inF, outF, isEgress);
      j := j + 1;
    }
    SameFrontier(l, nin, nout, egress, Pos(i, j), Pos(i + 1, 0), inF, outF, isEgress);
  }

  /** `Grid.__init__` from line 66 on: creates every block, then visits the cells row by row, records
      each cell's in-block and cross-block edges and appends egress cells to their block's list. */
  method Build(l: Layout) returns (g: Grid)
    requires ValidLayout(l)
    ensures g.layout == l
    ensures Wired(g)
    ensures forall p :: InBounds(l, p) ==> g.nin[p] == NeighboursIn(l, p) && g.nout[p] == NeighboursOut(l, p)
    ensures forall b, c :: b in g.egress ==>
              (c in g.egress[b] <==> InBounds(l, c) && BlockOf(l, c) == b && IsEgressCell(l, c))
  {
    ghost var inF := c => NeighboursIn(l, c);
    ghost var outF := c => NeighboursOut(l, c);
    ghost var isEgress := c => IsEgressCell(l, c);
    var egress := NoEgress(l);
    var nin: map<Pos, seq<Edge>> := map[];
    var nout: map<Pos, seq<Edge>> := map[];
    var i := 0;
    while i < l.height
      invariant 0 <= i <= l.height
      invariant EdgesBefore(l, nin, nout, Pos(i, 0), inF, outF) && EgressBefore(l, egress, Pos(i, 0), isEgress)
    {
      nin, nout, egress := BuildRow(l, i, nin, nout, egress, inF, outF, isEgress);
      i := i + 1;
    }
    g := Grid(l, nin, nout, egress);
    BuiltAll(g, inF, outF, isEgress);
  }

  /** Edge lists built by the construction functions hold exactly the moves of each kind. */
  lemma WiredEdges(g: Grid)
    requires forall p :: p in g.nin <==> InBounds(g.layout, p)
    requires forall p :: p in g.nout <==> InBounds(g.layout, p)
    requires forall p :: p in g.nin ==> g.nin[p] == NeighboursIn(g.layout, p) && g.nout[p] == NeighboursOut(g.layout, p)
    ensures EdgesWired(g)
  {
    var l := g.layout;
    forall p, e | p in g.nin && e in g.nin[p]
      ensures IsMove(l, p, e.to) && SameBlock(l, p, e.to) && e.weight == Octile(p, e.to)
    {
      CellEdgesExact(l, p, e);
    }
    forall p, e | p in g.nout && e in g.nout[p]
      ensures IsMove(l, p, e.to) && !SameBlock(l, p, e.to) && e.weight == Octile(p, e.to)
    {
      CellEdgesExact(l, p, e);
    }
    forall p, q | IsMove(l, p, q)
      ensures SameBlock(l, p, q) ==> p in g.nin && Edge(q, Octile(p, q)) in g.nin[p]
      ensures !SameBlock(l, p, q) ==> p in g.nout && Edge(q, Octile(p, q)) in g.nout[p]
    {
      CellEdgesExact(l, p, Edge(q, Octile(p, q)));
    }
  }

  /** Egress lists filled with the test of line 105 hold exactly the walkable cells with a move out. */
  lemma WiredEgress(g: Grid)
    requires forall b :: b in g.egress <==> InBlockRange(g.layout, b)
    requires forall b, c :: b in g.egress ==>
               (c in g.egress[b] <==> InBounds(g.layout, c) && BlockOf(g.layout, c) == b && IsEgressCell(g.layout, c))
    requires forall b :: b in g.egress ==> Ascending(g.egress[b])
    ensures EgressWired(g)
  {
    var l := g.layout;
    forall b, c | b in g.egress && c in g.egress[b]
      ensures InBounds(l, c) && BlockOf(l, c) == b && Open(l, c) && Exits(l, c)
    {
      EgressExact(l, c);
    }
    forall c | InBounds(l, c) && Open(l, c) && Exits(l, c)
      ensures BlockOf(l, c) in g.egress && c in g.egress[BlockOf(l, c)]
    {
      EgressExact(l, c);
      BlockInRange(l, c);
    }
  }
}

=== FILE: lddb.dfy ===
/** Block-restricted Dijkstra (lines 118-130) and the local distance database (lines 133-139). */
module Lddb {
  import opened Geometry
  import opened Costs
  import opened Grids
  import opened Walks
  import opened Queues

  /** The walks behind the finite entries of a distance table from `s`: one in-block walk per entry,
      of exactly the entry's length. */
  ghost predicate Tracks(l: Layout, dist: map<Pos, real>, walks: map<Pos, seq<Pos>>, s: Pos) {
    && (forall v :: v in dist ==> v in walks)
    && (forall v :: v in dist ==> IsLocalWalk(l, walks[v], s, v) && Length(walks[v]) == dist[v])
  }

  /** A sound distance table from `s`: `s` is at 0, and every entry is the length of some walk from
      `s` that stays in the block of `s`. Cells without an entry are at infinity. */
  ghost predicate LocalTable(l: Layout, dist: map<Pos, real>, s: Pos) {
    && s in dist && dist[s] == 0.0
    && forall v :: v in dist ==> exists w :: IsLocalWalk(l, w, s, v) && Length(w) == dist[v]
  }

  /** A walk behind an entry of a sound table. */
  ghost function LocalWitness(l: Layout, dist: map<Pos, real>, s: Pos, v: Pos): (w: seq<Pos>)
    requires LocalTable(l, dist, s) && v in dist
    ensures IsLocalWalk(l, w, s, v) && Length(w) == dist[v]
  {
    var w :| IsLocalWalk(l, w, s, v) && Length(w) == dist[v]; w
  }

  /** No in-block edge out of `u` can lower the table. */
  ghost predicate RelaxedAt(g: Grid, dist: map<Pos, real>, u: Pos) {
    forall e :: u in dist && u in g.nin && e in g.nin[u] ==> e.to in dist && dist[e.to] <= dist[u] + e.weight
  }

  /** The table is a fixpoint of relaxation. */
  ghost predicate Relaxed(g: Grid, dist: map<Pos, real>) {
    forall u :: u in dist ==> RelaxedAt(g, dist, u)
  }

  /** The table holds exactly the shortest in-block walk lengths from `s`. */
  ghost predicate ShortestTable(l: Layout, dist: map<Pos, real>, s: Pos) {
    && LocalTable(l, dist, s)
    && forall v, w :: IsLocalWalk(l, w, s, v) ==> v in dist && dist[v] <= Length(w)
  }

  /** The queue invariants of the Dijkstra loop: every entry names a cell with an entry no larger
      than its key. */
  ghost predicate QueueSound(dist: map<Pos, real>, pq: seq<Entry>) {
    forall x :: x in pq ==> x.at in dist && dist[x.at] <= x.key
  }

  /** Whether `d` is what a relaxation along one of the first `i` edges of `edges` writes at `v`: that
      edge leads to `v`, and `d` is `base` plus its weight. */
  ghost predicate SetByEdge(edges: seq<Edge>, i: nat, base: Cost, v: Pos, d: Cost) {
    exists k :: 0 <= k < i && k < |edges| && edges[k].to == v && d == Add(base, Fin(edges[k].weight))
  }

  /** What the relaxation needs of a cell's `neighboursin` list: each entry is a weighted move that
      stays in the block (a consequence of `Wired`). */
  ghost predicate InBlockEdges(g: Grid, u: Pos) {
    u in g.nin && forall e :: e in g.nin[u] ==>
      IsMove(g.layout, u, e.to) && SameBlock(g.layout, u, e.to) && e.weight == Octile(u, e.to)
  }

  /** Every entry that is new or changed since `dist0` has been pushed with its current value. */
  ghost predicate Queued(dist0: map<Pos, real>, dist: map<Pos, real>, pq: seq<Entry>) {
    forall v :: v in dist && (v !in dist0 || dist[v] != dist0[v]) ==> Entry(dist[v], v) in pq
  }

  /** One step of lines 127-129: the edge `e` out of `u` lowers `dist[e.to]` to `dist[u] + e.weight`
      when that is smaller (a missing entry counts as infinity), pushing the new entry. */
  method RelaxEdge(l: Layout, s: Pos, u: Pos, e: Edge, dist0: map<Pos, real>, pq0: seq<Entry>,
                   ghost walks0: map<Pos, seq<Pos>>)
    returns (dist: map<Pos, real>, pq: seq<Entry>, ghost walks: map<Pos, seq<Pos>>)
    requires IsMove(l, u, e.to) && SameBlock(l, u, e.to) && e.weight == Octile(u, e.to)
    requires u in dist0 && Tracks(l, dist0, walks0, s) && QueueSound(dist0, pq0)
    ensures e.to in dist && dist[e.to] <= dist0[u] + e.weight
    ensures Tracks(l, dist, walks, s) && QueueSound(dist, pq)
    ensures forall v :: v in dist0 ==> v in dist && dist[v] <= dist0[v]
    ensures u in dist && dist[u] == dist0[u]
    ensures forall x :: x in pq0 ==> x in pq
    ensures Queued(dist0, dist, pq)
    ensures var d := dist0[u] + e.weight;
      if Lt(Fin(d), Get(dist0, e.to)) then dist == dist0[e.to := d] && pq == pq0 + [Entry(d, e.to)]
      else dist == dist0 && pq == pq0
  {
    var v, d := e.to, dist0[u] + e.weight;
    if Lt(Fin(d), Get(dist0, v)) {
      ExtendLocal(l, walks0[u], s, u, v);
      walks := walks0[v := walks0[u] + [v]];
      dist := dist0[v := d];
      pq := pq0 + [Entry(d, v)];
      Lower(l, s, u, v, d, dist0, pq0, walks0, dist, pq, walks);
    } else {
      dist, pq, walks := dist0, pq0, walks0;
    }
  }

  /** Lowering the entry of `v` to the length `d` of a new walk keeps the table tracked and the queue
      sound, and the changed entry is on the queue; the entry of any other cell `u` stays. */
  lemma Lower(l: Layout, s: Pos, u: Pos, v: Pos, d: real, dist0: map<Pos, real>, pq0: seq<Entry>,
              walks0: map<Pos, seq<Pos>>, dist: map<Pos, real>, pq: seq<Entry>, walks: map<Pos, seq<Pos>>)
    requires u in dist0 && u != v
    requires Tracks(l, dist0, walks0, s) && QueueSound(dist0, pq0)
    requires v in walks && IsLocalWalk(l, walks[v], s, v) && Length(walks[v]) == d
    requires v !in dist0 || d < dist0[v]
    requires dist == dist0[v := d] && pq == pq0 + [Entry(d, v)] && walks == walks0[v := walks[v]]
    ensures Tracks(l, dist, walks, s) && QueueSound(dist, pq)
    ensures forall x :: x in dist0 ==> x in dist && dist[x] <= dist0[x]
    ensures u in dist && dist[u] == dist0[u]
    ensures forall x :: x in pq0 ==> x in pq
    ensures Queued(dist0, dist, pq)
  {
    LowerTracks(l, s, v, d, walks[v], dist0, walks0);
    LowerQueue(v, d, dist0, pq0);
  }

  lemma LowerTracks(l: Layout, s: Pos, v: Pos, d: real, walk: seq<Pos>, dist0: map<Pos, real>,
                    walks0: map<Pos, seq<Pos>>)
    requires Tracks(l, dist0, walks0, s)
    requires IsLocalWalk(l, walk, s, v) && Length(walk) == d
    ensures Tracks(l, dist0[v := d], walks0[v := walk], s)
  {
  }

  lemma LowerQueue(v: Pos, d: real, dist0: map<Pos, real>, pq0: seq<Entry>)
    requires QueueSound(dist0, pq0)
    requires v !in dist0 || d < dist0[v]
    ensures QueueSound(dist0[v := d], pq0 + [Entry(d, v)])
    ensures forall x :: x in dist0 ==> x in dist0[v := d] && dist0[v := d][x] <= dist0[x]
    ensures Queued(dist0, dist0[v := d], pq0 + [Entry(d, v)])
  {
    var dist, pq := dist0[v := d], pq0 + [Entry(d, v)];
    forall x | x in dist && (x !in dist0 || dist[x] != dist0[x])
      ensures Entry(dist[x], x) in pq
    {
      assert x == v;
      assert pq[|pq0|] == Entry(d, v);
    }
  }


  /** The table and queue half of the invariant of the loop of lines 127-129: the table is tracked
      and never raised, `u`'s own entry stays, and every change is queued. */
  ghost predicate RelaxCore(l: Layout, s: Pos, u: Pos, dist0: map<Pos, real>, pq0: seq<Entry>,
                            dist: map<Pos, real>, pq: seq<Entry>, walks: map<Pos, seq<Pos>>)
  {
    && u in dist0 && u in dist && dist[u] == dist0[u]
    && Tracks(l, dist, walks, s) && QueueSound(dist, pq)
    && (forall v :: v in dist0 ==> v in dist && dist[v] <= dist0[v])
    && (forall x :: x in pq0 ==> x in pq)
    && Queued(dist0, dist, pq)
  }

  /** The edge half of that invariant after the first `i` edges out of `u`: those edges are relaxed,
      and every entry that differs from `dist0` holds `dist0[u]` plus the weight of one of them that
      leads to it. */
  ghost predicate RelaxFramed(u: Pos, edges: seq<Edge>, i: nat, dist0: map<Pos, real>, dist: map<Pos, real>)
    requires u in dist0
  {
    && i <= |edges|
    && (forall k :: 0 <= k < i ==> edges[k].to in dist && dist[edges[k].to] <= dist0[u] + edges[k].weight)
    && (forall v :: Get(dist, v) != Get(dist0, v) ==> SetByEdge(edges, i, Fin(dist0[u]), v, Get(dist, v)))
  }

  /** The queue half of that invariant: `pq0` is still the front of the queue, everything behind it
      was pushed for a changed entry with the value one of the first `i` edges wrote, and every
      changed entry is behind it with its current value. */
  ghost predicate RelaxQueued(u: Pos, edges: seq<Edge>, i: nat, dist0: map<Pos, real>, pq0: seq<Entry>,
                              dist: map<Pos, real>, pq: seq<Entry>)
    requires u in dist0
  {
    && |pq0| <= |pq| && pq[..|pq0|] == pq0
    && (forall j :: |pq0| <= j < |pq| ==>
          Get(dist, pq[j].at) != Get(dist0, pq[j].at) && SetByEdge(edges, i, Fin(dist0[u]), pq[j].at, Fin(pq[j].key)))
    && (forall v :: v in dist && Get(dist, v) != Get(dist0, v) ==> Entry(dist[v], v) in pq[|pq0|..])
  }

  /** Before the loop of lines 127-129 nothing has changed, so its invariant holds at edge 0. */
  lemma RelaxInit(l: Layout, s: Pos, u: Pos, edges: seq<Edge>, dist0: map<Pos, real>, pq0: seq<Entry>,
                  walks0: map<Pos, seq<Pos>>)
    requires u in dist0 && Tracks(l, dist0, walks0, s) && QueueSound(dist0, pq0)
    ensures RelaxCore(l, s, u, dist0, pq0, dist0, pq0, walks0)
    ensures RelaxFramed(u, edges, 0, dist0, dist0)
    ensures RelaxQueued(u, edges, 0, dist0, pq0, dist0, pq0)
  {
  }

  /** One turn of the loop of lines 127-129: relaxing edge `i` keeps both halves of the invariant. */
  method RelaxStep(l: Layout, s: Pos, u: Pos, edges: seq<Edge>, i: nat, ghost dist0: map<Pos, real>,
                   ghost pq0: seq<Entry>, dist1: map<Pos, real>, pq1: seq<Entry>, ghost walks1: map<Pos, seq<Pos>>)
    returns (dist: map<Pos, real>, pq: seq<Entry>, ghost walks: map<Pos, seq<Pos>>)
    requires i < |edges|
    requires IsMove(l, u, edges[i].to) && SameBlock(l, u, edges[i].to) && edges[i].weight == Octile(u, edges[i].to)
    requires RelaxCore(l, s, u, dist0, pq0, dist1, pq1, walks1)
    requires RelaxFramed(u, edges, i, dist0, dist1)
    requires RelaxQueued(u, edges, i, dist0, pq0, dist1, pq1)
    ensures RelaxCore(l, s, u, dist0, pq0, dist, pq, walks)
    ensures RelaxFramed(u, edges, i + 1, dist0, dist)
    ensures RelaxQueued(u, edges, i + 1, dist0, pq0, dist, pq)
  {
    dist, pq, walks := RelaxEdge(l, s, u, edges[i], dist1, pq1, walks1);
    CoreStep(l, s, u, dist0, pq0, dist1, pq1, walks1, dist, pq, walks);
    FramedStep(u, edges, i, dist0, dist1, dist);
    if Lt(Fin(dist1[u] + edges[i].weight), Get(dist1, edges[i].to)) {
      QueuedAdd(u, edges, i, dist0, pq0, dist1, pq1, dist, pq);
    } else {
      QueuedKeep(u, edges, i, dist0, pq0, dist1, pq1);
    }
  }

  /** The queue half of the invariant moves from `i` to `i + 1` when edge `i` lowers its target: the
      one entry pushed records the new value. */
  lemma QueuedAdd(u: Pos, edges: seq<Edge>, i: nat, dist0: map<Pos, real>, pq0: seq<Entry>,
                  dist1: map<Pos, real>, pq1: seq<Entry>, dist: map<Pos, real>, pq: seq<Entry>)
    requires i < |edges| && u in dist0 && u in dist1 && dist1[u] == dist0[u]
    requires RelaxQueued(u, edges, i, dist0, pq0, dist1, pq1)
    requires forall v :: v in dist0 ==> v in dist1 && dist1[v] <= dist0[v]
    requires Lt(Fin(dist1[u] + edges[i].weight), Get(dist1, edges[i].to))
    requires dist == dist1[edges[i].to := dist1[u] + edges[i].weight]
    requires pq == pq1 + [Entry(dist1[u] + edges[i].weight, edges[i].to)]
    ensures RelaxQueued(u, edges, i + 1, dist0, pq0, dist, pq)
  {
    var t, d := edges[i].to, dist1[u] + edges[i].weight;
    var base := Fin(dist0[u]);
    assert Le(Get(dist1, t), Get(dist0, t));
    assert Get(dist, t) == Fin(d) && Get(dist, t) != Get(dist0, t);
    assert pq[..|pq0|] == pq1[..|pq0|];
    forall j | |pq0| <= j < |pq|
      ensures Get(dist, pq[j].at) != Get(dist0, pq[j].at) && SetByEdge(edges, i + 1, base, pq[j].at, Fin(pq[j].key))
    {
      if j < |pq1| {
        assert pq[j] == pq1[j];
        var k :| 0 <= k < i && k < |edges| && edges[k].to == pq1[j].at && Fin(pq1[j].key) == Add(base, Fin(edges[k].weight));
        if pq[j].at != t {
          assert Get(dist, pq[j].at) == Get(dist1, pq[j].at);
        }
      } else {
        assert pq[j] == Entry(d, t) && Fin(d) == Add(base, Fin(edges[i].weight));
      }
    }
    forall v | v in dist && Get(dist, v) != Get(dist0, v)
      ensures Entry(dist[v], v) in pq[|pq0|..]
    {
      assert pq[|pq0|..] == pq1[|pq0|..] + [Entry(d, t)];
      if v != t {
        assert Get(dist, v) == Get(dist1, v);
        assert Entry(dist1[v], v) in pq1[|pq0|..];
      }
    }
  }

  /** The queue half of the invariant moves from `i` to `i + 1` when edge `i` changes nothing. */
  lemma QueuedKeep(u: Pos, edges: seq<Edge>, i: nat, dist0: map<Pos, real>, pq0: seq<Entry>,
                   dist: map<Pos, real>, pq: seq<Entry>)
    requires i < |edges| && u in dist0
    requires RelaxQueued(u, edges, i, dist0, pq0, dist, pq)
    ensures RelaxQueued(u, edges, i + 1, dist0, pq0, dist, pq)
  {
    forall j | |pq0| <= j < |pq|
      ensures SetByEdge(edges, i + 1, Fin(dist0[u]), pq[j].at, Fin(pq[j].key))
    {
      var k :| 0 <= k < i && k < |edges| && edges[k].to == pq[j].at && Fin(pq[j].key) == Add(Fin(dist0[u]), Fin(edges[k].weight));
    }
  }

  /** The table and queue half of the invariant survives a step that keeps its own such facts
      relative to the table before it. */
  lemma CoreStep(l: Layout, s: Pos, u: Pos, dist0: map<Pos, real>, pq0: seq<Entry>, dist1: map<Pos, real>,
                 pq1: seq<Entry>, walks1: map<Pos, seq<Pos>>, dist: map<Pos, real>, pq: seq<Entry>,
                 walks: map<Pos, seq<Pos>>)
    requires RelaxCore(l, s, u, dist0, pq0, dist1, pq1, walks1)
    requires Tracks(l, dist, walks, s) && QueueSound(dist, pq)
    requires forall v :: v in dist1 ==> v in dist && dist[v] <= dist1[v]
    requires u in dist && dist[u] == dist1[u]
    requires forall x :: x in pq1 ==> x in pq
    requires Queued(dist1, dist, pq)
    ensures RelaxCore(l, s, u, dist0, pq0, dist, pq, walks)
  {
    QueuedStep(dist0, pq0, dist1, pq1, dist, pq);
  }

  /** The edge half of the invariant moves from `i` to `i + 1` when edge `i` is relaxed by a step
      that writes at most the entry of its target and raises none. */
  lemma FramedStep(u: Pos, edges: seq<Edge>, i: nat, dist0: map<Pos, real>, dist1: map<Pos, real>,
                   dist: map<Pos, real>)
    requires i < |edges| && u in dist0 && u in dist1 && dist1[u] == dist0[u]
    requires RelaxFramed(u, edges, i, dist0, dist1)
    requires forall v :: v in dist1 ==> v in dist && dist[v] <= dist1[v]
    requires edges[i].to in dist && dist[edges[i].to] <= dist1[u] + edges[i].weight
    requires dist == dist1 || dist == dist1[edges[i].to := dist1[u] + edges[i].weight]
    ensures RelaxFramed(u, edges, i + 1, dist0, dist)
  {
    RelaxFrame(edges, i, dist0[u], dist0, dist1, dist);
    RelaxPrefix(u, edges, i, dist0, dist1, dist);
  }

  /** Changes queued before the step and changes queued by it are all on the final queue, and an
      entry lowered twice is still no higher than at the start. */
  lemma QueuedStep(dist0: map<Pos, real>, pq0: seq<Entry>, dist1: map<Pos, real>, pq1: seq<Entry>,
                   dist: map<Pos, real>, pq: seq<Entry>)
    requires Queued(dist0, dist1, pq1) && Queued(dist1, dist, pq)
    requires (forall x :: x in pq0 ==> x in pq1) && (forall x :: x in pq1 ==> x in pq)
    requires forall v :: v in dist0 ==> v in dist1 && dist1[v] <= dist0[v]
    requires forall v :: v in dist1 ==> v in dist && dist[v] <= dist1[v]
    ensures Queued(dist0, dist, pq) && forall x :: x in pq0 ==> x in pq
    ensures forall v :: v in dist0 ==> v in dist && dist[v] <= dist0[v]
  {
    forall v | v in dist && (v !in dist0 || dist[v] != dist0[v])
      ensures Entry(dist[v], v) in pq
    {
      if v in dist1 && dist[v] == dist1[v] {
        assert Entry(dist1[v], v) in pq1;
      }
    }
  }

  /** The edges relaxed before the step stay relaxed, since entries only go down, and edge `i` is
      relaxed by it. */
  lemma RelaxPrefix(u: Pos, edges: seq<Edge>, i: nat, dist0: map<Pos, real>, dist1: map<Pos, real>,
                    dist: map<Pos, real>)
    requires i < |edges|
    requires u in dist0 && u in dist1 && dist1[u] == dist0[u]
    requires forall k :: 0 <= k < i ==> edges[k].to in dist1 && dist1[edges[k].to] <= dist0[u] + edges[k].weight
    requires forall v :: v in dist1 ==> v in dist && dist[v] <= dist1[v]
    requires edges[i].to in dist && dist[edges[i].to] <= dist1[u] + edges[i].weight
    ensures forall k :: 0 <= k <= i ==> edges[k].to in dist && dist[edges[k].to] <= dist0[u] + edges[k].weight
  {
    forall k | 0 <= k <= i
      ensures edges[k].to in dist && dist[edges[k].to] <= dist0[u] + edges[k].weight
    {
      if k < i {
        assert edges[k].to in dist1 && dist1[edges[k].to] <= dist0[u] + edges[k].weight;
      }
    }
  }

  /** Lines 126-129 for the popped cell `u`: every in-block edge out of `u` is relaxed in turn. */
  method RelaxFrom(g: Grid, s: Pos, u: Pos, dist0: map<Pos, real>, pq0: seq<Entry>,
                   ghost walks0: map<Pos, seq<Pos>>)
    returns (dist: map<Pos, real>, pq: seq<Entry>, ghost walks: map<Pos, seq<Pos>>)
    requires InBlockEdges(g, u)
    requires u in dist0 && Tracks(g.layout, dist0, walks0, s) && QueueSound(dist0, pq0)
    ensures RelaxedAt(g, dist, u)
    ensures Tracks(g.layout, dist, walks, s) && QueueSound(dist, pq)
    ensures forall v :: v in dist0 ==> v in dist && dist[v] <= dist0[v]
    ensures u in dist && dist[u] == dist0[u]
    ensures forall x :: x in pq0 ==> x in pq
    ensures forall v :: v in dist && (v !in dist0 || dist[v] != dist0[v]) ==> Entry(dist[v], v) in pq
    ensures forall v :: (forall e :: e in g.nin[u] ==> e.to != v) ==> Get(dist, v) == Get(dist0, v)
    ensures forall v :: v in dist && (v !in dist0 || dist[v] != dist0[v]) ==>
      exists e :: e in g.nin[u] && e.to == v && dist[v] == dist0[u] + e.weight
    ensures |pq0| <= |pq| && pq[..|pq0|] == pq0
    ensures forall x :: x in pq[|pq0|..] ==>
      && x.at in dist && (x.at !in dist0 || dist[x.at] != dist0[x.at])
      && exists e :: e in g.nin[u] && e.to == x.at && x.key == dist0[u] + e.weight
    ensures forall v :: v in dist && (v !in dist0 || dist[v] != dist0[v]) ==> Entry(dist[v], v) in pq[|pq0|..]
  {
    var edges := g.nin[u];
    dist, pq, walks := RelaxEdges(g, s, u, dist0, pq0, walks0);
    RelaxedAll(g, u, edges, dist0, dist);
    QueuedAll(g, u, edges, dist0, pq0, dist, pq);
  }

  /** The loop of lines 127-129, leaving its invariant for all of `neighboursin` of `u`. */
  method RelaxEdges(g: Grid, s: Pos, u: Pos, dist0: map<Pos, real>, pq0: seq<Entry>,
                    ghost walks0: map<Pos, seq<Pos>>)
    returns (dist: map<Pos, real>, pq: seq<Entry>, ghost walks: map<Pos, seq<Pos>>)
    requires InBlockEdges(g, u)
    requires u in dist0 && Tracks(g.layout, dist0, walks0, s) && QueueSound(dist0, pq0)
    ensures RelaxCore(g.layout, s, u, dist0, pq0, dist, pq, walks)
    ensures RelaxFramed(u, g.nin[u], |g.nin[u]|, dist0, dist)
    ensures RelaxQueued(u, g.nin[u], |g.nin[u]|, dist0, pq0, dist, pq)
  {
    var l := g.layout;
    dist, pq, walks := dist0, pq0, walks0;
    var edges := g.nin[u];
    var i := 0;
    RelaxInit(l, s, u, edges, dist0, pq0, walks0);
    while i < |edges|
      invariant RelaxCore(l, s, u, dist0, pq0, dist, pq, walks)
      invariant RelaxFramed(u, edges, i, dist0, dist)
      invariant RelaxQueued(u, edges, i, dist0, pq0, dist, pq)
    {
      assert edges[i] in g.nin[u];
      dist, pq, walks := RelaxStep(l, s, u, edges, i, dist0, pq0, dist, pq, walks);
      i := i + 1;
    }
  }

  /** After the whole loop, `u` is relaxed, and an entry changed only as the target of one of its
      edges, to `dist0[u]` plus that edge's weight. */
  lemma RelaxedAll(g: Grid, u: Pos, edges: seq<Edge>, dist0: map<Pos, real>, dist: map<Pos, real>)
    requires u in g.nin && edges == g.nin[u]
    requires u in dist0 && u in dist && dist[u] == dist0[u]
    requires forall k :: 0 <= k < |edges| ==> edges[k].to in dist && dist[edges[k].to] <= dist0[u] + edges[k].weight
    requires forall v :: Get(dist, v) != Get(dist0, v) ==> SetByEdge(edges, |edges|, Fin(dist0[u]), v, Get(dist, v))
    ensures RelaxedAt(g, dist, u)
    ensures forall v :: (forall e :: e in g.nin[u] ==> e.to != v) ==> Get(dist, v) == Get(dist0, v)
    ensures forall v :: v in dist && (v !in dist0 || dist[v] != dist0[v]) ==>
      exists e :: e in g.nin[u] && e.to == v && dist[v] == dist0[u] + e.weight
  {
    assert forall e :: e in g.nin[u] ==> exists k :: 0 <= k < |edges| && edges[k] == e;
    forall v | Get(dist, v) != Get(dist0, v)
      ensures exists e :: e in g.nin[u] && e.to == v
    {
      var k :| 0 <= k < |edges| && edges[k].to == v && Get(dist, v) == Add(Fin(dist0[u]), Fin(edges[k].weight));
      assert edges[k] in g.nin[u];
    }
    forall v | v in dist && (v !in dist0 || dist[v] != dist0[v])
      ensures exists e :: e in g.nin[u] && e.to == v && dist[v] == dist0[u] + e.weight
    {
      assert Get(dist, v) != Get(dist0, v);
      var k :| 0 <= k < |edges| && edges[k].to == v && Get(dist, v) == Add(Fin(dist0[u]), Fin(edges[k].weight));
      assert edges[k] in g.nin[u];
    }
  }

  /** After the whole loop, the queue is `pq0` followed by entries for changed entries only, each
      with the value one of `u`'s edges wrote, and every changed entry is among them. */
  lemma QueuedAll(g: Grid, u: Pos, edges: seq<Edge>, dist0: map<Pos, real>, pq0: seq<Entry>,
                  dist: map<Pos, real>, pq: seq<Entry>)
    requires u in g.nin && edges == g.nin[u] && u in dist0
    requires forall v :: v in dist0 ==> v in dist
    requires RelaxQueued(u, edges, |edges|, dist0, pq0, dist, pq)
    ensures forall x :: x in pq[|pq0|..] ==>
      && x.at in dist && (x.at !in dist0 || dist[x.at] != dist0[x.at])
      && exists e :: e in g.nin[u] && e.to == x.at && x.key == dist0[u] + e.weight
  {
    forall x | x in pq[|pq0|..]
      ensures x.at in dist && (x.at !in dist0 || dist[x.at] != dist0[x.at])
      ensures exists e :: e in g.nin[u] && e.to == x.at && x.key == dist0[u] + e.weight
    {
      var j :| 0 <= j < |pq[|pq0|..]| && pq[|pq0|..][j] == x;
      assert pq[|pq0| + j] == x;
      var k :| 0 <= k < |edges| && edges[k].to == x.at && Fin(x.key) == Add(Fin(dist0[u]), Fin(edges[k].weight));
      assert edges[k] in g.nin[u];
    }
  }

  /** Relaxing edge `i` writes at most the entry of its target, and there writes `base` plus the
      edge's weight, so every entry that differs from `dist0` still holds what one of the edges
      relaxed so far wrote. */
  lemma RelaxFrame(edges: seq<Edge>, i: nat, base: real, dist0: map<Pos, real>, dist1: map<Pos, real>,
                   dist: map<Pos, real>)
    requires i < |edges|
    requires forall v :: Get(dist1, v) != Get(dist0, v) ==> SetByEdge(edges, i, Fin(base), v, Get(dist1, v))
    requires dist == dist1 || dist == dist1[edges[i].to := base + edges[i].weight]
    ensures forall v :: Get(dist, v) != Get(dist0, v) ==> SetByEdge(edges, i + 1, Fin(base), v, Get(dist, v))
  {
    forall v | Get(dist, v) != Get(dist0, v)
      ensures SetByEdge(edges, i + 1, Fin(base), v, Get(dist, v))
    {
      if dist != dist1 && v == edges[i].to {
        assert Get(dist, v) == Add(Fin(base), Fin(edges[i].weight));
      } else {
        assert Get(dist, v) == Get(dist1, v);
        var k :| 0 <= k < i && k < |edges| && edges[k].to == v && Get(dist1, v) == Add(Fin(base), Fin(edges[k].weight));
      }
    }
  }

  /** `dijkstra(startCell)`: shortest distances from `s` along `neighboursin` edges. The loop runs at
      most `fuel` pops; `settled` reports that the queue was drained. */
  method Dijkstra(g: Grid, s: Pos, fuel: nat) returns (dist: map<Pos, real>, settled: bool)
    requires Wired(g) && InBounds(g.layout, s)
    ensures LocalTable(g.layout, dist, s)
    ensures forall v :: v in dist ==> InBounds(g.layout, v) && SameBlock(g.layout, s, v)
    ensures settled ==> Relaxed(g, dist)
  {
    var l := g.layout;
    dist := map[s := 0.0];
    ghost var walks: map<Pos, seq<Pos>> := map[s := [s]];
    var pq := [Entry(0.0, s)];
    var steps := fuel;
    while |pq| > 0 && steps > 0
      invariant s in dist && dist[s] == 0.0
      invariant Tracks(l, dist, walks, s) && QueueSound(dist, pq)
      invariant forall u :: u in dist ==> RelaxedAt(g, dist, u) || Entry(dist[u], u) in pq
      decreases steps
    {
      var e, rest := PopMin(pq);
      pq := rest;
      steps := steps - 1;
      var u := e.at;
      if e.key > dist[u] {
        continue;
      }
      ghost var before := dist;
      WalkEndInBounds(l, walks[u], s, u);
      dist, pq, walks := RelaxFrom(g, s, u, dist, pq, walks);
      forall x | x in dist
        ensures RelaxedAt(g, dist, x) || Entry(dist[x], x) in pq
      {
        if x != u && x in before && dist[x] == before[x] && RelaxedAt(g, before, x) {
          assert RelaxedAt(g, dist, x);
        }
      }
    }
    settled := |pq| == 0;
    forall v | v in dist
      ensures InBounds(l, v) && SameBlock(l, s, v)
    {
      WalkEndInBounds(l, walks[v], s, v);
      assert BlockOf(l, walks[v][|walks[v]| - 1]) == BlockOf(l, s);
    }
  }

  /** Every in-block move is on its source's `neighboursin` list (part of `Wired`). */
  ghost predicate InBlockMovesListed(g: Grid) {
    forall p, q :: IsMove(g.layout, p, q) && SameBlock(g.layout, p, q) ==>
      p in g.nin && Edge(q, Octile(p, q)) in g.nin[p]
  }

  /** At a relaxation fixpoint no in-block walk from `s` is shorter than the table says. */
  lemma {:induction false} FixpointBelowWalks(g: Grid, dist: map<Pos, real>, s: Pos, w: seq<Pos>, v: Pos)
    requires InBlockMovesListed(g)
    requires s in dist && dist[s] == 0.0 && Relaxed(g, dist)
    requires IsLocalWalk(g.layout, w, s, v)
    ensures v in dist && dist[v] <= Length(w)
    decreases |w|
  {
    var l := g.layout;
    if |w| > 1 {
      var w' := w[..|w| - 1];
      var d := w[|w| - 2];
      assert IsLocalWalk(l, w', s, d);
      FixpointBelowWalks(g, dist, s, w', d);
      assert IsMove(l, d, v) && SameBlock(l, d, v);
      assert Edge(v, Octile(d, v)) in g.nin[d];
      assert RelaxedAt(g, dist, d);
    }
  }

  /** A drained Dijkstra run leaves the shortest in-block distances: every entry is a walk length
      and no in-block walk is shorter. */
  lemma SettledIsShortest(g: Grid, dist: map<Pos, real>, s: Pos)
    requires Wired(g) && LocalTable(g.layout, dist, s) && Relaxed(g, dist)
    ensures ShortestTable(g.layout, dist, s)
  {
    assert InBlockMovesListed(g);
    forall v, w | IsLocalWalk(g.layout, w, s, v)
      ensures v in dist && dist[v] <= Length(w)
    {
      FixpointBelowWalks(g, dist, s, w, v);
    }
  }

  /** Shortest in-block distances are symmetric, a missing entry on one side matching a missing
      entry on the other. Lines 168 and 172 read `dist[goal][y]` and `dist[xin][y]` for the way from
      `y`, which this justifies. */
  lemma ShortestSymmetric(l: Layout, da: map<Pos, real>, db: map<Pos, real>, a: Pos, b: Pos)
    requires ShortestTable(l, da, a) && ShortestTable(l, db, b)
    ensures Get(da, b) == Get(db, a)
  {
    if b in da {
      var w :| IsLocalWalk(l, w, a, b) && Length(w) == da[b];
      ReverseLocalWalk(l, w, a, b);
      assert IsLocalWalk(l, Reverse(w), b, a);
    }
    if a in db {
      var w :| IsLocalWalk(l, w, b, a) && Length(w) == db[a];
      ReverseLocalWalk(l, w, b, a);
      assert IsLocalWalk(l, Reverse(w), a, b);
    }
  }

  /** The LDDB: one sound distance table per cell of the grid. */
  ghost predicate Table(g: Grid, db: map<Pos, map<Pos, real>>) {
    && (forall c {:trigger c in db} :: c in db <==> InBounds(g.layout, c))
    && (forall c :: c in db ==> LocalTable(g.layout, db[c], c))
  }

  /** The LDDB rows before row `i`, with the tables complete when `complete` holds. */
  ghost predicate TableBefore(g: Grid, db: map<Pos, map<Pos, real>>, i: int, j: int, complete: bool) {
    && (forall c :: c in db <==> InBounds(g.layout, c) && (c.row < i || (c.row == i && c.col < j)))
    && (forall c :: c in db ==> LocalTable(g.layout, db[c], c))
    && (complete ==> forall c :: c in db ==> ShortestTable(g.layout, db[c], c))
  }

  /** Recording the table of cell `(i, j)` advances the frontier by one cell. */
  lemma TableStep(g: Grid, db: map<Pos, map<Pos, real>>, i: int, j: int, complete: bool,
                  dist: map<Pos, real>, settled: bool)
    requires 0 <= i < g.layout.height && 0 <= j < g.layout.width
    requires TableBefore(g, db, i, j, complete)
    requires LocalTable(g.layout, dist, Pos(i, j))
    requires settled ==> ShortestTable(g.layout, dist, Pos(i, j))
    ensures TableBefore(g, db[Pos(i, j) := dist], i, j + 1, complete && settled)
  {
  }

  /** One row of the loops at lines 137-139. */
  method BuildLddbRow(g: Grid, fuel: nat, i: int, db0: map<Pos, map<Pos, real>>, complete0: bool)
    returns (db: map<Pos, map<Pos, real>>, complete: bool)
    requires Wired(g) && 0 <= i < g.layout.height
    requires TableBefore(g, db0, i, 0, complete0)
    ensures TableBefore(g, db, i + 1, 0, complete)
  {
    db, complete := db0, complete0;
    var j := 0;
    while j < g.layout.width
      invariant 0 <= j <= g.layout.width
      invariant TableBefore(g, db, i, j, complete)
    {
      var dist, settled := Dijkstra(g, Pos(i, j), fuel);
      if settled {
        SettledIsShortest(g, dist, Pos(i, j));
      }
      TableStep(g, db, i, j, complete, dist, settled);
      db := db[Pos(i, j) := dist];
      complete := complete && settled;
      j := j + 1;
    }
  }

  /** `LDDB.__init__`: runs Dijkstra from every cell, row by row. `complete` reports that every run
      drained its queue within `fuel` pops. */
  method BuildLddb(g: Grid, fuel: nat) returns (db: map<Pos, map<Pos, real>>, complete: bool)
    requires Wired(g)
    ensures Table(g, db)
    ensures complete ==> forall c :: c in db ==> ShortestTable(g.layout, db[c], c)
  {
    db, complete := map[], true;
    var i := 0;
    while i < g.layout.height
      invariant 0 <= i <= g.layout.height
      invariant TableBefore(g, db, i, 0, complete)
    {
      db, complete := BuildLddbRow(g, fuel, i, db, complete);
      i := i + 1;
    }
  }
}

=== FILE: queues.dfy ===
/** The binary heaps of lines 121-129 and 159-181, seen as bags of `(key, coordinate)` entries. Only
    what `heappop` returns matters to the search, not the heap's internal layout. */
module Queues {
  import opened Geometry

  /** A heap entry: `(dist, cell)` in the Dijkstra queue, `(heapval, block)` in the block queue. */
  datatype Entry = Entry(key: real, at: Pos)

  /** Python's tuple order on entries: by key, ties broken by coordinate through `Cell.__lt__` and
      `Block.__lt__` (lines 33-34 and 54-55). Reflexive, so an entry precedes itself. */
  predicate Precedes(a: Entry, b: Entry) {
    || a.key < b.key
    || (a.key == b.key && (a.at.row < b.at.row || (a.at.row == b.at.row && a.at.col <= b.at.col)))
  }

  /** Entries are totally ordered, so the least entry of a queue is determined by its contents. */
  lemma LeastUnique(q: seq<Entry>, a: Entry, b: Entry)
    requires a in q && b in q
    requires forall x :: x in q ==> Precedes(a, x)
    requires forall x :: x in q ==> Precedes(b, x)
    ensures a == b
  {
    assert Precedes(a, b) && Precedes(b, a);
  }

  /** `heappop`: removes the least entry and returns it with the entries left behind. */
  method PopMin(q: seq<Entry>) returns (e: Entry, rest: seq<Entry>)
    requires |q| > 0
    ensures e in q
    ensures forall x :: x in q ==> Precedes(e, x)
    ensures multiset(rest) + multiset{e} == multiset(q)
    ensures forall x :: x in rest ==> x in q
    ensures forall x :: x in q && x != e ==> x in rest
  {
    var m := 0;
    var i := 1;
    while i < |q|
      invariant 1 <= i <= |q| && 0 <= m < i
      invariant forall j :: 0 <= j < i ==> Precedes(q[m], q[j])
    {
      if !Precedes(q[m], q[i]) {
        m := i;
      }
      i := i + 1;
    }
    e := q[m];
    rest := q[..m] + q[m + 1..];
    assert q == q[..m] + [e] + q[m + 1..];
    forall x | x in q && x != e
      ensures x in rest
    {
      var j :| 0 <= j < |q| && q[j] == x;
      if j < m {
        assert rest[j] == x;
      } else {
        assert j != m;
        assert rest[j - 1] == x;
      }
    }
  }
}

=== FILE: state.dfy ===
/** The per-query search state and its resets (blockastar.py lines 24, 27-28, 42-49, 109-115) and
    `initBlock` (lines 142-149). */
module SearchState {
  import opened Geometry
  import opened Costs
  import opened Grids

  /** The fields a query mutates: `Cell.g` of every cell, `Block.ingress` and `Block.heapval` of
      every block, keyed by coordinate. */
  datatype State = State(g: map<Pos, Cost>, ingress: map<Pos, set<Pos>>, heapval: map<Pos, Cost>)

  /** The state has a field for exactly the cells and the blocks of layout `l`. */
  ghost predicate Shaped(l: Layout, st: State) {
    && (forall p {:trigger p in st.g} :: p in st.g <==> InBounds(l, p))
    && (forall b {:trigger b in st.ingress} :: b in st.ingress <==> InBlockRange(l, b))
    && (forall b {:trigger b in st.heapval} :: b in st.heapval <==> InBlockRange(l, b))
  }

  /** No query in progress: every `g` and `heapval` is infinite and every `ingress` set is empty. */
  ghost predicate Quiescent(l: Layout, st: State) {
    && Shaped(l, st)
    && (forall p :: p in st.g ==> st.g[p] == Inf)
    && (forall b :: b in st.ingress ==> st.ingress[b] == {})
    && (forall b :: b in st.heapval ==> st.heapval[b] == Inf)
  }

  /** The state the constructors leave (lines 24, 42 and 44). */
  function Fresh(l: Layout): (st: State)
    ensures Quiescent(l, st)
  {
    State(map r, c | 0 <= r < l.height && 0 <= c < l.width :: Pos(r, c) := Inf,
          map r, c | 0 <= r < BlockRows(l) && 0 <= c < BlockCols(l) :: Pos(r, c) := {},
          map r, c | 0 <= r < BlockRows(l) && 0 <= c < BlockCols(l) :: Pos(r, c) := Inf)
  }

  /** Two quiescent states of the same layout are the same state. */
  lemma QuiescentUnique(l: Layout, a: State, b: State)
    requires Quiescent(l, a) && Quiescent(l, b)
    ensures a == b
  {
    assert a.g == b.g;
    assert a.ingress == b.ingress;
    assert a.heapval == b.heapval;
  }

  /** `Cell.reset` (lines 27-28): the cell's `g` becomes infinite and nothing else changes. */
  function ResetCell(st: State, c: Pos): (r: State)
    requires c in st.g
    ensures r.g.Keys == st.g.Keys && r.g[c] == Inf
    ensures forall p :: p in st.g && p != c ==> r.g[p] == st.g[p]
    ensures r.ingress == st.ingress && r.heapval == st.heapval
  {
    st.(g := st.g[c := Inf])
  }

  /** `Block.reset` (lines 47-49): the block's `ingress` empties, its `heapval` becomes infinite, and
      nothing else changes. */
  function ResetBlock(st: State, b: Pos): (r: State)
    requires b in st.ingress && b in st.heapval
    ensures r.ingress.Keys == st.ingress.Keys && r.heapval.Keys == st.heapval.Keys
    ensures r.ingress[b] == {} && r.heapval[b] == Inf
    ensures forall x :: x in st.ingress && x != b ==> r.ingress[x] == st.ingress[x]
    ensures forall x :: x in st.heapval && x != b ==> r.heapval[x] == st.heapval[x]
    ensures r.g == st.g
  {
    st.(ingress := st.ingress[b := {}], heapval := st.heapval[b := Inf])
  }

  /** Blocks before row `i` (and before column `j` of row `i`) have been reset. */
  ghost predicate BlocksResetBefore(l: Layout, st: State, i: int, j: int) {
    && Shaped(l, st)
    && forall b :: b in st.ingress && (b.row < i || (b.row == i && b.col < j)) ==>
         st.ingress[b] == {} && st.heapval[b] == Inf
  }

  /** Cells before row `i` (and before column `j` of row `i`) have been reset. */
  ghost predicate CellsResetBefore(l: Layout, st: State, i: int, j: int) {
    && Shaped(l, st)
    && (forall b :: b in st.ingress ==> st.ingress[b] == {} && st.heapval[b] == Inf)
    && forall p :: p in st.g && (p.row < i || (p.row == i && p.col < j)) ==> st.g[p] == Inf
  }

  /** One row of the block loop at lines 110-112. */
  method ResetBlockRow(l: Layout, st0: State, i: int) returns (st: State)
    requires 0 <= i < BlockRows(l) && BlocksResetBefore(l, st0, i, 0)
    ensures BlocksResetBefore(l, st, i + 1, 0)
  {
    st := st0;
    var j := 0;
    while j < BlockCols(l)
      invariant 0 <= j <= BlockCols(l)
      invariant BlocksResetBefore(l, st, i, j)
    {
      st := ResetBlock(st, Pos(i, j));
      j := j + 1;
    }
  }

  /** One row of the cell loop at lines 113-115. */
  method ResetCellRow(l: Layout, st0: State, i: int) returns (st: State)
    requires 0 <= i < l.height && CellsResetBefore(l, st0, i, 0)
    ensures CellsResetBefore(l, st, i + 1, 0)
  {
    st := st0;
    var j := 0;
    while j < l.width
      invariant 0 <= j <= l.width
      invariant CellsResetBefore(l, st, i, j)
    {
      st := ResetCell(st, Pos(i, j));
      j := j + 1;
    }
  }

  /** `Grid.reset`: resets every block, then every cell. Whatever query ran before, the result is the
      state the constructors leave. The grid's adjacency and egress lists are a separate value that
      this does not touch. */
  method ResetGrid(l: Layout, st0: State) returns (st: State)
    requires Shaped(l, st0)
    ensures Quiescent(l, st)
    ensures st == Fresh(l)
  {
    st := st0;
    var i := 0;
    while i < BlockRows(l)
      invariant 0 <= i <= BlockRows(l)
      invariant BlocksResetBefore(l, st, i, 0)
    {
      st := ResetBlockRow(l, st, i);
      i := i + 1;
    }
    i := 0;
    while i < l.height
      invariant 0 <= i <= l.height
      invariant CellsResetBefore(l, st, i, 0)
    {
      st := ResetCellRow(l, st, i);
      i := i + 1;
    }
    QuiescentUnique(l, st, Fresh(l));
  }

  /** The `tipe` argument of `initBlock`. */
  datatype Side = Start | Goal

  /** The finite-distance cells of an egress list, as `initBlock` adds them to `ingress`. */
  function Reached(cs: seq<Pos>, dist: map<Pos, real>): (r: set<Pos>)
    ensures forall c :: c in r <==> c in cs && c in dist
  {
    set c | c in cs && c in dist
  }

  /** The loop of lines 145-148 over egress list `cs` of `block`, with distance table `dist`. */
  method SeedIngress(cs: seq<Pos>, dist: map<Pos, real>, block: Pos, st0: State) returns (st: State)
    requires block in st0.ingress && forall c :: c in cs ==> c in st0.g
    ensures st.g.Keys == st0.g.Keys
    ensures forall c :: c in cs ==> st.g[c] == Get(dist, c)
    ensures forall c :: c in st0.g && c !in cs ==> st.g[c] == st0.g[c]
    ensures st.ingress.Keys == st0.ingress.Keys
    ensures st.ingress[block] == st0.ingress[block] + Reached(cs, dist)
    ensures forall b :: b in st0.ingress && b != block ==> st.ingress[b] == st0.ingress[b]
    ensures st.heapval == st0.heapval
  {
    var gs, ing := st0.g, st0.ingress;
    var k := 0;
    assert Reached(cs[..k], dist) == {};
    while k < |cs|
      invariant 0 <= k <= |cs|
      invariant gs.Keys == st0.g.Keys && ing.Keys == st0.ingress.Keys
      invariant forall c :: c in cs[..k] ==> gs[c] == Get(dist, c)
      invariant forall c :: c in st0.g && c !in cs[..k] ==> gs[c] == st0.g[c]
      invariant ing[block] == st0.ingress[block] + Reached(cs[..k], dist)
      invariant forall b :: b in st0.ingress && b != block ==> ing[b] == st0.ingress[b]
    {
      var c := cs[k];
      assert cs[..k + 1] == cs[..k] + [c];
      gs := gs[c := Get(dist, c)];
      if gs[c] != Inf {
        ing := ing[block := ing[block] + {c}];
      }
      k := k + 1;
    }
    assert cs[..k] == cs;
    st := State(gs, ing, st0.heapval);
  }

  /** `initBlock(lddb, cell, tipe)`: for the start cell, every egress cell `c` of its block gets
      `g = dist[cell][c]` and joins `ingress` when that is finite; for the goal cell nothing changes.
      Either way the cell's block is returned. */
  method InitBlock(g: Grid, db: map<Pos, map<Pos, real>>, st0: State, cell: Pos, side: Side)
    returns (block: Pos, st: State)
    requires InBounds(g.layout, cell) && cell in db
    requires EgressIndexed(g) && Shaped(g.layout, st0)
    ensures block == BlockOf(g.layout, cell) && InBlockRange(g.layout, block)
    ensures Shaped(g.layout, st)
    ensures side == Goal ==> st == st0
    ensures side == Start ==>
      && st.g.Keys == st0.g.Keys
      && (forall c :: c in g.egress[block] ==> st.g[c] == Get(db[cell], c))
      && (forall c :: c in st0.g && c !in g.egress[block] ==> st.g[c] == st0.g[c])
      && st.ingress.Keys == st0.ingress.Keys
      && st.ingress[block] == st0.ingress[block] + Reached(g.egress[block], db[cell])
      && (forall b :: b in st0.ingress && b != block ==> st.ingress[b] == st0.ingress[b])
      && st.heapval == st0.heapval
  {
    var l := g.layout;
    block := BlockOf(l, cell);
    BlockInRange(l, cell);
    st := st0;
    if side == Start {
      st := SeedIngress(g.egress[block], db[cell], block, st0);
    }
  }
}

=== FILE: walks.dfy ===
/** Walks in the grid's cell graph, their lengths, and how they compose. */
module Walks {
  import opened Geometry
  import opened Grids

  /** A sequence of cells from `a` to `b` in which every step is a move. */
  predicate IsWalk(l: Layout, w: seq<Pos>, a: Pos, b: Pos) {
    && |w| >= 1 && w[0] == a && w[|w| - 1] == b
    && forall i :: 0 <= i < |w| - 1 ==> IsMove(l, w[i], w[i + 1])
  }

  /** Every cell of `w` lies in block `blk`. */
  predicate InBlock(l: Layout, w: seq<Pos>, blk: Pos) {
    forall i :: 0 <= i < |w| ==> BlockOf(l, w[i]) == blk
  }

  /** A walk that never leaves the block it starts in: what `neighboursin` edges can produce. */
  predicate IsLocalWalk(l: Layout, w: seq<Pos>, a: Pos, b: Pos) {
    IsWalk(l, w, a, b) && InBlock(l, w, BlockOf(l, a))
  }

  /** A walk from an in-bounds cell ends in bounds: every later cell is the target of a move. */
  lemma WalkEndInBounds(l: Layout, w: seq<Pos>, a: Pos, b: Pos)
    requires IsWalk(l, w, a, b) && InBounds(l, a)
    ensures InBounds(l, b)
  {
    if |w| > 1 {
      assert IsMove(l, w[|w| - 2], b);
    }
  }

  /** The sum of the octile weights of a walk's steps. */
  function Length(w: seq<Pos>): (r: real)
    ensures 0.0 <= r
    decreases |w|
  {
    if |w| <= 1 then 0.0 else Length(w[..|w| - 1]) + Octile(w[|w| - 2], w[|w| - 1])
  }

  function Reverse(w: seq<Pos>): (r: seq<Pos>)
    ensures |r| == |w|
    ensures forall i :: 0 <= i < |w| ==> r[i] == w[|w| - 1 - i]
  {
    seq(|w|, i requires 0 <= i < |w| => w[|w| - 1 - i])
  }

  /** One more move at the end of a walk adds its weight. */
  lemma Extend(l: Layout, w: seq<Pos>, a: Pos, b: Pos, c: Pos)
    requires IsWalk(l, w, a, b) && IsMove(l, b, c)
    ensures IsWalk(l, w + [c], a, c)
    ensures Length(w + [c]) == Length(w) + Octile(b, c)
  {
    assert (w + [c])[..|w|] == w;
  }

  /** The same, for a walk confined to one block. */
  lemma ExtendLocal(l: Layout, w: seq<Pos>, a: Pos, b: Pos, c: Pos)
    requires IsLocalWalk(l, w, a, b) && IsMove(l, b, c) && SameBlock(l, b, c)
    ensures IsLocalWalk(l, w + [c], a, c)
    ensures Length(w + [c]) == Length(w) + Octile(b, c)
  {
    Extend(l, w, a, b, c);
  }

  /** One more cell at the front of a walk adds the weight of its first step. */
  lemma {:induction false} LengthCons(x: Pos, w: seq<Pos>)
    requires |w| >= 1
    ensures Length([x] + w) == Octile(x, w[0]) + Length(w)
    decreases |w|
  {
    if |w| > 1 {
      var w' := w[..|w| - 1];
      assert ([x] + w)[..|w|] == [x] + w';
      LengthCons(x, w');
    } else {
      assert ([x] + w)[..1] == [x];
    }
  }

  /** A walk read backwards is a walk of the same length. */
  lemma {:induction false} ReverseWalk(l: Layout, w: seq<Pos>, a: Pos, b: Pos)
    requires IsWalk(l, w, a, b)
    ensures IsWalk(l, Reverse(w), b, a)
    ensures Length(Reverse(w)) == Length(w)
    decreases |w|
  {
    if |w| > 1 {
      var w' := w[..|w| - 1];
      var c := w[|w| - 2];
      assert IsWalk(l, w', a, c);
      ReverseWalk(l, w', a, c);
      MoveSymmetric(l, c, b);
      OctileSymmetric(c, b);
      assert Reverse(w) == [b] + Reverse(w');
      LengthCons(b, Reverse(w'));
    }
  }

  /** A local walk read backwards is a local walk from the other end. */
  lemma ReverseLocalWalk(l: Layout, w: seq<Pos>, a: Pos, b: Pos)
    requires IsLocalWalk(l, w, a, b)
    ensures IsLocalWalk(l, Reverse(w), b, a)
    ensures Length(Reverse(w)) == Length(w)
  {
    ReverseWalk(l, w, a, b);
    assert BlockOf(l, w[|w| - 1]) == BlockOf(l, a);
  }

  /** Two walks meeting at `b` join into one whose length is the sum. */
  lemma {:induction false} Join(l: Layout, u: seq<Pos>, v: seq<Pos>, a: Pos, b: Pos, c: Pos)
    requires IsWalk(l, u, a, b) && IsWalk(l, v, b, c)
    ensures IsWalk(l, u + v[1..], a, c)
    ensures Length(u + v[1..]) == Length(u) + Length(v)
    decreases |v|
  {
    if |v| == 1 {
      assert u + v[1..] == u;
    } else {
      var v' := v[..|v| - 1];
      var d := v[|v| - 2];
      assert IsWalk(l, v', b, d);
      Join(l, u, v', a, b, d);
      assert u + v[1..] == (u + v'[1..]) + [c];
      Extend(l, u + v'[1..], a, d, c);
    }
  }

  /** The octile distance never exceeds the length of a walk: the heuristic is admissible. */
  lemma {:induction false} Admissible(l: Layout, w: seq<Pos>, a: Pos, b: Pos)
    requires IsWalk(l, w, a, b)
    ensures Octile(a, b) <= Length(w)
    decreases |w|
  {
    if |w| > 1 {
      var w' := w[..|w| - 1];
      var d := w[|w| - 2];
      assert IsWalk(l, w', a, d);
      Admissible(l, w', a, d);
      OctileTriangle(a, d, b);
    }
  }

  /** Some walk from `a` to `b` has length `d`. */
  ghost predicate Reaches(l: Layout, a: Pos, b: Pos, d: real) {
    exists w :: IsWalk(l, w, a, b) && Length(w) == d
  }

  /** A walk that reaches `b` followed by a move to `c`. */
  lemma ReachesExtend(l: Layout, a: Pos, b: Pos, c: Pos, d: real)
    requires Reaches(l, a, b, d) && IsMove(l, b, c)
    ensures Reaches(l, a, c, d + Octile(b, c))
  {
    var w :| IsWalk(l, w, a, b) && Length(w) == d;
    Extend(l, w, a, b, c);
  }

  /** A walk that reaches `b` followed by an in-block walk from `c` to `b` read backwards. */
  lemma ReachesBack(l: Layout, a: Pos, b: Pos, d: real, v: seq<Pos>, c: Pos)
    requires Reaches(l, a, b, d) && IsWalk(l, v, c, b)
    ensures Reaches(l, a, c, d + Length(v))
  {
    var u :| IsWalk(l, u, a, b) && Length(u) == d;
    ReverseWalk(l, v, c, b);
    Join(l, u, Reverse(v), a, b, c);
    assert IsWalk(l, u + Reverse(v)[1..], a, c);
  }

  /** The octile distance is a lower bound on every reached length. */
  lemma ReachesAdmissible(l: Layout, a: Pos, b: Pos, d: real)
    requires Reaches(l, a, b, d)
    ensures Octile(a, b) <= d
  {
    var w :| IsWalk(l, w, a, b) && Length(w) == d;
    Admissible(l, w, a, b);
  }
}
